=== FILE: README.md ===
# seoulfit, modelled in Dafny

seoulfit recommends Korean fashion brands to Japanese shoppers. A user picks
styles, fits, colours, categories, a body type and a budget on the fashion
page. The Next.js client then does the following:

- ranks the brand catalogue with its own scorer;
- crawls Musinsa brand pages (through Puppeteer) for product cards;
- reads product detail pages;
- proxies product images;
- converts won to yen with a memoised exchange rate.

A Python backend offers a second scorer and a Playwright crawler with a
six-hour file cache. As written, that crawler answers no products: its visit
fails on a method Playwright does not have (see "## Findings"). Its AI recommendation endpoint fills crawled products
with tags and descriptions, and its Stripe checkout retries with card-only
payment when konbini is refused.

This project models that core as pure Dafny functions over immutable data.

- Everything the program gets from outside becomes a parameter, answered by
  an oracle of the caller's choosing:
  - the browser's view of a page (the ancestors of every link, the images,
    the `dl` lists and table rows);
  - the file system (an unreadable or unparseable file is `None`);
  - the clock, in milliseconds or seconds as the source reads it;
  - the exchange-rate service;
  - the language model's plan;
  - Stripe's answers.
- A JavaScript property lookup with a missing key reads the property
  `"undefined"` (`Catalog.JsKey`).
- JavaScript truthiness and `??`, and Python's `dict.get`/`setdefault`, are
  written out case by case.

Modules follow the program's structure:

| module | models |
|---|---|
| `Catalog` | brands, items, client cache entries |
| `JsScore`, `PyScore` | the two match scorers |
| `Ranking` | the stable sort both rankers rely on |
| `Extract` | the link filter and the card walks of the page scripts |
| `Cdn` | the guessed CDN image URL |
| `Detail` | image lists and info fields of a detail page |
| `CrawlCache`, `CrawlRoute`, `DebugCrawl` | the cached crawl routes |
| `ProductDetail`, `RecommendRoute`, `ImgProxy`, `Exchange` | the other routes |
| `FormatPrice` | price formatting |
| `FashionTerms` | the term tables |
| `FashionPage` | the state updates of the fashion page |
| `PyCrawler` | `backend/crawler.py` |
| `BackendApi` | `backend/main.py` |
| `Wrappers`, `Text`, `Seqs`, `Arith` | shared helpers |

## Model

| member | source | states |
|---|---|---|
| JsScore.Round | seoulfit-client/lib/matchScore.js:87 | `Math.round(p / q)` for non-negative operands is the integer nearest to `p/q`, halves rounded up, stated by its defining inequality |
| JsScore.RoundScaled | seoulfit-client/lib/matchScore.js:58 | rounding `w·h/n` with `h ≤ n` stays within `[0, w]`, is `w` when every selected entry hits and 0 when none does |
| JsScore.CatPoints | seoulfit-client/lib/matchScore.js:52-59 | the category part is 40 times the share of selected categories the brand lists, rounded half up (`2n·p ≤ 80h + n < 2n·p + 2n`); at most 40, and 0 when no category is selected |
| JsScore.CatHitsAreListed | seoulfit-client/lib/matchScore.js:53-56 | counting the selected categories that hit through `CAT_MAP` is counting those the brand lists |
| JsScore.StylePoints | seoulfit-client/lib/matchScore.js:61-73 | the style part is 35 times the share of selected styles that hit, rounded half up (`2n·p ≤ 70h + n < 2n·p + 2n`); at most 35, and 0 when no style is selected |
| JsScore.BudgetPoints | seoulfit-client/lib/matchScore.js:75-83 | the budget part is 25 exactly when a budget is selected, `BUDGET_MAP` knows it and the brand's price range meets the band (a zero bound counts as absent); otherwise 0 |
| JsScore.MaxScore | seoulfit-client/lib/matchScore.js:53-77 | the reachable maximum is at most 100, and 0 exactly when nothing is selected |
| JsScore.CalcMatchScore | seoulfit-client/lib/matchScore.js:42-88 | the score is a percentage in `[0, 100]`; it is 50 when nothing is selected, and otherwise the rounded share of the points earned in the reachable maximum |
| JsScore.CatHitIsMembership | seoulfit-client/lib/matchScore.js:4-10 | every id of `CAT_MAP` maps to itself, so a selected category hits exactly when the brand lists it |
| JsScore.UnknownStyleNeverHits | seoulfit-client/lib/matchScore.js:66-69 | a style id missing from `STYLE_TAG_MAP` relates to no tag and never hits |
| JsScore.UnknownBudgetEarnsNothing | seoulfit-client/lib/matchScore.js:76-82 | a selected budget id unknown to `BUDGET_MAP` raises the maximum by 25 but earns nothing |
| JsScore.FullMatchScores100 | seoulfit-client/lib/matchScore.js:42-88 | when every selected category and style hits and the budget overlaps, the score is 100 |
| JsScore.NoMatchScores0 | seoulfit-client/lib/matchScore.js:42-88 | when something is selected and nothing hits, the score is 0 |
| JsScore.RankKeys | seoulfit-client/lib/matchScore.js:96-100 | the sort key of each brand is its match score plus 5 for a confirmed idol reference |
| JsScore.Scored | seoulfit-client/lib/matchScore.js:91-95 | every brand gets its own match score, in input order, and nothing else changes |
| JsScore.RankBrands | seoulfit-client/lib/matchScore.js:90-101 | the ranked list is the scored brands, arranged in the stable order of their keys |
| JsScore.RankBrandsOrdered | seoulfit-client/lib/matchScore.js:96-100 | the ranked list is ordered by non-increasing `matchScore` plus boost, and brands with equal keys keep their input order |
| JsScore.RankBrandsPermutes | seoulfit-client/lib/matchScore.js:90-101 | the ranked list is a permutation of the scored brands |
| Ranking.Insert | seoulfit-client/lib/matchScore.js:96-100 | insertion adds exactly the new position to the order |
| Ranking.InsertSorted | seoulfit-client/lib/matchScore.js:96-100 | inserting into a list ordered by key (ties by position) keeps it ordered |
| Ranking.OrderPrefixSpec | seoulfit-client/lib/matchScore.js:96-100 | the order of the first `n` positions holds exactly those positions, sorted |
| Ranking.Order | seoulfit-client/lib/matchScore.js:96-100 | the stable descending order: every position exactly once, keys non-increasing, ties in input order |
| Ranking.Arrange | seoulfit-client/lib/matchScore.js:96-100 | arranging by a list of positions yields the elements at those positions |
| Ranking.ArrangeInsert | seoulfit-client/lib/matchScore.js:96-100 | inserting a position adds exactly its element to the arranged multiset |
| Ranking.ArrangePrefix | seoulfit-client/lib/matchScore.js:96-100 | the arranged first `n` positions are a permutation of the first `n` elements |
| Ranking.OrderPermutes | seoulfit-client/lib/matchScore.js:96-100 | arranging a sequence in the sorted order is a permutation of it |
| Ranking.SortedUnique | seoulfit-client/lib/matchScore.js:96-100 | only one arrangement of all positions is sorted by key with ties by position, so any stable sort gives this ranking |
| PyScore.StylePoints | backend/crawler.py:152-161 | the style part is 35 times the share of selected styles that match, truncated (`n·p ≤ 35h < n·(p + 1)`); at most 35, and 0 when no style is selected |
| PyScore.BudgetPoints | backend/crawler.py:163-170 | the budget part is 25 exactly when the label names a band of `BUDGET_RANGE` and the brand's `[min, max]` (defaults 0 and 9,999,999) meets it |
| PyScore.CalcMatchScore | backend/crawler.py:147-176 | the backend score is at most 35 + 25 + 5 |
| PyScore.UnknownStyleIsOwnKeyword | backend/crawler.py:156-158 | a label missing from `_STYLE_MAP` matches exactly the brand tags that contain it |
| PyScore.StylePointsFull | backend/crawler.py:153-161 | the style part is the full 35 exactly when every selected style matches |
| PyScore.Scores | backend/crawler.py:180 | each brand is paired with its own score, in input order |
| PyScore.RankBrands | backend/crawler.py:179-182 | the ranked list is the brands in the stable order of their scores, highest first |
| PyScore.RankBrandsStable | backend/crawler.py:181-182 | the ranking is a permutation of its input, and equal scores keep their input order |
| Extract.ProductsMatch | seoulfit-client/app/api/crawl/route.js:43 | the goods number read from an href is a non-empty run of digits |
| Extract.ProductsMatchIffTest | seoulfit-client/app/api/crawl/route.js:37-43 | the `match` finds a goods number exactly when the filter's `test` succeeds |
| Extract.ProductsMatchOf | seoulfit-client/app/api/crawl/route.js:43 | the goods number read from `/products/<digits>` is those digits |
| Extract.NameLinks | seoulfit-client/app/api/crawl/route.js:36-39 | the links used are exactly the first twelve qualifying links in page order (a prefix of the qualifying links), all of them when fewer qualify |
| Seqs.FilterTake | seoulfit-client/app/api/crawl/route.js:36-39 | filtering and then taking `n` gives the first `n` elements that pass the filter, in order, each passing it |
| Extract.Walk6 | seoulfit-client/app/api/crawl/route.js:48-66 | without an ancestor holding an image or a price element among the first six, the walk yields price 0 and no image |
| Extract.Walk6Nearest | seoulfit-client/app/api/crawl/route.js:48-66 | the 6-level walk takes both price and image from the nearest such ancestor |
| Extract.CrawlRecord | seoulfit-client/app/api/crawl/route.js:43-62 | a record carries the digit goods number of its href, the id `musinsa_<goodsNo>`, the link, and a trimmed name longer than two UTF-16 code units |
| Extract.ExtractCrawl | seoulfit-client/app/api/crawl/route.js:36-80 | the crawl route yields one record per link used, in order |
| Extract.CrawlRecords | seoulfit-client/app/api/crawl/route.js:40-62 | the loop over the links used pushes one record per link, in link order |
| Extract.Walk8 | seoulfit-client/app/api/debug-crawl/route.js:50-70 | the early-exit loop computes the first goods image and the first price of at least four digits among the first eight ancestors |
| Extract.Walk8Level | seoulfit-client/app/api/debug-crawl/route.js:52-68 | one level fills an empty slot from that level and keeps a filled one |
| Extract.Walk8Done | seoulfit-client/app/api/debug-crawl/route.js:69 | leaving once both slots are filled changes neither |
| Extract.DebugRaw | seoulfit-client/app/api/debug-crawl/route.js:43-85 | a raw record always has an image: the walk's image, else the CDN guess from the goods number |
| Extract.DebugItem | seoulfit-client/app/api/debug-crawl/route.js:77-85 | the debug item keeps the raw record's name, price and image and gets the id `musinsa_<goodsNo>` |
| Extract.ExtractRaw | backend/crawler.py:46-96 | the backend's page script yields one raw record per link used, each with a goods number and an image |
| Extract.RawRecords | backend/crawler.py:53-93 | the page script pushes one raw record per link used, in link order |
| Extract.ExtractDebug | seoulfit-client/app/api/debug-crawl/route.js:36-88 | the debug route yields one item per raw record, in order |
| Extract.DebugItems | seoulfit-client/app/api/debug-crawl/route.js:77-85 | each raw record becomes one debug item, in order |
| Extract.DebugItemsComplete | seoulfit-client/app/api/debug-crawl/route.js:73-85 | every debug item has an image and a goods number |
| Extract.DebugExample | seoulfit-client/app/api/debug-crawl/route.js:73-75 | a link to `/products/5621602` with no image nearby gets `…/5621/5621602/5621602_1_500.jpg` under the CDN base |
| Extract.ExampleGoods | seoulfit-client/app/api/debug-crawl/route.js:43 | the goods number of `/products/5621602` is `5621602` |
| Cdn.CdnUrl | backend/crawler.py:189-197 | the guessed URL is empty exactly for an empty goods number, and otherwise starts with the CDN base and has the length of directory, goods number and file name |
| Cdn.GoodsOfUrl | backend/crawler.py:193-197 | the reader accepts only URLs that the guess rebuilds from the goods number it reads |
| Cdn.GoodsOfCdnUrl | backend/crawler.py:189-197 | reading the goods number back out of its guessed URL gives it back |
| Cdn.CdnUrlInjective | backend/crawler.py:189-197 | distinct goods numbers give distinct guessed URLs |
| Cdn.CdnExample | backend/test_crawler.py:84 | the test script's pair: `5621602` gives `5621/5621602/5621602_1_500.jpg` under the CDN base |
| Cdn.BaseSpelled | backend/crawler.py:195 | the CDN base is `https://image.msscdn.net/images/goods_img/` |
| Detail.Classify | seoulfit-client/app/api/product-detail/route.js:51-57 | one entry sets exactly the fields whose pattern its key matches, to the entry's value, and every other field keeps its value |
| Detail.LastMatch | seoulfit-client/app/api/product-detail/route.js:44-59 | the value of the last entry whose key matches, absent exactly when none matches |
| Detail.ApplySpec | seoulfit-client/app/api/product-detail/route.js:44-73 | after the entries, a field holds its last matching value and the other fields are as before |
| Detail.TextEntries | seoulfit-client/app/api/debug-crawl/route.js:127-129 | each non-empty trimmed element text serves as both key and value |
| Detail.DebugInfoSpec | seoulfit-client/app/api/debug-crawl/route.js:126-135 | a field of `infoRows` is the last element text matching its pattern, and absent when none matches |
| Detail.Texts | seoulfit-client/app/api/product-detail/route.js:46-49 | one trimmed text per element |
| Detail.Pairs | seoulfit-client/app/api/product-detail/route.js:47-50 | `dt`/`dd` pairs by position, both non-empty |
| Detail.PairsFull | seoulfit-client/app/api/product-detail/route.js:47-50 | when every key has a non-empty value at its position, the pairs are exactly key `i` with value `i` |
| Detail.DlEntries | seoulfit-client/app/api/product-detail/route.js:44-59 | the entries of one `dl` have non-empty keys and values |
| Detail.DlEntriesFull | seoulfit-client/app/api/product-detail/route.js:44-59 | a `dl` whose every `dt` has its `dd` gives all its pairs in order |
| Detail.DlsEntries | seoulfit-client/app/api/product-detail/route.js:44-59 | every `dl` entry has a non-empty key and value |
| Detail.RowEntries | seoulfit-client/app/api/product-detail/route.js:62-67 | rows of fewer than two cells or with an empty key or value add nothing |
| Detail.DetailTableWins | seoulfit-client/app/api/product-detail/route.js:62-73 | a matching table row overrides every `dl` value of the field |
| Detail.DetailDlDecides | seoulfit-client/app/api/product-detail/route.js:44-59 | without a matching row, the `dl` pass alone decides a field |
| Detail.DetailSeasonStyleFromDl | seoulfit-client/app/api/product-detail/route.js:56-57 | season and style come from the `dl` pass only |
| Detail.DebugImagesSpec | seoulfit-client/app/api/debug-crawl/route.js:120-123 | the extra images are the first six distinct goods images of the page, in order of first occurrence, or all of them when there are fewer; a goods image is left out only when six others come before it |
| Detail.DetailImagesSpec | seoulfit-client/app/api/product-detail/route.js:33-39 | the extra images are the first eight distinct msscdn product photos of the page, in order of first occurrence, or all of them when there are fewer; a photo is left out only when eight others come before it |
| Seqs.Dedup | seoulfit-client/app/api/product-detail/route.js:37 | the `indexOf(src) === i` filter keeps every distinct element of the list exactly once and nothing else |
| Seqs.DedupFirstOrder | seoulfit-client/app/api/product-detail/route.js:37 | the kept elements appear in the order of their first occurrence in the list |
| Seqs.CapDedupSpec | seoulfit-client/app/api/product-detail/route.js:37-38 | de-duplicating and then taking `n` gives exactly the first `n` distinct elements, or all of them when there are fewer; an element is left out only when `n` others occur before it |
| ProductDetail.Get | seoulfit-client/app/api/product-detail/route.js:7-96 | 400 exactly without a goods number; a failed visit gives the failure answer (a 200 with `success: false`); a success carries the requested goods number and needs a visited page |
| ProductDetail.GetFindings | seoulfit-client/app/api/product-detail/route.js:33-88 | a successful visit answers the first eight distinct msscdn product photos of the page, in page order, and the info of its lists and rows |
| ProductDetail.GetPriceLikeCard | seoulfit-client/app/api/product-detail/route.js:81-83 | the answered price is the digits of the price text, as the crawl route's card walk reads it |
| ProductDetail.ShortPriceContrast | seoulfit-client/app/api/product-detail/route.js:81-83 | "900원" is 900 here, where the 8-level walk, which needs four digits, finds no price |
| ProductDetail.PricesAgree | seoulfit-client/app/api/debug-crawl/route.js:60-66 | where the 8-level walk does find a price, it equals the route's reading |
| CrawlCache.ToBrand | seoulfit-client/app/api/crawl/route.js:107-109 | a bare name becomes a brand whose id, Korean name and keyword are that name |
| CrawlCache.Step | seoulfit-client/app/api/crawl/route.js:111-121 | a fresh entry answers its products and leaves the cache alone; otherwise the crawl is stored under the key with the new stamp; other keys are untouched |
| CrawlCache.HitIgnoresCrawler | seoulfit-client/app/api/crawl/route.js:113-117 | a fresh entry answers whatever the crawler would return |
| CrawlCache.MissThenHit | seoulfit-client/app/api/crawl/route.js:104-121 | after a miss the entry is fresh for six hours and answers the crawled products |
| CrawlCache.RunAnswersEveryKey | seoulfit-client/app/api/crawl/route.js:106-122 | the results hold exactly the keys of the requested brands |
| CrawlCache.RunLeavesOtherKeys | seoulfit-client/app/api/crawl/route.js:106-122 | keys of no requested brand keep their cache entries |
| CrawlCache.RunCachesEveryKey | seoulfit-client/app/api/crawl/route.js:106-122 | the cache grows by exactly the keys of the requested brands |
| CrawlCache.RunPreserves | seoulfit-client/app/api/crawl/route.js:106-122 | a property of product lists that every crawl yields and the cache has is kept by the loop |
| CrawlCache.StepPreserves | seoulfit-client/app/api/crawl/route.js:111-121 | one brand's step keeps such a property |
| CrawlCache.Get | seoulfit-client/app/api/crawl/route.js:135-145 | `GET` answers `{}` for an unreadable file, the brand's entry or `{products: []}` for a brand parameter, and the whole cache otherwise |
| Catalog.LoadCache | seoulfit-client/app/api/crawl/route.js:101 | an unreadable cache file is read as `{}` |
| CrawlRoute.CrawlKey | seoulfit-client/app/api/crawl/route.js:111 | the key is the brand's `id`, else its keyword, else the property `"undefined"` |
| CrawlRoute.NamedKey | seoulfit-client/app/api/crawl/route.js:107-111 | a bare brand name is its own key |
| CrawlRoute.CrawlBrand | seoulfit-client/app/api/crawl/route.js:10-93 | a browser failure gives no products; otherwise the page's records |
| CrawlRoute.CrawlBrandWellFormed | seoulfit-client/app/api/crawl/route.js:43-62 | every crawled item carries a digit goods number and the id built from it |
| CrawlRoute.ExtractCrawlWellFormed | seoulfit-client/app/api/crawl/route.js:43-62 | every record extracted from a page carries a digit goods number and the id built from it |
| CrawlRoute.Post | seoulfit-client/app/api/crawl/route.js:95-133 | a body that is not JSON or a failed write gives a server error; otherwise the results hold exactly the keys of the requested brands |
| CrawlRoute.PostKeepsCacheWellFormed | seoulfit-client/app/api/crawl/route.js:95-133 | a cache of well-formed items stays so, and every answered list is well formed |
| CrawlRoute.PostKeepsOtherEntries | seoulfit-client/app/api/crawl/route.js:110-126 | entries of brands not in the request are written back unchanged |
| DebugCrawl.DebugKey | seoulfit-client/app/api/debug-crawl/route.js:177 | the key is the brand's `id` as a property name |
| DebugCrawl.KeysAgree | seoulfit-client/app/api/debug-crawl/route.js:177 | the two crawl routes share a cache entry exactly when the brand has an `id` |
| DebugCrawl.EnrichOne | seoulfit-client/app/api/debug-crawl/route.js:189-199 | a product changes only in its extra images and info, and only among the first six with a goods number |
| DebugCrawl.Enrich | seoulfit-client/app/api/debug-crawl/route.js:189-199 | the detail pass keeps the number of products |
| DebugCrawl.EnrichSpec | seoulfit-client/app/api/debug-crawl/route.js:189-199 | exactly the first six products with a goods number and a successful visit get that page's images and info; the others are unchanged |
| DebugCrawl.EnrichWellFormed | seoulfit-client/app/api/debug-crawl/route.js:189-199 | the detail pass keeps goods numbers and ids |
| DebugCrawl.Produce | seoulfit-client/app/api/debug-crawl/route.js:186-199 | a failed crawl gives no products; without `fetchDetail` the products are the page's items |
| DebugCrawl.ProduceWellFormed | seoulfit-client/app/api/debug-crawl/route.js:77-85 | every produced item carries a digit goods number and the id built from it |
| DebugCrawl.ExtractDebugWellFormed | seoulfit-client/app/api/debug-crawl/route.js:43-85 | every debug item extracted from a page carries a digit goods number and the id built from it |
| DebugCrawl.Post | seoulfit-client/app/api/debug-crawl/route.js:159-218 | a body that is not JSON or a failed write gives a server error; otherwise the results hold exactly the keys of the requested brands |
| DebugCrawl.PostKeepsCacheWellFormed | seoulfit-client/app/api/debug-crawl/route.js:159-218 | a cache of well-formed items stays so, and every answered list is well formed |
| RecommendRoute.CachedProducts | seoulfit-client/app/api/recommend/route.js:25 | a brand's products are its cache entry's, or none when the entry is missing |
| RecommendRoute.Post | seoulfit-client/app/api/recommend/route.js:6-33 | a body that is not JSON or an unreadable catalogue gives a server error; otherwise it answers ten brands, or all of them when there are fewer |
| RecommendRoute.PostIsTopOfRanking | seoulfit-client/app/api/recommend/route.js:14-26 | the `k`-th answer is the `k`-th ranked brand with its score and its cached products |
| RecommendRoute.PostKeepsBest | seoulfit-client/app/api/recommend/route.js:14-15 | no brand left out ranks above one that is kept |
| ImgProxy.Authority | seoulfit-client/app/api/img-proxy/route.js:7-10 | the authority is what follows `http://` or `https://`, up to the first `/`, `\`, `?` or `#` |
| ImgProxy.Host | seoulfit-client/app/api/img-proxy/route.js:7-10 | the host is the part of the authority after its last `@`, and it contains no `@` |
| ImgProxy.BackslashEndsHost | seoulfit-client/app/api/img-proxy/route.js:7-10 | `https://evil.example\.msscdn.net/a.jpg` passes the route's test, but its host is `evil.example` and the host test refuses it |
| ImgProxy.UserInfoNotHost | seoulfit-client/app/api/img-proxy/route.js:7-10 | `https://a.msscdn.net@evil.example/a.jpg` passes the route's test, but its host is `evil.example` and the host test refuses it |
| ImgProxy.Respond | seoulfit-client/app/api/img-proxy/route.js:5-37 | 400 without a URL, 403 for a refused one, 502 when the fetch throws, 404 when upstream answers not-ok; an ok answer is passed on as an image with its body, its own content type or `image/jpeg`, a day of caching and any origin, and an image is answered in no other case |
| ImgProxy.ProxyAsWritten | seoulfit-client/app/api/img-proxy/route.js:2-38 | the route as written serves an image only for a URL in which an allowed domain occurs somewhere, in whatever part of it |
| ImgProxy.Proxy | seoulfit-client/app/api/img-proxy/route.js:2-38 | with a host test, an image is fetched only for a URL whose host (after any `@`, before any `/`, `\`, `?` or `#`) is an allowed domain or one of its subdomains |
| ImgProxy.HostTestNarrows | seoulfit-client/app/api/img-proxy/route.js:7-10 | every URL the host test admits is admitted by the route as written, with the same answer |
| ImgProxy.HostContains | seoulfit-client/app/api/img-proxy/route.js:7-10 | a URL whose host is an allowed domain or its subdomain contains that domain, so the route's test admits it |
| ImgProxy.QueryCarriesDomain | seoulfit-client/app/api/img-proxy/route.js:7-10 | `https://evil.example/a.jpg?msscdn.net` passes the route's test and is fetched; the host test refuses it |
| ImgProxy.CdnUrlsAllowed | seoulfit-client/app/api/img-proxy/route.js:7 | the guessed CDN image URLs pass the host test |
| Exchange.Route | seoulfit-client/app/api/exchange/route.js:7-28 | a memo hit answers the memo; no key or a failed request answers 0.11 with `fallback`; a fetched rate is stored with the time |
| Exchange.GetExchangeRate | seoulfit-client/lib/formatPrice.js:8-25 | a memo hit returns the memo; a failure returns 0.11; a fetched rate is stored with the time |
| Exchange.RouteAgreesWithHelper | seoulfit-client/app/api/exchange/route.js:7-28 | with an API key, the route and the helper answer the same rate and keep the same memo |
| Exchange.FetchedRateIsReused | seoulfit-client/app/api/exchange/route.js:9-11 | a truthy rate fetched at a non-zero time answers every call of the next thirty minutes |
| Exchange.FalsyRateRefetches | seoulfit-client/app/api/exchange/route.js:9 | a missing or zero rate is stored but never reused |
| Exchange.InitialMisses | seoulfit-client/app/api/exchange/route.js:3-4 | the first call always asks the service |
| FormatPrice.Ceil | seoulfit-client/lib/formatPrice.js:29 | `Math.ceil` is the least integer not below its argument |
| FormatPrice.Grouped | seoulfit-client/lib/formatPrice.js:30 | the grouped digits are non-empty, start with a digit and have no leading zero |
| FormatPrice.Localized | seoulfit-client/lib/formatPrice.js:30 | a signed amount prints as its grouped digits, behind a minus sign when negative |
| FormatPrice.GroupedValue | seoulfit-client/lib/formatPrice.js:30 | dropping the separators of the grouped form gives the number back |
| FormatPrice.FormatKrw | seoulfit-client/lib/formatPrice.js:34-36 | a non-negative amount prints as its grouped digits followed by 원 |
| FormatPrice.FormatJpy | seoulfit-client/lib/formatPrice.js:28-31 | the yen price is the yen sign and the grouped digits of the amount rounded up |
| FormatPrice.FormatJpyRoundsUp | seoulfit-client/lib/formatPrice.js:28-31 | the printed yen amount is the least whole yen not below the converted amount |
| FormatPrice.FormatJpyExample | seoulfit-client/lib/formatPrice.js:28 | at the default rate, 10,000 won print as ¥1,100 |
| FashionTerms.GetTerm | seoulfit-client/lib/fashionTerms.js:203-205 | the property named by the language, falling back to the Korean one when it is absent or null |
| FashionTerms.GetTermDefault | seoulfit-client/lib/fashionTerms.js:203 | the default language is Korean |
| FashionTerms.GetTermLabels | seoulfit-client/lib/fashionTerms.js:7-152 | styles are labelled in Japanese and English; the key `tags` gives a style's tag list; every key a style lacks falls back to Korean; budgets have no English label |
| FashionTerms.StyleIdsUnique | seoulfit-client/lib/fashionTerms.js:7-152 | style ids are unique |
| FashionTerms.FitIdsUnique | seoulfit-client/lib/fashionTerms.js:155-163 | fit ids are unique |
| FashionTerms.ColorIdsUnique | seoulfit-client/lib/fashionTerms.js:166-182 | colour ids are unique |
| FashionTerms.CategoryAndBudgetIdsUnique | seoulfit-client/lib/fashionTerms.js:185-199 | category and budget ids are unique |
| FashionTerms.StylesAreScored | seoulfit-client/lib/fashionTerms.js:7-152 | every style the page offers has related tags in the client scorer |
| FashionTerms.CategoriesMapToThemselves | seoulfit-client/lib/fashionTerms.js:185-191 | the page's categories are exactly the ids of `CAT_MAP`, each mapping to itself |
| FashionTerms.BudgetsMatchScorer | seoulfit-client/lib/fashionTerms.js:194-199 | the budget table and `BUDGET_MAP` have the same ids with the same bounds |
| FashionTerms.BudgetsContiguous | seoulfit-client/lib/fashionTerms.js:194-199 | the bands are open below and above, and each upper bound is the next lower bound |
| FashionTerms.BudgetLabelsMatchBackend | seoulfit-client/lib/fashionTerms.js:194-199 | the Korean budget labels are exactly the backend's `BUDGET_RANGE` keys |
| FashionTerms.BudgetTestsAgree | seoulfit-client/lib/fashionTerms.js:194-199 | for prices within `[0, 9,999,999]` the client's and the backend's budget tests agree |
| FashionTerms.BudgetTestsDifferAboveCap | backend/crawler.py:35 | a brand priced from 10,000,000 won meets the client's open top band but not the backend's capped one |
| FashionPage.TranslateIdolRef | seoulfit-client/app/fashion/page.jsx:40-47 | Korean keeps the reference; otherwise idol and occasion are translated when the tables know them and kept when not, and `confirmed` never changes |
| FashionPage.LabelIdempotent | seoulfit-client/app/fashion/page.jsx:11-29 | translating a label twice is translating it once, for a table whose outputs it does not translate again |
| FashionPage.TranslateIdempotent | seoulfit-client/app/fashion/page.jsx:40-47 | translating a reference twice is translating it once |
| FashionPage.ToggleMulti | seoulfit-client/app/fashion/page.jsx:464-465 | toggling flips exactly the id's membership and appends a new id at the end |
| FashionPage.ToggleMultiTwice | seoulfit-client/app/fashion/page.jsx:464-465 | toggling an absent id twice restores the list |
| FashionPage.ToggleMultiNoDup | seoulfit-client/app/fashion/page.jsx:464-465 | toggling keeps a list free of duplicates |
| FashionPage.ToggleSingle | seoulfit-client/app/fashion/page.jsx:586 | a single-choice row selects the id unless it is the current choice, which clears it |
| FashionPage.ToggleSingleTwice | seoulfit-client/app/fashion/page.jsx:596 | toggling twice restores the choice exactly when it was empty or that id |
| FashionPage.AddCart | seoulfit-client/app/fashion/page.jsx:498 | adding appends the product and closes the detail view |
| FashionPage.RemoveCart | seoulfit-client/app/fashion/page.jsx:499 | removing an index drops exactly that entry and keeps the order; an index outside the cart changes nothing |
| FashionPage.AddThenRemove | seoulfit-client/app/fashion/page.jsx:498-499 | removing the last added product restores the cart |
| FashionPage.CartTotalAppend | seoulfit-client/app/fashion/page.jsx:376 | the total of two carts joined is the sum of their totals |
| FashionPage.AddCartTotal | seoulfit-client/app/fashion/page.jsx:376 | adding a product raises the total by its price |
| FashionPage.RemoveCartTotal | seoulfit-client/app/fashion/page.jsx:376 | removing an entry lowers the total by its price |
| FashionPage.SetProducts | seoulfit-client/app/fashion/page.jsx:493 | only the brands with the selected id get the crawled products; the rest are unchanged |
| FashionPage.SelectBrand | seoulfit-client/app/fashion/page.jsx:480-496 | selecting the selected brand clears the selection; otherwise the brand is selected and a crawl happens exactly when it has no products yet; a failed crawl changes nothing |
| FashionPage.SelectBrandTouchesOnlyMatching | seoulfit-client/app/fashion/page.jsx:492-493 | brands with another id keep their entries |
| FashionPage.SecondSelectSkipsCrawl | seoulfit-client/app/fashion/page.jsx:483-484 | once a crawl has filled a brand, selecting it again does not crawl |
| FashionPage.FirstWithId | seoulfit-client/app/fashion/page.jsx:483 | `find` returns the first brand with the id |
| FashionPage.DisplayName | seoulfit-client/app/fashion/page.jsx:110 | outside Japanese the name is the Korean one; in Japanese it is the first present of Japanese, English, Korean |
| FashionPage.DisplayNameFirstPresent | seoulfit-client/app/fashion/page.jsx:110 | the Japanese display name is the first present name of the `??` chain |
| FashionPage.CardTags | seoulfit-client/app/fashion/page.jsx:111 | the card shows the first three tags, translated in Japanese, and none when the brand has no tag list |
| FashionPage.CardTagsAgree | seoulfit-client/app/fashion/page.jsx:111 | the Japanese tags are the Korean tags, each translated |
| FashionPage.Gallery | seoulfit-client/app/fashion/page.jsx:265-268 | the gallery holds only present, non-empty URLs |
| FashionPage.GalleryContents | seoulfit-client/app/fashion/page.jsx:265-268 | the gallery is the product image then the extra images, in order, dropping falsy ones, and keeps every non-empty extra image |
| PyCrawler.Stripped | backend/crawler.py:258 | each raw item is read with its name stripped of Python's whitespace |
| Text.TrimAndStripDiffer | backend/crawler.py:52-258 | the browser's `trim()` and Python's `strip()` remove different characters: an information separator survives `trim()` only, a byte-order mark survives `strip()` only |
| Text.AstralCountsTwice | seoulfit-client/app/api/crawl/route.js:37 | JavaScript's `length` counts a character beyond U+FFFF twice, so a letter and an emoji have length 3 |
| Text.JsLengthBounds | seoulfit-client/app/api/crawl/route.js:37 | the JavaScript length of a text lies between its number of characters and twice that |
| PyCrawler.NormaliseFields | backend/crawler.py:265-277 | a record names the brand and the source and keeps the item's name, price and link; a falsy image is replaced by the CDN guess |
| PyCrawler.Kept | backend/crawler.py:256-277 | at most one record per raw item |
| PyCrawler.KeptIsFilter | backend/crawler.py:256-277 | the records are exactly the normalised items that pass the gate, in page order |
| PyCrawler.Cap | backend/crawler.py:278-279 | the loop stops after the append, so a limit below 1 still lets one record through |
| PyCrawler.FilterLoop | backend/crawler.py:255-282 | the loop yields the first `Cap(limit)` records of the passing items |
| PyCrawler.FilterLoopRecords | backend/crawler.py:256-279 | every kept record is priced at 1000 or more, within the band when there is one, and has a name, the brand and the source |
| PyCrawler.FilterLoopKeepsAll | backend/crawler.py:256-279 | with no more passing items than the cap, every passing item is kept |
| PyCrawler.UnknownBudgetNoBand | backend/crawler.py:262 | an unknown budget label leaves only the name and the price floor as filters |
| PyCrawler.WithTags | backend/crawler.py:294-295 | `setdefault` gives every record the tag list |
| PyCrawler.SearchBrand | backend/crawler.py:289-297 | no page URL or a failed visit gives no records; every record gets the brand's first three style tags |
| PyCrawler.SearchBrandAsWritten | backend/crawler.py:233-252 | as written, the visit raises at `page.set_user_agent`, the handler catches it, and the search gives no records |
| PyCrawler.UserAgentCallLosesRecords | backend/crawler.py:233-252 | for a brand with a page URL, the corrected search answers as many records as the page yields, and the search as written answers none |
| PyCrawler.CacheKeySeparatesBudgets | backend/crawler.py:302-303 | two budget labels share a brand's key only when equal or when they are `""` and `"all"` |
| PyCrawler.SearchBrandCached | backend/crawler.py:300-320 | a hit answers the cached products and leaves the cache; a miss crawls and stores the records with the time |
| PyCrawler.HitSkipsCrawl | backend/crawler.py:307-309 | a hit answers whatever the crawler would return |
| PyCrawler.MissThenHit | backend/crawler.py:300-320 | after a miss, a call within six hours hits and answers the same records |
| PyCrawler.WriteThenHit | backend/crawler.py:313-318 | a freshly written entry is a hit for six hours and holds the written records |
| PyCrawler.SearchBrandHealthy | backend/test_crawler.py:177-179 | every record of a page is priced at 1000 or more and has an image |
| PyCrawler.PageRecordsHealthy | backend/crawler.py:255-279 | every capped record of an extracted page is priced at 1000 or more and has an image |
| PyCrawler.RawImagePresent | backend/crawler.py:80-91 | every extracted raw record has a goods number and a non-empty image |
| PyCrawler.SearchBrandCachedHealthy | backend/test_crawler.py:162-179 | the cache check of the test script stays true across every call |
| BackendApi.Keyword | backend/main.py:200 | the `i`-th keyword, else the first, else `""` |
| BackendApi.Enrich | backend/main.py:201-205 | only missing tags and description are filled; present ones and the rest of the product are kept |
| BackendApi.EnrichAll | backend/main.py:199-205 | each crawled product is completed with its own keyword |
| BackendApi.Recommend | backend/main.py:171-216 | no key gives 400 and a failed plan 500; otherwise at most three Korean brands, the plan's first two other brands, the plan's idol name or `K-POP` and its style reference or `""` when absent, sourced `musinsa` exactly when products were crawled |
| BackendApi.RecommendUsesCrawled | backend/main.py:199-213 | with crawled products, the Korean brands are the first three of them, completed |
| BackendApi.RecommendFallsBack | backend/main.py:208-215 | without crawled products, the Korean brands are the plan's first three fallback brands, and the source is `ai_fallback` |
| BackendApi.EnrichIdempotent | backend/main.py:201-205 | completing a product twice is completing it once |
| BackendApi.EnrichDefaults | backend/main.py:201-205 | a product with neither key gets the keyword's entries, or the defaults when the plan has none |
| BackendApi.EncodeEmail | backend/main.py:246 | the encoded email contains no `@` |
| BackendApi.EmailRoundTrip | backend/main.py:246 | for an address without `%`, decoding `%40` gives the address back |
| BackendApi.DefaultSuccessUrlCarriesPrice | backend/main.py:247-256 | the default success URL starts at the fashion page with the encoded email, and its trailing digits read back as the price |
| BackendApi.SessionFor | backend/main.py:246-279 | every session charges the price, shows an image only for an `https` URL and sets the email only when given; it uses a given return URL as is, and otherwise the fashion page, whose default success URL starts with the encoded email and ends with the price's digits |
| BackendApi.Checkout | backend/main.py:234-299 | no key or a price below ¥120 answers 400 without a Stripe call; the call fails with 500 exactly when both attempts are refused as invalid |
| BackendApi.CheckoutRetry | backend/main.py:282-297 | card and konbini are tried first, card alone only after an invalid-request answer, with otherwise identical parameters, at most twice |
| BackendApi.CheckoutOpens | backend/main.py:282-299 | a session opens with card and konbini exactly when the first call succeeds, with card alone exactly when only the retry succeeds, and any other Stripe error answers 400 |
| BackendApi.CheckoutCharges | backend/main.py:243-268 | every session created charges the requested price, which is at least ¥120 |

## Left out

- Browser automation, file I/O, `fetch`, OpenAI, Stripe and the Yahoo
  exchange endpoint of `backend/main.py` are outside the model. The pages
  the scripts read, the files, the services' answers and the clocks are
  parameters.
- Floating point: amounts, rates and `Math.round`/`Math.ceil` are exact
  rationals. `FormatPrice.FormatJpy` therefore prints ¥11 for 100 won at
  0.11, where IEEE doubles give ¥12. `NaN`, and prices above 2^53 for
  `parseInt`, are not modelled.
- `toLocaleString` is modelled for integers only, as groups of three digits
  with commas. Locale data beyond that is not modelled.
- Trimming, case folding and matching work on `char`s without Unicode
  normalisation. `trim()` and `strip()` use their own whitespace sets, and
  the link filter's `length` counts UTF-16 code units, but other lengths
  and indices count characters. Only `i`-flag regular expressions with literal
  alternatives are modelled.
- `backend/main.py:29` imports `search_multiple_keywords` from `crawler.py`,
  which does not define it, so the backend as written stops with an
  `ImportError` at startup and none of its routes is served. The model
  describes the routes as if the import succeeded. `BackendApi.Recommend`
  takes the crawled product list as a parameter. The language model's plan
  is also a parameter (`None` when it failed).
- `seoulfit-client/app/api/checkout/route.js`, layout and config files are
  outside the core and not modelled.
- `save_cache` failures of the backend are not modelled: the model assumes
  the write succeeds. The client routes do model a failed write, which
  answers 500.
- A per-brand exception inside the client crawl loop is not separated from a
  failed write: both give the route's 500 answer.
- The `Date.now()` fallback ids of the crawl routes are unreachable: every
  link used has a goods number, which the proofs show. They are not modelled.
- The debug route's unused `title`/`price_text` fields are dropped.
- The `[src*=…]` selectors are modelled as substring tests on `src`.
- JavaScript prototype properties (`constructor`, `__proto__`) of the label
  tables and caches are not modelled.
- A cache file holding JSON `null` is read like an unreadable file, as
  `{}`, by `Catalog.LoadCache`. In the source it parses to `null`. Then
  `CrawlCache.Get` throws and answers `{}`. `RecommendRoute.Post` throws at
  `cache[brand.id]` and answers 500 whenever a brand ranks.
  `CrawlRoute.Post` and `DebugCrawl.Post` throw at the first brand's cache
  lookup and answer 500 whenever a brand is requested. The model answers
  these requests as for an empty cache.
- The Python cache key uses `dict.get`, so a present `id` of `None` would give
  the key `"None__…"`. In the client routes, a brand sent with `"id": null`
  and `"musinsa_keyword": null` keys `cache["null"]`, not `"undefined"`
  (`Catalog.JsKey`). The model's `id` and keyword are strings or absent, and
  JSON `null` in them is not modelled.
- JSON `null` where `calc_match_score` expects a list (a `TypeError`) is not
  modelled. The model's brand lists are present or absent.
- `time.time()` is modelled as whole seconds.
- `FashionPage.CartTotal` omits the `|| 0` of the reducer, since every
  modelled item has a numeric price.
- `BackendApi.EmailRoundTrip` holds only for addresses without `%`. With `%`,
  the encoding is not invertible, as the source writes it.
- `PyScore.CalcMatchScore` states only the bound of 65. The value of each
  part is stated by `PyScore.StylePoints` (the truncated share) and
  `PyScore.BudgetPoints`.
- `Cdn.CdnExample` states the worked URL relative to `Cdn.Base`;
  `Cdn.BaseSpelled` spells out the base.
- ImgProxy.Host: only part of the URL standard's host parsing is modelled.
  Ports, upper-case schemes, `https:` without its two slashes, percent
  escapes, international domain names and the removal of tabs and newlines
  are not. Each of these can only make the host test refuse a URL that the
  standard would send to an allowed host, such as
  `https://image.msscdn.net:443/a.jpg`. None of them turns a host ending in
  `.msscdn.net` or `.musinsa.com` into one that does not. Redirects that
  the fetch follows belong to the fetch oracle.
- Page rendering, the cursor animation, the language switch, and the
  recommend and checkout requests of `page.jsx` are not modelled. Only the
  state updates are.

## Findings

| source | as written | input that shows it | evidently intended | confidence | as-written member | corrected member |
|---|---|---|---|---|---|---|
| backend/crawler.py:234 | `await page.set_user_agent(_UA)`, a method Playwright's Python `Page` does not have; the `AttributeError` is caught at lines 250-252 | any brand with a `musinsa_url`: the search answers `[]` whatever the page holds | set the user agent as an option of `new_page(user_agent=_UA)` and visit the page | not executed | PyCrawler.SearchBrandAsWritten | PyCrawler.SearchBrand |
| seoulfit-client/app/api/img-proxy/route.js:7-10 | the proxy admits any URL containing `msscdn.net` or `musinsa.com` anywhere | `https://evil.example/a.jpg?msscdn.net` is fetched and served | fetch only from hosts that are those domains or their subdomains | not executed | ImgProxy.ProxyAsWritten | ImgProxy.Proxy |

`PyCrawler.UserAgentCallLosesRecords` shows that every page the corrected
search would answer with records is answered with none as written: the two
searches differ on every page that yields a record. The rest of
the model (`PyCrawler.SearchBrandCached` and its lemmas) uses the corrected
`PyCrawler.SearchBrand`, with the page as a parameter.

`ImgProxy.QueryCarriesDomain` proves the counterexample against the route as
written. `ImgProxy.BackslashEndsHost` and `ImgProxy.UserInfoNotHost` prove two
more: the domain placed after a backslash, and the domain placed in the user
information. `ImgProxy.HostTestNarrows` proves that the host test only narrows it,
and `ImgProxy.CdnUrlsAllowed` proves that every guessed CDN image still passes.

=== FILE: arith.dfy ===
/** Facts about integer multiplication and division used by the scorers. */
module Arith {

  lemma MulLe(a: nat, b: nat, c: nat)
    requires b <= c
    ensures a * b <= a * c
  {
    var d := c - b;
    assert a * c == a * b + a * d;
  }

  /** A quotient is at most `c` when the dividend is below `n * (c + 1)`. */
  lemma DivAtMost(x: nat, n: nat, c: nat)
    requires 0 < n && x < n * (c + 1)
    ensures x / n <= c
  {
    var q := x / n;
    assert n * q <= x;
    if q > c {
      MulLe(n, c + 1, q);
      assert false;
    }
  }

  /** A quotient is at least `c` when the dividend is at least `n * c`. */
  lemma DivAtLeast(x: nat, n: nat, c: nat)
    requires 0 < n && n * c <= x
    ensures c <= x / n
  {
    var q := x / n;
    assert x < n * (q + 1);
    if q < c {
      MulLe(n, q + 1, c);
      assert false;
    }
  }

  /** Truncating `w * m / n` for `m <= n`: at most `w`, and `w` exactly when `m == n` (for `w > 0`). */
  lemma FloorScaled(w: nat, m: nat, n: nat)
    requires 0 < n && m <= n
    ensures (w * m) / n <= w
    ensures w > 0 ==> ((w * m) / n == w <==> m == n)
  {
    MulLe(w, m, n);
    assert w * n + n == n * (w + 1);
    DivAtMost(w * m, n, w);
    if m == n {
      DivAtLeast(w * m, n, w);
    } else if w > 0 {
      MulLe(w, m, n - 1);
      assert w * (n - 1) == n * (w - 1 + 1) - w;
      DivAtMost(w * m, n, w - 1);
    }
  }

  /** Python `int(w * m / n)` for `m <= n`: the truncated share of `w`. */
  function ScaledShare(w: nat, m: nat, n: nat): (r: nat)
    requires 0 < n && m <= n
    ensures r <= w
    ensures w > 0 ==> (r == w <==> m == n)
    ensures n * r <= w * m < n * (r + 1)
  {
    FloorScaled(w, m, n);
    var x: nat := w * m;
    x / n
  }
}

=== FILE: backend_api.dfy ===
/** The backend's request handlers around the crawler: the post-processing of
    `/api/recommend` (keyword matching, default tags and descriptions, the
    fallback brands and the truncations) and `/api/checkout` (validation, the
    session parameters and the payment-method retry). The language model's
    plan, the crawler's product list and Stripe's answers are oracles given
    as parameters. */
module BackendApi {
  import opened Wrappers
  import opened Text
  import opened Seqs

  // ── /api/recommend ────────────────────────────────────────────────────

  /** A product dict as far as the handler touches it: the two keys it may
      fill in, and the rest of the dict, which it never changes. */
  datatype Product = Product(styleTags: Option<seq<string>>, description: Option<string>, rest: string)

  /** The JSON plan the language model returns; an absent key is `None`. */
  datatype Plan = Plan(
    idolName: Option<string>,
    idolStyleRef: Option<string>,
    keywords: Option<seq<string>>,
    styleTags: Option<map<string, seq<string>>>,
    descriptions: Option<map<string, string>>,
    koreanFallback: Option<seq<Product>>,
    otherBrands: Option<seq<Product>>)

  datatype RecommendAnswer =
    | MissingOpenAiKey
    | PlanFailed
    | Recommended(idolName: string, idolStyleRef: string, koreanBrands: seq<Product>,
                  otherBrands: seq<Product>, sourceKorean: string)

  function RecommendStatus(a: RecommendAnswer): int {
    match a
    case MissingOpenAiKey => 400
    case PlanFailed => 500
    case Recommended(_, _, _, _, _) => 200
  }

  const DefaultTags: seq<string> := ["스타일리시", "트렌디"]

  /** The keyword matched to the `i`-th crawled product: the `i`-th keyword,
      else the first one, else `""`. */
  function Keyword(keywords: seq<string>, i: nat): (kw: string)
    ensures |keywords| == 0 ==> kw == ""
    ensures |keywords| > 0 ==> kw in keywords
    ensures i < |keywords| ==> kw == keywords[i]
  {
    if i < |keywords| then keywords[i] else if |keywords| > 0 then keywords[0] else ""
  }

  /** The description used when the plan has none for a keyword. */
  function BodySentence(bodyType: string): string {
    (if bodyType == "" then "기본" else bodyType) + " 체형에 잘 어울리는 아이템입니다."
  }

  /** The two `setdefault` calls of the loop for a product and its keyword. */
  function Enrich(p: Product, kw: string, plan: Plan, bodyType: string): (q: Product)
    ensures q.rest == p.rest && q.styleTags.Some? && q.description.Some?
    ensures p.styleTags.Some? ==> q.styleTags == p.styleTags
    ensures p.description.Some? ==> q.description == p.description
  {
    var tags := plan.styleTags.GetOr(map[]);
    var descs := plan.descriptions.GetOr(map[]);
    Product(
      if p.styleTags.Some? then p.styleTags else Some(if kw in tags then tags[kw] else DefaultTags),
      if p.description.Some? then p.description else Some(if kw in descs then descs[kw] else BodySentence(bodyType)),
      p.rest)
  }

  /** The loop over the crawled products. */
  function EnrichAll(ps: seq<Product>, keywords: seq<string>, plan: Plan, bodyType: string): (r: seq<Product>)
    ensures |r| == |ps|
    ensures forall k :: 0 <= k < |ps| ==> r[k] == Enrich(ps[k], Keyword(keywords, k), plan, bodyType)
  {
    seq(|ps|, k requires 0 <= k < |ps| => Enrich(ps[k], Keyword(keywords, k), plan, bodyType))
  }

  /** `recommend(req)` after the plan: `openAiKey` is the environment
      variable, `plan` the parsed answer (`None` when building it failed) and
      `crawled` the crawler's product list. */
  function Recommend(openAiKey: Option<string>, bodyType: string, plan: Option<Plan>, crawled: seq<Product>): (a: RecommendAnswer)
    ensures a.MissingOpenAiKey? <==> openAiKey.None? || openAiKey.value == ""
    ensures a.PlanFailed? <==> openAiKey.Some? && openAiKey.value != "" && plan.None?
    ensures a.Recommended? ==> |a.koreanBrands| <= 3 && |a.otherBrands| <= 2
    ensures a.Recommended? ==> (a.sourceKorean == "musinsa" <==> crawled != [])
    ensures a.Recommended? ==> a.sourceKorean == "musinsa" || a.sourceKorean == "ai_fallback"
    ensures a.Recommended? ==> a.otherBrands == Take(plan.value.otherBrands.GetOr([]), 2)
    ensures a.Recommended? ==> (plan.value.idolName.Some? ==> a.idolName == plan.value.idolName.value)
                               && (plan.value.idolName.None? ==> a.idolName == "K-POP")
    ensures a.Recommended? ==> (plan.value.idolStyleRef.Some? ==> a.idolStyleRef == plan.value.idolStyleRef.value)
                               && (plan.value.idolStyleRef.None? ==> a.idolStyleRef == "")
  {
    if openAiKey.None? || openAiKey.value == "" then MissingOpenAiKey
    else if plan.None? then PlanFailed
    else
      var pl := plan.value;
      var products := EnrichAll(crawled, pl.keywords.GetOr([]), pl, bodyType);
      var korean := if products != [] then products else pl.koreanFallback.GetOr([]);
      Recommended(
        pl.idolName.GetOr("K-POP"),
        pl.idolStyleRef.GetOr(""),
        Take(korean, 3),
        Take(pl.otherBrands.GetOr([]), 2),
        if products != [] then "musinsa" else "ai_fallback")
  }

  /** With crawled products, the Korean brands are the first three of them,
      each completed with its keyword's tags and description; the fallback
      is never consulted. */
  lemma RecommendUsesCrawled(openAiKey: Option<string>, bodyType: string, plan: Option<Plan>, crawled: seq<Product>)
    requires openAiKey.Some? && openAiKey.value != "" && plan.Some? && crawled != []
    ensures var a := Recommend(openAiKey, bodyType, plan, crawled);
      a.Recommended? && |a.koreanBrands| == (if |crawled| < 3 then |crawled| else 3)
      && forall k :: 0 <= k < |a.koreanBrands| ==>
           a.koreanBrands[k] == Enrich(crawled[k], Keyword(plan.value.keywords.GetOr([]), k), plan.value, bodyType)
  {
  }

  /** Without crawled products, the Korean brands are the plan's first three fallback brands, untouched. */
  lemma RecommendFallsBack(openAiKey: Option<string>, bodyType: string, plan: Option<Plan>)
    requires openAiKey.Some? && openAiKey.value != "" && plan.Some?
    ensures var a := Recommend(openAiKey, bodyType, plan, []);
      a.Recommended? && a.koreanBrands == Take(plan.value.koreanFallback.GetOr([]), 3)
      && a.sourceKorean == "ai_fallback"
  {
  }

  /** The defaults fill only what is missing: completing a product twice is completing it once. */
  lemma EnrichIdempotent(p: Product, kw: string, kw2: string, plan: Plan, bodyType: string)
    ensures Enrich(Enrich(p, kw, plan, bodyType), kw2, plan, bodyType) == Enrich(p, kw, plan, bodyType)
  {
  }

  /** A product with neither key gets the keyword's entries when the plan
      has them and the defaults when it does not. */
  lemma EnrichDefaults(p: Product, kw: string, plan: Plan, bodyType: string)
    requires p.styleTags.None? && p.description.None?
    ensures var q := Enrich(p, kw, plan, bodyType);
      (kw in plan.styleTags.GetOr(map[]) ==> q.styleTags == Some(plan.styleTags.value[kw]))
      && (kw !in plan.styleTags.GetOr(map[]) ==> q.styleTags == Some(DefaultTags))
      && (kw in plan.descriptions.GetOr(map[]) ==> q.description == Some(plan.descriptions.value[kw]))
      && (kw !in plan.descriptions.GetOr(map[]) ==> q.description == Some(BodySentence(bodyType)))
  {
  }

  // ── /api/checkout ─────────────────────────────────────────────────────

  datatype CheckoutRequest = CheckoutRequest(
    productName: string,
    brand: string,
    priceJpy: int,
    imageUrl: Option<string>,
    email: string,
    successUrl: Option<string>,
    cancelUrl: Option<string>)

  /** The keyword arguments of one `Session.create` call (currency `jpy`,
      quantity 1 and payment mode are fixed and left implicit). */
  datatype Session = Session(
    methods: seq<string>,
    name: string,
    amount: int,
    images: Option<seq<string>>,
    customerEmail: Option<string>,
    successUrl: string,
    cancelUrl: string)

  /** Stripe's answer to one call. */
  datatype Outcome = Created(url: string, id: string) | InvalidRequest | StripeFailure(message: string)

  datatype CheckoutAnswer =
    | NoStripeKey
    | BelowMinimum
    | Opened(checkoutUrl: string, sessionId: string, paymentMethods: seq<string>)
    | Rejected(detail: string)
    | Raised

  function CheckoutStatus(a: CheckoutAnswer): int {
    match a
    case NoStripeKey => 400
    case BelowMinimum => 400
    case Opened(_, _, _) => 200
    case Rejected(_) => 400
    case Raised => 500
  }

  const MinimumJpy: int := 120
  const FirstMethods: seq<string> := ["card", "konbini"]
  const CardOnly: seq<string> := ["card"]

  /** `email.replace("@", "%40")`. */
  function EncodeEmail(email: string): (e: string)
    ensures '@' !in e
  {
    ReplaceChar(email, '@', "%40")
  }

  /** Turns every `%40` back into `@`. */
  function DecodeEmail(s: string): string {
    if |s| == 0 then ""
    else if |s| >= 3 && s[..3] == "%40" then "@" + DecodeEmail(s[3..])
    else [s[0]] + DecodeEmail(s[1..])
  }

  /** The encoding loses nothing for an address without `%`: decoding gives it back. */
  lemma {:induction false} EmailRoundTrip(email: string)
    requires '%' !in email
    ensures DecodeEmail(EncodeEmail(email)) == email
  {
    if |email| > 0 {
      var rest := EncodeEmail(email[1..]);
      assert '%' !in email[1..];
      EmailRoundTrip(email[1..]);
      DecodeStep(email[0], rest);
      assert email == [email[0]] + email[1..];
    }
  }

  /** Decoding undoes the encoding of one leading character. */
  lemma DecodeStep(c: char, rest: string)
    requires c != '%'
    ensures DecodeEmail((if c == '@' then "%40" else [c]) + rest) == [c] + DecodeEmail(rest)
  {
    if c == '@' {
      var e := "%40" + rest;
      assert e[..3] == "%40" && e[3..] == rest;
    } else {
      var e := [c] + rest;
      assert e[0] == c && e[1..] == rest;
    }
  }

  /** A truthy optional string: present and non-empty. */
  predicate Given(s: Option<string>) {
    s.Some? && s.value != ""
  }

  const SuccessPath: string := "/fashion.html?payment=success&email="

  /** The success URL built when the request gives none. */
  function DefaultSuccessUrl(frontendUrl: string, req: CheckoutRequest): string
    requires req.priceJpy >= 0
  {
    SuccessHead(frontendUrl, req) + SuccessQuery(req) + NatToString(req.priceJpy)
  }

  /** The fashion page with the encoded email. */
  function SuccessHead(frontendUrl: string, req: CheckoutRequest): string {
    frontendUrl + SuccessPath + EncodeEmail(req.email)
  }

  /** The product, brand and the name of the price parameter. */
  function SuccessQuery(req: CheckoutRequest): string {
    "&product=" + req.productName + "&brand=" + req.brand + "&price="
  }

  /** The longest run of digits at the end of `s`. */
  function TrailingDigits(s: string): (r: string)
    ensures AllDigits(r) && |r| <= |s|
  {
    if |s| > 0 && IsDigit(s[|s| - 1]) then TrailingDigits(s[..|s| - 1]) + [s[|s| - 1]] else ""
  }

  lemma {:induction false} TrailingDigitsOf(a: string, g: string)
    requires AllDigits(g)
    requires a == [] || !IsDigit(a[|a| - 1])
    ensures TrailingDigits(a + g) == g
    decreases |g|
  {
    if |g| == 0 {
      assert a + g == a;
    } else {
      var init := g[..|g| - 1];
      assert (a + g)[..|a + g| - 1] == a + init;
      TrailingDigitsOf(a, init);
      assert g == init + [g[|g| - 1]];
    }
  }

  /** The default success URL starts at the fashion page with the encoded
      email, and its trailing digits read back as the price. */
  lemma DefaultSuccessUrlCarriesPrice(frontendUrl: string, req: CheckoutRequest)
    requires req.priceJpy >= 0
    ensures StartsWith(DefaultSuccessUrl(frontendUrl, req), frontendUrl + SuccessPath + EncodeEmail(req.email))
    ensures ParseDigits(TrailingDigits(DefaultSuccessUrl(frontendUrl, req))) == req.priceJpy
  {
    var head := SuccessHead(frontendUrl, req);
    var q := SuccessQuery(req);
    var d := NatToString(req.priceJpy);
    assert (head + q + d)[..|head|] == head;
    assert q[|q| - 1] == '=';
    assert (head + q)[|head + q| - 1] == '=';
    TrailingDigitsOf(head + q, d);
    ParsePrinted(req.priceJpy);
  }

  /** The parameters shared by every attempt, for the given method list. */
  function SessionFor(frontendUrl: string, req: CheckoutRequest, methods: seq<string>): (s: Session)
    requires req.priceJpy >= 0
    ensures s.methods == methods && s.amount == req.priceJpy
    ensures s.images.Some? <==> Given(req.imageUrl) && StartsWith(req.imageUrl.value, "https://")
    ensures s.images.Some? ==> s.images.value == [req.imageUrl.value] && StartsWith(s.images.value[0], "https://")
    ensures s.customerEmail.Some? <==> req.email != ""
    ensures s.customerEmail.Some? ==> s.customerEmail.value == req.email
    ensures Given(req.successUrl) ==> s.successUrl == req.successUrl.value
    ensures Given(req.cancelUrl) ==> s.cancelUrl == req.cancelUrl.value
    ensures !Given(req.cancelUrl) ==> s.cancelUrl == frontendUrl + "/fashion.html"
    ensures !Given(req.successUrl) ==> s.successUrl == DefaultSuccessUrl(frontendUrl, req)
    ensures !Given(req.successUrl) ==>
              StartsWith(s.successUrl, frontendUrl + SuccessPath + EncodeEmail(req.email))
              && ParseDigits(TrailingDigits(s.successUrl)) == req.priceJpy
  {
    DefaultSuccessUrlCarriesPrice(frontendUrl, req);
    Session(
      methods,
      req.brand + " — " + req.productName,
      req.priceJpy,
      if Given(req.imageUrl) && StartsWith(req.imageUrl.value, "https://") then Some([req.imageUrl.value]) else None,
      if req.email != "" then Some(req.email) else None,
      if Given(req.successUrl) then req.successUrl.value else DefaultSuccessUrl(frontendUrl, req),
      if Given(req.cancelUrl) then req.cancelUrl.value else frontendUrl + "/fashion.html")
  }

  /** What one attempt's outcome makes of the request; `last` marks the card-only attempt. */
  function Settle(o: Outcome, methods: seq<string>, last: bool): Option<CheckoutAnswer> {
    match o
    case Created(url, id) => Some(Opened(url, id, methods))
    case InvalidRequest => if last then Some(Raised) else None
    case StripeFailure(m) => Some(Rejected(m))
  }

  /** `create_checkout(req)`: the answer and the `Session.create` calls made.
      `stripeKey` is the configured key; `first` and `second` are Stripe's
      answers to the first and (if made) the second call. */
  function Checkout(stripeKey: string, frontendUrl: string, req: CheckoutRequest, first: Outcome, second: Outcome)
    : (r: (CheckoutAnswer, seq<Session>))
    ensures r.0.NoStripeKey? <==> stripeKey == ""
    ensures r.0.BelowMinimum? <==> stripeKey != "" && req.priceJpy < MinimumJpy
    ensures r.0.NoStripeKey? || r.0.BelowMinimum? ==> r.1 == []
    ensures r.0.Raised? <==> stripeKey != "" && req.priceJpy >= MinimumJpy && first.InvalidRequest? && second.InvalidRequest?
    ensures r.0.Opened? ==> |r.1| > 0 && r.0.paymentMethods == r.1[|r.1| - 1].methods && r.0.paymentMethods in [FirstMethods, CardOnly]
  {
    if stripeKey == "" then (NoStripeKey, [])
    else if req.priceJpy < MinimumJpy then (BelowMinimum, [])
    else
      var s1 := SessionFor(frontendUrl, req, FirstMethods);
      match Settle(first, FirstMethods, false)
      case Some(a) => (a, [s1])
      case None =>
        var s2 := SessionFor(frontendUrl, req, CardOnly);
        (Settle(second, CardOnly, true).value, [s1, s2])
  }

  /** The retry: card and konbini are tried first; card alone is tried only
      after an invalid-request answer, with otherwise identical parameters,
      and never more than twice. */
  lemma CheckoutRetry(stripeKey: string, frontendUrl: string, req: CheckoutRequest, first: Outcome, second: Outcome)
    requires stripeKey != "" && req.priceJpy >= MinimumJpy
    ensures var r := Checkout(stripeKey, frontendUrl, req, first, second);
      1 <= |r.1| <= 2 && r.1[0] == SessionFor(frontendUrl, req, FirstMethods)
      && (|r.1| == 2 <==> first.InvalidRequest?)
      && (|r.1| == 2 ==> r.1[1] == r.1[0].(methods := CardOnly))
  {
  }

  /** A session opens only on a `Created` answer, and card-only sessions
      only when konbini was refused first. */
  lemma CheckoutOpens(stripeKey: string, frontendUrl: string, req: CheckoutRequest, first: Outcome, second: Outcome)
    requires stripeKey != "" && req.priceJpy >= MinimumJpy
    ensures var a := Checkout(stripeKey, frontendUrl, req, first, second).0;
      (a.Opened? && a.paymentMethods == FirstMethods <==> first.Created?)
      && (a.Opened? && a.paymentMethods == CardOnly <==> first.InvalidRequest? && second.Created?)
      && (a.Rejected? <==> first.StripeFailure? || (first.InvalidRequest? && second.StripeFailure?))
  {
  }

  /** Every session charges the requested price, which is at least the minimum. */
  lemma CheckoutCharges(stripeKey: string, frontendUrl: string, req: CheckoutRequest, first: Outcome, second: Outcome)
    ensures var r := Checkout(stripeKey, frontendUrl, req, first, second);
      forall k :: 0 <= k < |r.1| ==> r.1[k].amount == req.priceJpy && r.1[k].amount >= MinimumJpy
  {
  }
}

=== FILE: catalog.dfy ===
/** The JSON records shared by the backend and the client: brands from the
    brand catalogue, product items written by the crawlers, and the cache
    entries of the client-side crawl routes. A field that may be absent or
    `null` is an `Option`. */
module Catalog {
  import opened Wrappers
  import opened Text

  /** One idol reference of a brand; `confirmed` is the field's truthiness. */
  datatype IdolRef = IdolRef(idol: string, occasion: string, confirmed: bool)

  /** `price_range_krw` of a brand. */
  datatype PriceRange = PriceRange(min: Option<int>, max: Option<int>)

  /** The detail fields a crawler can recognise on a product page. */
  datatype Field = Material | Fit | Color | Size | Made | Season | Style

  type Info = map<Field, string>

  /** A product item as the client-side crawlers emit it. */
  datatype Item = Item(
    id: string,
    name: string,
    brand: Option<string>,
    priceKrw: int,
    imageUrl: Option<string>,
    productUrl: string,
    goodsNo: Option<string>,
    extraImages: Option<seq<string>>,
    info: Option<Info>)

  /** A brand of the catalogue, possibly decorated with `products` and `matchScore`. */
  datatype Brand = Brand(
    id: Option<string>,
    nameKo: Option<string>,
    nameJa: Option<string>,
    nameEn: Option<string>,
    musinsaKeyword: Option<string>,
    musinsaUrl: Option<string>,
    categories: Option<seq<string>>,
    styleTags: Option<seq<string>>,
    priceRange: Option<PriceRange>,
    idolRefs: Option<seq<IdolRef>>,
    products: Option<seq<Item>>,
    matchScore: Option<int>)

  /** Some idol reference of the brand is confirmed (an absent list has none). */
  predicate Confirmed(b: Brand) {
    b.idolRefs.Some? && exists i :: 0 <= i < |b.idolRefs.value| && b.idolRefs.value[i].confirmed
  }

  /** Every item carries a digit goods number and the `musinsa_<goodsNo>` id built from it. */
  predicate WellFormed(items: seq<Item>) {
    forall k :: 0 <= k < |items| ==>
      items[k].goodsNo.Some? && items[k].goodsNo.value != [] && AllDigits(items[k].goodsNo.value)
      && items[k].id == "musinsa_" + items[k].goodsNo.value
  }

  /** The property name JavaScript uses for `obj[k]`: a missing key is the
      string "undefined". */
  function JsKey(k: Option<string>): string {
    k.GetOr("undefined")
  }

  /** The `crawled_at` field of a client cache entry, as far as the freshness
      test can see it: absent or empty (falsy), not a date (`NaN`), or a
      parsed instant in milliseconds. */
  datatype Stamp = NoStamp | Unparseable | At(ms: int)

  /** One entry of the client crawl cache file. */
  datatype Entry = Entry(products: Option<seq<Item>>, crawledAt: Stamp, brandName: Option<string>)

  type Cache = map<string, Entry>

  const SixHoursMs: int := 6 * 60 * 60 * 1000

  /** `cached?.crawled_at && Date.now() - new Date(cached.crawled_at).getTime() < SIX_HOURS`. */
  predicate Fresh(cache: Cache, key: string, now: int) {
    key in cache && cache[key].crawledAt.At? && now - cache[key].crawledAt.ms < SixHoursMs
  }

  /** An unreadable or unparseable cache file is read as `{}`. */
  function LoadCache(file: Option<Cache>): (c: Cache)
    ensures file.None? ==> c == map[]
    ensures file.Some? ==> c == file.value
  {
    file.GetOr(map[])
  }
}

=== FILE: cdn.dfy ===
/** The image URL the crawlers guess from a goods number when a product card
    shows no usable image: the goods number's first four characters name
    the directory, then the goods number, then `<goods>_1_500.jpg`. The
    backend (`_cdn_url`) and both 8-level client walks build the same string. */
module Cdn {
  import opened Wrappers
  import opened Text
  import opened Seqs

  const CdnHost: string := "image." + "msscdn.net"
  const Base: string := "https://" + CdnHost + "/images/goods_img/"
  const Suffix: string := "_1_500.jpg"

  /** The guessed URL under an arbitrary base; `CdnUrl` fixes the base. */
  function UrlUnder(base: string, g: string): string {
    if g == [] then "" else base + GoodsPath(g)
  }

  /** The part after the base: directory, goods number, file name. */
  function GoodsPath(g: string): string {
    Take(g, 4) + "/" + g + "/" + g + Suffix
  }

  /** `_cdn_url(goods_no)`: empty for an empty goods number. */
  function CdnUrl(g: string): (u: string)
    ensures g == [] <==> u == []
    ensures g != [] ==> StartsWith(u, Base) && |u| == |Base| + |Take(g, 4)| + 2 * |g| + 2 + |Suffix|
  {
    UrlUnder(Base, g)
  }

  function ReadUnder(base: string, u: string): Option<string> {
    if !StartsWith(u, base) then None else ReadDir(base, u, u[|base|..])
  }

  /** Skips the directory digits of `rest` and the slash after them. */
  function ReadDir(base: string, u: string, rest: string): Option<string> {
    var after := rest[|LeadingDigits(rest)|..];
    if |after| == 0 || after[0] != '/' then None else ReadGoods(base, u, after[1..])
  }

  /** Takes the goods number and checks that it rebuilds the whole URL. */
  function ReadGoods(base: string, u: string, tail: string): Option<string> {
    var g := LeadingDigits(tail);
    if g != [] && UrlUnder(base, g) == u then Some(g) else None
  }

  /** Reads the goods number back out of a guessed image URL of an all-digit
      goods number: skip the base and the directory, take the digits after
      the slash, and accept them only if they rebuild the URL. */
  function GoodsOfUrl(u: string): (g: Option<string>)
    ensures g.Some? ==> g.value != [] && CdnUrl(g.value) == u
  {
    ReadUnder(Base, u)
  }

  lemma ReadUnderUrl(base: string, g: string)
    requires AllDigits(g) && g != []
    ensures ReadUnder(base, UrlUnder(base, g)) == Some(g)
  {
    var p := Take(g, 4);
    var t2 := "/" + g + Suffix;
    var t1 := "/" + (g + t2);
    var u := base + (p + t1);
    assert UrlUnder(base, g) == u;
    assert u[..|base|] == base;
    assert u[|base|..] == p + t1;
    ReadDirUrl(base, u, p, g, t2);
  }

  lemma ReadDirUrl(base: string, u: string, p: string, g: string, t2: string)
    requires AllDigits(p) && AllDigits(g) && g != [] && UrlUnder(base, g) == u
    requires t2 == [] || !IsDigit(t2[0])
    ensures ReadDir(base, u, p + ("/" + (g + t2))) == Some(g)
  {
    var t1 := "/" + (g + t2);
    LeadingDigitsOf(p, t1);
    assert (p + t1)[|p|..] == t1;
    assert t1[1..] == g + t2;
    LeadingDigitsOf(g, t2);
  }

  /** The guessed URL determines the goods number: reading it back gives the
      goods number for every all-digit goods number. */
  lemma GoodsOfCdnUrl(g: string)
    requires AllDigits(g) && g != []
    ensures GoodsOfUrl(CdnUrl(g)) == Some(g)
  {
    ReadUnderUrl(Base, g);
  }

  /** Distinct goods numbers give distinct guessed URLs. */
  lemma CdnUrlInjective(g1: string, g2: string)
    requires AllDigits(g1) && g1 != [] && AllDigits(g2) && g2 != []
    requires CdnUrl(g1) == CdnUrl(g2)
    ensures g1 == g2
  {
    GoodsOfCdnUrl(g1);
    GoodsOfCdnUrl(g2);
  }

  /** The worked example of the backend's test script, under the base
      `BaseSpelled` writes out. */
  lemma CdnExample()
    ensures CdnUrl("5621602") == Base + "5621/5621602/5621602_1_500.jpg"
  {
    assert Take("5621602", 4) == "5621";
  }

  lemma BaseSpelled()
    ensures Base == "https://image.msscdn.net/images/goods_img/"
  {
  }
}

=== FILE: crawl_cache.dfy ===
/** The request loop shared by the client's two crawl routes. For each
    element of the request's `brands` list the route computes a cache key;
    an entry stamped less than six hours ago answers from the cache, any
    other case crawls and overwrites that key with the fresh products and
    the current time. The clock and the crawler are oracles indexed by the
    position of the brand in the list: `checkAt(i)` is the time of the
    freshness test, `stampAt(i)` the time written after the crawl. */
module CrawlCache {
  import opened Wrappers
  import opened Catalog

  /** An element of `brands`: a bare name, or a brand object. */
  datatype BrandItem = Named(name: string) | Object(brand: Brand)

  /** A bare name stands for `{id, name_ko, musinsa_keyword}` all equal to it and a null `musinsa_url`. */
  function ToBrand(item: BrandItem): (b: Brand)
    ensures item.Named? ==> (b.id == Some(item.name) && b.nameKo == Some(item.name)
                             && b.musinsaKeyword == Some(item.name) && b.musinsaUrl.None?)
    ensures item.Object? ==> b == item.brand
  {
    match item
    case Named(s) => Brand(Some(s), Some(s), None, None, Some(s), None, None, None, None, None, None, None)
    case Object(b) => b
  }

  /** The cache and the `results` object being built. A cached entry without
      `products` answers with an absent value. */
  datatype State = State(cache: Cache, results: map<string, Option<seq<Item>>>)

  /** One brand: answer from a fresh entry, otherwise store the crawled products. */
  function Step(st: State, key: string, b: Brand, checkNow: int, stampNow: int, crawled: seq<Item>): (r: State)
    ensures Fresh(st.cache, key, checkNow) ==> r.cache == st.cache && key in r.results && r.results[key] == st.cache[key].products
    ensures !Fresh(st.cache, key, checkNow) ==>
      r.cache == st.cache[key := Entry(Some(crawled), At(stampNow), b.nameKo)] && r.results == st.results[key := Some(crawled)]
    ensures forall k :: k != key ==> (k in r.cache <==> k in st.cache) && (k in r.results <==> k in st.results)
    ensures forall k :: k != key && k in st.cache ==> r.cache[k] == st.cache[k]
  {
    if Fresh(st.cache, key, checkNow) then State(st.cache, st.results[key := st.cache[key].products])
    else State(st.cache[key := Entry(Some(crawled), At(stampNow), b.nameKo)], st.results[key := Some(crawled)])
  }

  /** A fresh entry answers without looking at what the crawler would return. */
  lemma HitIgnoresCrawler(st: State, key: string, b: Brand, checkNow: int, stampNow: int, c1: seq<Item>, c2: seq<Item>)
    requires Fresh(st.cache, key, checkNow)
    ensures Step(st, key, b, checkNow, stampNow, c1) == Step(st, key, b, checkNow, stampNow, c2)
  {
  }

  /** After a miss the entry is fresh for the following six hours and answers with the crawled products. */
  lemma MissThenHit(st: State, key: string, b: Brand, checkNow: int, stampNow: int, later: int, crawled: seq<Item>, again: seq<Item>)
    requires !Fresh(st.cache, key, checkNow)
    requires stampNow <= later < stampNow + SixHoursMs
    ensures var s1 := Step(st, key, b, checkNow, stampNow, crawled);
      Fresh(s1.cache, key, later) && Step(s1, key, b, later, later, again).results[key] == Some(crawled)
  {
  }

  /** The loop over the first `n` brands, with the key function of the route
      and `produce(i, b)` the products a crawl of the `i`-th brand yields. */
  function Run(items: seq<BrandItem>, n: nat, keyOf: Brand -> string, init: State,
               checkAt: nat -> int, stampAt: nat -> int, produce: (nat, Brand) -> seq<Item>): (r: State)
    requires n <= |items|
    decreases n
  {
    if n == 0 then init
    else
      var st := Run(items, n - 1, keyOf, init, checkAt, stampAt, produce);
      var b := ToBrand(items[n - 1]);
      Step(st, keyOf(b), b, checkAt(n - 1), stampAt(n - 1), produce(n - 1, b))
  }

  /** Some brand among the first `n` of the list has key `k`. */
  predicate Listed(items: seq<BrandItem>, n: nat, keyOf: Brand -> string, k: string)
    requires n <= |items|
  {
    exists i :: 0 <= i < n && keyOf(ToBrand(items[i])) == k
  }

  lemma ListedStep(items: seq<BrandItem>, n: nat, keyOf: Brand -> string, k: string)
    requires 0 < n <= |items|
    ensures Listed(items, n, keyOf, k) <==> Listed(items, n - 1, keyOf, k) || keyOf(ToBrand(items[n - 1])) == k
  {
    if Listed(items, n, keyOf, k) && keyOf(ToBrand(items[n - 1])) != k {
      var i :| 0 <= i < n && keyOf(ToBrand(items[i])) == k;
      assert i < n - 1;
    }
  }

  /** The loop answers exactly the keys it started with and the keys of the list. */
  lemma {:induction false} RunAnswersEveryKey(items: seq<BrandItem>, n: nat, keyOf: Brand -> string, init: State,
                                              checkAt: nat -> int, stampAt: nat -> int, produce: (nat, Brand) -> seq<Item>)
    requires n <= |items|
    ensures var r := Run(items, n, keyOf, init, checkAt, stampAt, produce);
      forall k :: k in r.results <==> k in init.results || Listed(items, n, keyOf, k)
  {
    if n > 0 {
      RunAnswersEveryKey(items, n - 1, keyOf, init, checkAt, stampAt, produce);
      var r := Run(items, n, keyOf, init, checkAt, stampAt, produce);
      forall k ensures k in r.results <==> k in init.results || Listed(items, n, keyOf, k) {
        ListedStep(items, n, keyOf, k);
      }
    }
  }

  /** Keys of no brand in the list keep their cache entries. */
  lemma {:induction false} RunLeavesOtherKeys(items: seq<BrandItem>, n: nat, keyOf: Brand -> string, init: State,
                                              checkAt: nat -> int, stampAt: nat -> int, produce: (nat, Brand) -> seq<Item>, k: string)
    requires n <= |items|
    requires !Listed(items, n, keyOf, k)
    ensures var r := Run(items, n, keyOf, init, checkAt, stampAt, produce);
      (k in r.cache <==> k in init.cache) && (k in init.cache ==> r.cache[k] == init.cache[k])
  {
    if n > 0 {
      ListedStep(items, n, keyOf, k);
      RunLeavesOtherKeys(items, n - 1, keyOf, init, checkAt, stampAt, produce, k);
    }
  }

  /** Every brand's key ends up in the cache: the cache grows by exactly the keys of the list. */
  lemma {:induction false} RunCachesEveryKey(items: seq<BrandItem>, n: nat, keyOf: Brand -> string, init: State,
                                             checkAt: nat -> int, stampAt: nat -> int, produce: (nat, Brand) -> seq<Item>)
    requires n <= |items|
    ensures var r := Run(items, n, keyOf, init, checkAt, stampAt, produce);
      forall k :: k in r.cache <==> k in init.cache || Listed(items, n, keyOf, k)
  {
    if n > 0 {
      RunCachesEveryKey(items, n - 1, keyOf, init, checkAt, stampAt, produce);
      var st := Run(items, n - 1, keyOf, init, checkAt, stampAt, produce);
      var key := keyOf(ToBrand(items[n - 1]));
      assert Fresh(st.cache, key, checkAt(n - 1)) ==> key in st.cache;
      var r := Run(items, n, keyOf, init, checkAt, stampAt, produce);
      forall k ensures k in r.cache <==> k in init.cache || Listed(items, n, keyOf, k) {
        ListedStep(items, n, keyOf, k);
      }
    }
  }

  /** Every product list stored in the cache satisfies `ok`. */
  predicate CacheHolds(c: Cache, ok: seq<Item> -> bool) {
    forall key :: key in c && c[key].products.Some? ==> ok(c[key].products.value)
  }

  /** Every product list in `results` satisfies `ok`. */
  predicate ResultsHold(r: map<string, Option<seq<Item>>>, ok: seq<Item> -> bool) {
    forall key :: key in r && r[key].Some? ==> ok(r[key].value)
  }

  /** A property of product lists that every crawl yields and the cache
      already has holds of the cache and the results after the loop. */
  lemma {:induction false} RunPreserves(items: seq<BrandItem>, n: nat, keyOf: Brand -> string, init: State,
                                        checkAt: nat -> int, stampAt: nat -> int, produce: (nat, Brand) -> seq<Item>,
                                        ok: seq<Item> -> bool)
    requires n <= |items|
    requires CacheHolds(init.cache, ok) && ResultsHold(init.results, ok)
    requires forall i, b :: ok(produce(i, b))
    ensures var r := Run(items, n, keyOf, init, checkAt, stampAt, produce);
      CacheHolds(r.cache, ok) && ResultsHold(r.results, ok)
  {
    if n > 0 {
      RunPreserves(items, n - 1, keyOf, init, checkAt, stampAt, produce, ok);
      var b := ToBrand(items[n - 1]);
      StepPreserves(Run(items, n - 1, keyOf, init, checkAt, stampAt, produce), keyOf(b), b,
                    checkAt(n - 1), stampAt(n - 1), produce(n - 1, b), ok);
    }
  }

  lemma StepPreserves(st: State, key: string, b: Brand, checkNow: int, stampNow: int, crawled: seq<Item>,
                      ok: seq<Item> -> bool)
    requires CacheHolds(st.cache, ok) && ResultsHold(st.results, ok) && ok(crawled)
    ensures var r := Step(st, key, b, checkNow, stampNow, crawled);
      CacheHolds(r.cache, ok) && ResultsHold(r.results, ok)
  {
  }

  /** The `GET` answer: the whole cache, one entry, or an entry with no products. */
  datatype GetAnswer = WholeCache(cache: Cache) | OneEntry(entry: Entry) | NoProducts

  /** `GET ?brand=`: an unreadable cache file answers `{}`; a brand parameter
      answers its entry, or `{products: []}` when there is none. */
  function Get(file: Option<Cache>, brand: Option<string>): (r: GetAnswer)
    ensures file.None? ==> r == WholeCache(map[])
    ensures file.Some? && brand.Some? && brand.value != "" ==>
      (brand.value in file.value ==> r == OneEntry(file.value[brand.value])) &&
      (brand.value !in file.value ==> r == NoProducts)
    ensures file.Some? && (brand.None? || brand.value == "") ==> r == WholeCache(file.value)
  {
    match file
    case None => WholeCache(map[])
    case Some(c) =>
      if brand.Some? && brand.value != "" then
        if brand.value in c then OneEntry(c[brand.value]) else NoProducts
      else WholeCache(c)
  }
}

=== FILE: crawl_route.dfy ===
/** The client's `/api/crawl` route. `POST` crawls each requested brand's
    page (or answers from the six-hour cache) and writes the cache back;
    `GET` reads the cache. The browser is an oracle: `page(i, b)` is the list
    of anchors of the rendered page of the `i`-th brand, or `None` when
    launching, loading or evaluating failed, which the route turns into an
    empty product list. */
module CrawlRoute {
  import opened Wrappers
  import opened Text
  import opened Catalog
  import opened Extract
  import opened CrawlCache

  /** The key of a brand: its `id`, else its `musinsa_keyword`, as a JavaScript property name. */
  function CrawlKey(b: Brand): (k: string)
    ensures b.id.Some? ==> k == b.id.value
    ensures b.id.None? && b.musinsaKeyword.Some? ==> k == b.musinsaKeyword.value
    ensures b.id.None? && b.musinsaKeyword.None? ==> k == "undefined"
  {
    JsKey(if b.id.Some? then b.id else b.musinsaKeyword)
  }

  /** A bare brand name is its own key. */
  lemma NamedKey(s: string)
    ensures CrawlKey(ToBrand(Named(s))) == s
  {
  }

  /** `crawlBrand(brandData)`: the page's records, or none when the browser failed. */
  function CrawlBrand(b: Brand, page: Option<seq<Anchor>>): (items: seq<Item>)
    ensures page.None? ==> items == []
    ensures page.Some? ==> items == ExtractCrawl(page.value, b.nameKo)
  {
    match page
    case None => []
    case Some(anchors) => ExtractCrawl(anchors, b.nameKo)
  }

  lemma CrawlBrandWellFormed(b: Brand, page: Option<seq<Anchor>>)
    ensures WellFormed(CrawlBrand(b, page))
  {
    if page.Some? {
      ExtractCrawlWellFormed(page.value, b.nameKo);
    }
  }

  lemma ExtractCrawlWellFormed(anchors: seq<Anchor>, brandName: Option<string>)
    ensures WellFormed(ExtractCrawl(anchors, brandName))
  {
    CrawlRecordsWellFormed(NameLinks(anchors), brandName);
  }

  /** The records of qualifying links are well formed. */
  lemma CrawlRecordsWellFormed(links: seq<Anchor>, brandName: Option<string>)
    requires forall k :: 0 <= k < |links| ==> Qualifies(links[k])
    ensures WellFormed(CrawlRecords(links, brandName))
  {
    var items := CrawlRecords(links, brandName);
    forall k | 0 <= k < |items|
      ensures items[k].goodsNo.Some? && items[k].goodsNo.value != [] && AllDigits(items[k].goodsNo.value)
      ensures items[k].id == "musinsa_" + items[k].goodsNo.value
    {
      CrawlRecordWellFormed(links[k], brandName, items[k]);
    }
  }

  /** A record built from a qualifying link carries its goods number and id. */
  lemma CrawlRecordWellFormed(a: Anchor, brandName: Option<string>, item: Item)
    requires Qualifies(a) && item == CrawlRecord(a, brandName)
    ensures item.goodsNo.Some? && item.goodsNo.value != [] && AllDigits(item.goodsNo.value)
    ensures item.id == "musinsa_" + item.goodsNo.value
  {
  }

  /** The answer to `POST`: the results and the cache written back, or a server error. */
  datatype PostAnswer = Crawled(results: map<string, Option<seq<Item>>>, cache: Cache) | ServerError

  /** `POST` with the parsed body (`None` when it is not JSON; its `brands`
      field, `None` when absent) and the cache file (`None` when unreadable).
      `written` says whether writing the cache file succeeded. */
  function Post(body: Option<Option<seq<BrandItem>>>, file: Option<Cache>, written: bool,
                checkAt: nat -> int, stampAt: nat -> int, page: (nat, Brand) -> Option<seq<Anchor>>): (r: PostAnswer)
    ensures body.None? || !written <==> r == ServerError
    ensures r.Crawled? ==>
      var brands := body.value.GetOr([]);
      forall k :: k in r.results <==> exists i :: 0 <= i < |brands| && CrawlKey(ToBrand(brands[i])) == k
  {
    if body.None? then ServerError
    else
      var brands := body.value.GetOr([]);
      var produce := (i: nat, b: Brand) => CrawlBrand(b, page(i, b));
      var st := Run(brands, |brands|, CrawlKey, State(LoadCache(file), map[]), checkAt, stampAt, produce);
      RunAnswersEveryKey(brands, |brands|, CrawlKey, State(LoadCache(file), map[]), checkAt, stampAt, produce);
      if written then Crawled(st.results, st.cache) else ServerError
  }

  /** A cache whose products are all well formed stays so, and every answered list is well formed. */
  lemma PostKeepsCacheWellFormed(body: Option<Option<seq<BrandItem>>>, file: Option<Cache>, written: bool,
                                 checkAt: nat -> int, stampAt: nat -> int, page: (nat, Brand) -> Option<seq<Anchor>>)
    requires CacheHolds(LoadCache(file), WellFormed)
    ensures var r := Post(body, file, written, checkAt, stampAt, page);
      r.Crawled? ==> CacheHolds(r.cache, WellFormed) && ResultsHold(r.results, WellFormed)
  {
    if body.Some? {
      var brands := body.value.GetOr([]);
      var produce := (i: nat, b: Brand) => CrawlBrand(b, page(i, b));
      forall i, b ensures WellFormed(produce(i, b)) {
        CrawlBrandWellFormed(b, page(i, b));
      }
      RunPreserves(brands, |brands|, CrawlKey, State(LoadCache(file), map[]), checkAt, stampAt, produce, WellFormed);
    }
  }

  /** Entries for brands not in the request are written back unchanged. */
  lemma PostKeepsOtherEntries(body: Option<Option<seq<BrandItem>>>, file: Option<Cache>, written: bool,
                              checkAt: nat -> int, stampAt: nat -> int, page: (nat, Brand) -> Option<seq<Anchor>>, k: string)
    requires body.Some?
    requires forall i :: 0 <= i < |body.value.GetOr([])| ==> CrawlKey(ToBrand(body.value.GetOr([])[i])) != k
    ensures var r := Post(body, file, written, checkAt, stampAt, page);
      r.Crawled? ==> (k in r.cache <==> k in LoadCache(file)) && (k in LoadCache(file) ==> r.cache[k] == LoadCache(file)[k])
  {
    var brands := body.value.GetOr([]);
    RunLeavesOtherKeys(brands, |brands|, CrawlKey, State(LoadCache(file), map[]), checkAt, stampAt,
                       (i: nat, b: Brand) => CrawlBrand(b, page(i, b)), k);
  }
}

=== FILE: debug_crawl.dfy ===
/** The client's `/api/debug-crawl` route: the crawl loop keyed by the
    brand's `id` alone, the 8-level card walk, and, when `fetchDetail` is
    set, a visit to the detail page of each of the first six freshly
    crawled products. The browser is an oracle: `page(i, b)` is the
    rendered brand page of the `i`-th brand and `detail(i, k, g)` the
    detail page of its `k`-th product with goods number `g`; `None` stands
    for a failed visit. */
module DebugCrawl {
  import opened Wrappers
  import opened Text
  import opened Catalog
  import opened Extract
  import opened Detail
  import opened CrawlCache
  import CrawlRoute

  /** What the detail-page visit reads: the goods-image sources and the texts of the info elements. */
  datatype DebugPage = DebugPage(imgSrcs: seq<string>, texts: seq<Option<string>>)

  /** The key of a brand: its `id` as a JavaScript property name. */
  function DebugKey(b: Brand): (k: string)
    ensures b.id.Some? ==> k == b.id.value
    ensures b.id.None? ==> k == "undefined"
  {
    JsKey(b.id)
  }

  /** The two crawl routes share a cache entry exactly when the brand has an `id`. */
  lemma KeysAgree(b: Brand)
    ensures b.id.Some? ==> DebugKey(b) == CrawlRoute.CrawlKey(b)
    ensures b.id.None? && b.musinsaKeyword.Some? && b.musinsaKeyword.value != "undefined" ==>
      DebugKey(b) != CrawlRoute.CrawlKey(b)
  {
  }

  /** Adds the detail-page findings to the `k`-th product when the visit is made and succeeds. */
  function EnrichOne(p: Item, k: nat, fetch: (nat, string) -> Option<DebugPage>): (r: Item)
    ensures r.(extraImages := p.extraImages, info := p.info) == p
    ensures r != p ==> k < 6 && p.goodsNo.Some? && p.goodsNo.value != []
  {
    if k < 6 && p.goodsNo.Some? && p.goodsNo.value != [] then
      match fetch(k, p.goodsNo.value)
      case Some(d) => p.(extraImages := Some(DebugImages(d.imgSrcs)), info := Some(DebugInfo(d.texts)))
      case None => p
    else p
  }

  /** The `fetchDetail` pass over the products of one brand. */
  function Enrich(products: seq<Item>, fetch: (nat, string) -> Option<DebugPage>): (r: seq<Item>)
    ensures |r| == |products|
  {
    seq(|products|, k requires 0 <= k < |products| => EnrichOne(products[k], k, fetch))
  }

  /** Only the first six products with a goods number and a successful
      visit change, and only in their extra images and info; the new values
      are those the detail page yields. */
  lemma EnrichSpec(products: seq<Item>, fetch: (nat, string) -> Option<DebugPage>, k: nat)
    requires k < |products|
    ensures var r := Enrich(products, fetch)[k];
      r.(extraImages := products[k].extraImages, info := products[k].info) == products[k]
    ensures var p := products[k]; var r := Enrich(products, fetch)[k];
      if k < 6 && p.goodsNo.Some? && p.goodsNo.value != [] && fetch(k, p.goodsNo.value).Some? then
        r.extraImages == Some(DebugImages(fetch(k, p.goodsNo.value).value.imgSrcs))
        && r.info == Some(DebugInfo(fetch(k, p.goodsNo.value).value.texts))
      else r == p
  {
  }

  /** Enrichment keeps every product's goods number and id. */
  lemma EnrichWellFormed(products: seq<Item>, fetch: (nat, string) -> Option<DebugPage>)
    requires WellFormed(products)
    ensures WellFormed(Enrich(products, fetch))
  {
    var r := Enrich(products, fetch);
    forall k | 0 <= k < |r|
      ensures r[k].goodsNo == products[k].goodsNo && r[k].id == products[k].id
    {
      assert r[k] == EnrichOne(products[k], k, fetch);
    }
  }

  /** `crawlBrand` followed, when asked, by the detail pass. */
  function Produce(fetchDetail: bool, page: (nat, Brand) -> Option<seq<Anchor>>,
                   detail: (nat, nat, string) -> Option<DebugPage>, i: nat, b: Brand): (items: seq<Item>)
    ensures page(i, b).None? ==> items == []
    ensures page(i, b).Some? ==> |items| == |ExtractDebug(page(i, b).value, b.nameKo)|
    ensures !fetchDetail && page(i, b).Some? ==> items == ExtractDebug(page(i, b).value, b.nameKo)
  {
    var products := if page(i, b).Some? then ExtractDebug(page(i, b).value, b.nameKo) else [];
    if fetchDetail then Enrich(products, (k: nat, g: string) => detail(i, k, g)) else products
  }

  lemma ExtractDebugWellFormed(anchors: seq<Anchor>, brandName: Option<string>)
    ensures WellFormed(ExtractDebug(anchors, brandName))
  {
    var items := ExtractDebug(anchors, brandName);
    var raw := ExtractRaw(anchors);
    var links := NameLinks(anchors);
    forall k | 0 <= k < |items|
      ensures items[k].goodsNo.Some? && items[k].goodsNo.value != [] && AllDigits(items[k].goodsNo.value)
      ensures items[k].id == "musinsa_" + items[k].goodsNo.value
    {
      assert Qualifies(links[k]);
      assert raw[k] == DebugRaw(links[k]);
      assert items[k] == DebugItem(raw[k], brandName);
    }
  }

  lemma ProduceWellFormed(fetchDetail: bool, page: (nat, Brand) -> Option<seq<Anchor>>,
                          detail: (nat, nat, string) -> Option<DebugPage>, i: nat, b: Brand)
    ensures WellFormed(Produce(fetchDetail, page, detail, i, b))
  {
    if page(i, b).Some? {
      var products := ExtractDebug(page(i, b).value, b.nameKo);
      ExtractDebugWellFormed(page(i, b).value, b.nameKo);
      EnrichWellFormed(products, (k: nat, g: string) => detail(i, k, g));
    }
  }

  /** `POST` with the parsed body (`None` when it is not JSON), its `brands`
      and the truthiness of its `fetchDetail`, the cache file (`None` when
      unreadable) and whether writing it back succeeded. */
  function Post(body: Option<Option<seq<BrandItem>>>, fetchDetail: bool, file: Option<Cache>, written: bool,
                checkAt: nat -> int, stampAt: nat -> int, page: (nat, Brand) -> Option<seq<Anchor>>,
                detail: (nat, nat, string) -> Option<DebugPage>): (r: CrawlRoute.PostAnswer)
    ensures body.None? || !written <==> r == CrawlRoute.ServerError
    ensures r.Crawled? ==>
      var brands := body.value.GetOr([]);
      forall k :: k in r.results <==> exists i :: 0 <= i < |brands| && DebugKey(ToBrand(brands[i])) == k
  {
    if body.None? then CrawlRoute.ServerError
    else
      var brands := body.value.GetOr([]);
      var produce := (i: nat, b: Brand) => Produce(fetchDetail, page, detail, i, b);
      var st := Run(brands, |brands|, DebugKey, State(LoadCache(file), map[]), checkAt, stampAt, produce);
      RunAnswersEveryKey(brands, |brands|, DebugKey, State(LoadCache(file), map[]), checkAt, stampAt, produce);
      if written then CrawlRoute.Crawled(st.results, st.cache) else CrawlRoute.ServerError
  }

  /** A cache whose products are all well formed stays so, and every answered list is well formed. */
  lemma PostKeepsCacheWellFormed(body: Option<Option<seq<BrandItem>>>, fetchDetail: bool, file: Option<Cache>, written: bool,
                                 checkAt: nat -> int, stampAt: nat -> int, page: (nat, Brand) -> Option<seq<Anchor>>,
                                 detail: (nat, nat, string) -> Option<DebugPage>)
    requires CacheHolds(LoadCache(file), WellFormed)
    ensures var r := Post(body, fetchDetail, file, written, checkAt, stampAt, page, detail);
      r.Crawled? ==> CacheHolds(r.cache, WellFormed) && ResultsHold(r.results, WellFormed)
  {
    if body.Some? {
      var brands := body.value.GetOr([]);
      var produce := (i: nat, b: Brand) => Produce(fetchDetail, page, detail, i, b);
      forall i, b ensures WellFormed(produce(i, b)) {
        ProduceWellFormed(fetchDetail, page, detail, i, b);
      }
      RunPreserves(brands, |brands|, DebugKey, State(LoadCache(file), map[]), checkAt, stampAt, produce, WellFormed);
    }
  }
}

=== FILE: detail.dfy ===
/** Product-page details: the image lists of the debug route's detail crawl
    and of the product-detail route, and the classification of page text into
    the detail fields (material, fit, colour, size, origin, season, style). A
    field is set by every entry whose key matches one of its words, case
    insensitively, so the last matching entry wins. */
module Detail {
  import opened Wrappers
  import opened Text
  import opened Seqs
  import opened Catalog

  /** A field's words, in lower case: the alternatives of its `/…/i` pattern. */
  type Rules = map<Field, seq<string>>

  /** The patterns of the debug route's detail crawl. */
  const DebugRules: Rules := map[
    Material := ["소재", "material"], Fit := ["핏", "fit"], Color := ["색상", "color"],
    Size := ["사이즈", "size"], Made := ["제조", "made"]]

  /** The patterns of the product-detail route's table pass. */
  const TableRules: Rules := map[
    Material := ["소재", "material", "혼용률"], Fit := ["핏", "fit"], Color := ["색상", "color"],
    Size := ["사이즈", "size"], Made := ["제조", "made", "원산지"]]

  /** The patterns of the product-detail route's `dl` pass: the table's and season and style. */
  const DlRules: Rules := TableRules[Season := ["시즌", "season"]][Style := ["스타일", "style"]]

  /** A key/value entry: a `dt`/`dd` pair, the first two cells of a table row,
      or an element text that serves as both. */
  type Entry = (string, string)

  /** The fields whose pattern the key matches. */
  function Matched(rules: Rules, key: string): set<Field> {
    set f | f in rules && MatchesAnyCI(key, rules[f])
  }

  /** One entry's `if (/…/i.test(key)) info.field = val` statements. */
  function Classify(info: Info, rules: Rules, e: Entry): (r: Info)
    ensures r.Keys == info.Keys + Matched(rules, e.0)
    ensures forall f :: f in Matched(rules, e.0) ==> r[f] == e.1
    ensures forall f :: f in info && f !in Matched(rules, e.0) ==> r[f] == info[f]
  {
    var m := Matched(rules, e.0);
    map f | f in info.Keys + m :: if f in m then e.1 else info[f]
  }

  /** The entries applied in order. */
  function Apply(info: Info, rules: Rules, es: seq<Entry>): Info {
    if |es| == 0 then info else Classify(Apply(info, rules, es[..|es| - 1]), rules, es[|es| - 1])
  }

  /** The value of the last entry whose key matches one of `words`. */
  function LastMatch(es: seq<Entry>, words: seq<string>): (r: Option<string>)
    ensures r.None? <==> forall k :: 0 <= k < |es| ==> !MatchesAnyCI(es[k].0, words)
    ensures r.Some? ==> exists k :: (0 <= k < |es| && MatchesAnyCI(es[k].0, words) && es[k].1 == r.value
                                     && forall j :: k < j < |es| ==> !MatchesAnyCI(es[j].0, words))
  {
    if |es| == 0 then None
    else if MatchesAnyCI(es[|es| - 1].0, words) then Some(es[|es| - 1].1)
    else
      var r := LastMatch(es[..|es| - 1], words);
      assert forall k :: 0 <= k < |es| - 1 ==> es[..|es| - 1][k] == es[k];
      r
  }

  /** Applying the entries sets each field of the rules to its last matching
      value and leaves the other fields as they were. */
  lemma {:induction false} ApplySpec(info: Info, rules: Rules, es: seq<Entry>, f: Field)
    ensures f in rules && LastMatch(es, rules[f]).Some? ==>
      f in Apply(info, rules, es) && Apply(info, rules, es)[f] == LastMatch(es, rules[f]).value
    ensures !(f in rules && LastMatch(es, rules[f]).Some?) ==>
      (f in Apply(info, rules, es) <==> f in info) &&
      (f in info ==> Apply(info, rules, es)[f] == info[f])
    decreases |es|
  {
    if |es| > 0 {
      ApplySpec(info, rules, es[..|es| - 1], f);
    }
  }

  /** An element's trimmed `innerText` as a key/value entry, when it is not empty. */
  function TextEntries(texts: seq<Option<string>>): (es: seq<Entry>)
    ensures |es| <= |texts|
    ensures forall k :: 0 <= k < |es| ==> es[k].0 != "" && es[k].0 == es[k].1
  {
    if |texts| == 0 then []
    else
      var t := Trim(texts[|texts| - 1].GetOr(""));
      TextEntries(texts[..|texts| - 1]) + (if t == "" then [] else [(t, t)])
  }

  /** The debug route's `infoRows`: each non-empty element text sets the fields it matches. */
  function DebugInfo(texts: seq<Option<string>>): Info {
    Apply(map[], DebugRules, TextEntries(texts))
  }

  /** A field of `infoRows` holds the last element text matching its pattern,
      and is absent when no text matches. */
  lemma DebugInfoSpec(texts: seq<Option<string>>, f: Field)
    ensures f in DebugRules && LastMatch(TextEntries(texts), DebugRules[f]).Some? ==>
      f in DebugInfo(texts) && DebugInfo(texts)[f] == LastMatch(TextEntries(texts), DebugRules[f]).value
    ensures !(f in DebugRules && LastMatch(TextEntries(texts), DebugRules[f]).Some?) ==> f !in DebugInfo(texts)
  {
    ApplySpec(map[], DebugRules, TextEntries(texts), f);
  }

  /** A `dl` element: the texts of its `dt`s and of its `dd`s. */
  datatype Dl = Dl(dts: seq<Option<string>>, dds: seq<Option<string>>)

  /** `el.innerText?.trim()` of each element, with a missing text read as empty. */
  function Texts(xs: seq<Option<string>>): (ts: seq<string>)
    ensures |ts| == |xs|
  {
    seq(|xs|, i requires 0 <= i < |xs| => Trim(xs[i].GetOr("")))
  }

  /** The `i`-th key with the `i`-th value (empty when there is none), when both are non-empty. */
  function Pair(keys: seq<string>, vals: seq<string>, i: nat): seq<Entry>
    requires i < |keys|
  {
    var val := if i < |vals| then vals[i] else "";
    if keys[i] == "" || val == "" then [] else [(keys[i], val)]
  }

  function Pairs(keys: seq<string>, vals: seq<string>, n: nat): (es: seq<Entry>)
    requires n <= |keys|
    ensures |es| <= n
    ensures forall k :: 0 <= k < |es| ==> es[k].0 != "" && es[k].1 != ""
  {
    if n == 0 then [] else Pairs(keys, vals, n - 1) + Pair(keys, vals, n - 1)
  }

  /** The entries of one `dl`: its `dt`s paired by position with its `dd`s. */
  function DlEntries(dl: Dl): (es: seq<Entry>)
    ensures |es| <= |dl.dts|
    ensures forall k :: 0 <= k < |es| ==> es[k].0 != "" && es[k].1 != ""
  {
    Pairs(Texts(dl.dts), Texts(dl.dds), |dl.dts|)
  }

  /** When each of the first `n` keys has a value at its position and both are
      non-empty, they give the first `n` entries, pair by pair, in order. */
  lemma {:induction false} PairsFull(keys: seq<string>, vals: seq<string>, n: nat)
    requires n <= |keys| <= |vals|
    requires forall i :: 0 <= i < n ==> keys[i] != "" && vals[i] != ""
    ensures |Pairs(keys, vals, n)| == n
    ensures forall i :: 0 <= i < n ==> Pairs(keys, vals, n)[i] == (keys[i], vals[i])
  {
    if n > 0 {
      PairsFull(keys, vals, n - 1);
    }
  }

  /** In a `dl` whose every `dt` has a non-empty `dd` at its position, the
      `i`-th entry is the `i`-th `dt` with the `i`-th `dd`. */
  lemma DlEntriesFull(dl: Dl)
    requires |dl.dts| <= |dl.dds|
    requires forall i :: 0 <= i < |dl.dts| ==> Texts(dl.dts)[i] != "" && Texts(dl.dds)[i] != ""
    ensures |DlEntries(dl)| == |dl.dts|
    ensures forall i :: 0 <= i < |dl.dts| ==> DlEntries(dl)[i] == (Texts(dl.dts)[i], Texts(dl.dds)[i])
  {
    PairsFull(Texts(dl.dts), Texts(dl.dds), |dl.dts|);
  }

  function DlsEntries(dls: seq<Dl>): (es: seq<Entry>)
    ensures forall k :: 0 <= k < |es| ==> es[k].0 != "" && es[k].1 != ""
  {
    if |dls| == 0 then [] else DlsEntries(dls[..|dls| - 1]) + DlEntries(dls[|dls| - 1])
  }

  /** A table row, as the texts of its `td`/`th` cells; rows of fewer than two cells are skipped. */
  function RowEntries(rows: seq<seq<Option<string>>>): (es: seq<Entry>)
    ensures |es| <= |rows|
    ensures forall k :: 0 <= k < |es| ==> es[k].0 != "" && es[k].1 != ""
  {
    if |rows| == 0 then []
    else
      var cells := rows[|rows| - 1];
      var e: seq<Entry> :=
        if |cells| < 2 then []
        else
          var key := Trim(cells[0].GetOr(""));
          var val := Trim(cells[1].GetOr(""));
          if key == "" || val == "" then [] else [(key, val)];
      RowEntries(rows[..|rows| - 1]) + e
  }

  /** The product-detail route's `info`: the `dl` pass, then the table pass. */
  function DetailInfo(dls: seq<Dl>, rows: seq<seq<Option<string>>>): Info {
    Apply(Apply(map[], DlRules, DlsEntries(dls)), TableRules, RowEntries(rows))
  }

  /** A table row matching a field overrides every `dl` value. */
  lemma DetailTableWins(dls: seq<Dl>, rows: seq<seq<Option<string>>>, f: Field)
    requires f in TableRules && LastMatch(RowEntries(rows), TableRules[f]).Some?
    ensures f in DetailInfo(dls, rows)
    ensures DetailInfo(dls, rows)[f] == LastMatch(RowEntries(rows), TableRules[f]).value
  {
    ApplySpec(Apply(map[], DlRules, DlsEntries(dls)), TableRules, RowEntries(rows), f);
  }

  /** Without a matching table row, the `dl` pass decides a field. */
  lemma DetailDlDecides(dls: seq<Dl>, rows: seq<seq<Option<string>>>, f: Field)
    requires !(f in TableRules && LastMatch(RowEntries(rows), TableRules[f]).Some?)
    ensures f in DetailInfo(dls, rows) <==> LastMatch(DlsEntries(dls), DlRules[f]).Some?
    ensures f in DetailInfo(dls, rows) ==> DetailInfo(dls, rows)[f] == LastMatch(DlsEntries(dls), DlRules[f]).value
  {
    var dl := Apply(map[], DlRules, DlsEntries(dls));
    ApplySpec(map[], DlRules, DlsEntries(dls), f);
    ApplySpec(dl, TableRules, RowEntries(rows), f);
  }

  /** Season and style come from the `dl` pass only. */
  lemma DetailSeasonStyleFromDl(dls: seq<Dl>, rows: seq<seq<Option<string>>>, f: Field)
    requires f == Season || f == Style
    ensures f in DetailInfo(dls, rows) <==> LastMatch(DlsEntries(dls), DlRules[f]).Some?
  {
    assert f !in TableRules;
    DetailDlDecides(dls, rows, f);
  }

  predicate IsGoodsImg(src: string) {
    Contains(src, "msscdn.net") && Contains(src, "goods_img")
  }

  predicate IsMsscdn(src: string) {
    Contains(src, "msscdn.net")
  }

  predicate IsProductPhoto(src: string) {
    Contains(src, "goods_img") || Contains(src, "goods_photos")
  }

  /** The debug route's `extraImgs`: goods-image sources, first occurrences, at most 6. */
  function DebugImages(srcs: seq<string>): seq<string> {
    CapDedup(Filter(srcs, IsGoodsImg), 6)
  }

  /** The product-detail route's `extra_images`: msscdn sources that are goods
      images or goods photos, first occurrences, at most 8. */
  function DetailImages(srcs: seq<string>): seq<string> {
    CapDedup(Filter(Filter(srcs, IsMsscdn), IsProductPhoto), 8)
  }

  /** The debug image list: goods images of the page, each once, in order of
      first occurrence: the first six distinct ones, and all of them when there
      are no more. A goods image is left out only when six others come first. */
  lemma DebugImagesSpec(srcs: seq<string>)
    ensures |DebugImages(srcs)| <= 6 && NoDup(DebugImages(srcs))
    ensures var d := Dedup(Filter(srcs, IsGoodsImg));
      |DebugImages(srcs)| == (if |d| < 6 then |d| else 6) && DebugImages(srcs) == d[..|DebugImages(srcs)|]
    ensures forall x :: x in DebugImages(srcs) ==> x in Filter(srcs, IsGoodsImg)
    ensures forall x :: x in Filter(srcs, IsGoodsImg) && x !in DebugImages(srcs) ==>
      DroppedAfterKept(Filter(srcs, IsGoodsImg), DebugImages(srcs), 6, x)
    ensures forall x :: x in DebugImages(srcs) ==> x in srcs && IsGoodsImg(x)
    ensures Subseq(DebugImages(srcs), srcs)
    ensures |Dedup(Filter(srcs, IsGoodsImg))| <= 6 ==> forall x :: x in srcs && IsGoodsImg(x) ==> x in DebugImages(srcs)
    ensures forall i, j :: 0 <= i < j < |DebugImages(srcs)| ==>
      IndexOf(Filter(srcs, IsGoodsImg), DebugImages(srcs)[i]) < IndexOf(Filter(srcs, IsGoodsImg), DebugImages(srcs)[j])
  {
    var f := Filter(srcs, IsGoodsImg);
    CapDedupSpec(f, 6);
    SubseqTrans(DebugImages(srcs), f, srcs);
  }

  /** The detail image list: product photos of the page, each once, in order of
      first occurrence: the first eight distinct ones, and all of them when
      there are no more. A photo is left out only when eight others come first. */
  lemma DetailImagesSpec(srcs: seq<string>)
    ensures |DetailImages(srcs)| <= 8 && NoDup(DetailImages(srcs))
    ensures var d := Dedup(Filter(Filter(srcs, IsMsscdn), IsProductPhoto));
      |DetailImages(srcs)| == (if |d| < 8 then |d| else 8) && DetailImages(srcs) == d[..|DetailImages(srcs)|]
    ensures forall x :: x in DetailImages(srcs) ==> x in Filter(Filter(srcs, IsMsscdn), IsProductPhoto)
    ensures forall x :: x in Filter(Filter(srcs, IsMsscdn), IsProductPhoto) && x !in DetailImages(srcs) ==>
      DroppedAfterKept(Filter(Filter(srcs, IsMsscdn), IsProductPhoto), DetailImages(srcs), 8, x)
    ensures forall x :: x in DetailImages(srcs) ==> x in srcs && IsMsscdn(x) && IsProductPhoto(x)
    ensures Subseq(DetailImages(srcs), srcs)
    ensures forall i, j :: 0 <= i < j < |DetailImages(srcs)| ==>
      IndexOf(Filter(Filter(srcs, IsMsscdn), IsProductPhoto), DetailImages(srcs)[i])
        < IndexOf(Filter(Filter(srcs, IsMsscdn), IsProductPhoto), DetailImages(srcs)[j])
  {
    var f1 := Filter(srcs, IsMsscdn);
    var f2 := Filter(f1, IsProductPhoto);
    var r := DetailImages(srcs);
    CapDedupSpec(f2, 8);
    assert Subseq(r, srcs) by {
      SubseqTrans(r, f2, f1);
      SubseqTrans(r, f1, srcs);
    }
    forall x | x in r
      ensures x in srcs && IsMsscdn(x) && IsProductPhoto(x)
    {
      assert x in f2;
      assert x in f1 && IsProductPhoto(x);
    }
  }
}

=== FILE: exchange.dfy ===
/** The KRW→JPY rate memo, kept in two places: the `/api/exchange` route
    and `getExchangeRate` of the price helpers. Each keeps a rate and the
    time it was fetched and reuses them for thirty minutes. The clock is a
    parameter and the rate service an oracle: `Threw` when the request or
    its JSON failed, otherwise the `conversion_rate` field (`None` when
    absent). */
module Exchange {
  import opened Wrappers

  /** `cachedRate` and `cacheTime`. */
  datatype Memo = Memo(rate: Option<real>, time: Option<int>)

  const Initial: Memo := Memo(None, None)

  const CacheMs: int := 30 * 60 * 1000

  const FallbackRate: real := 0.11

  datatype Fetched = Threw | Rate(conversionRate: Option<real>)

  /** JavaScript truthiness of the memo's fields: absent and zero are falsy. */
  predicate RateTruthy(r: Option<real>) {
    r.Some? && r.value != 0.0
  }

  predicate TimeTruthy(t: Option<int>) {
    t.Some? && t.value != 0
  }

  /** `cachedRate && cacheTime && now - cacheTime < CACHE_MS`. */
  predicate Hit(m: Memo, now: int) {
    RateTruthy(m.rate) && TimeTruthy(m.time) && now - m.time.value < CacheMs
  }

  /** The route's JSON answer: `{rate, cached}` plus `fallback: true` after a failure. */
  datatype RateAnswer = RateAnswer(rate: Option<real>, cached: bool, fallback: bool)

  /** The route `GET /api/exchange`: the answer and the memo after it. A
      missing or empty API key fails like the request. */
  function Route(m: Memo, now: int, apiKey: Option<string>, fetched: Fetched): (r: (RateAnswer, Memo))
    ensures Hit(m, now) ==> r == (RateAnswer(m.rate, true, false), m)
    ensures !Hit(m, now) && (apiKey.None? || apiKey.value == "" || fetched.Threw?) ==>
      r == (RateAnswer(Some(FallbackRate), false, true), m)
    ensures r.0.fallback <==> r.1 == m && !r.0.cached && r.0.rate == Some(FallbackRate) && !Hit(m, now)
                                && (apiKey.None? || apiKey.value == "" || fetched.Threw?)
    ensures !r.0.cached && !r.0.fallback ==> r.1 == Memo(r.0.rate, Some(now))
  {
    if Hit(m, now) then (RateAnswer(m.rate, true, false), m)
    else if apiKey.None? || apiKey.value == "" || fetched.Threw? then (RateAnswer(Some(FallbackRate), false, true), m)
    else (RateAnswer(fetched.conversionRate, false, false), Memo(fetched.conversionRate, Some(now)))
  }

  /** `getExchangeRate()`: the rate and the memo after it; a failure returns the fixed rate. */
  function GetExchangeRate(m: Memo, now: int, fetched: Fetched): (r: (Option<real>, Memo))
    ensures Hit(m, now) ==> r == (m.rate, m)
    ensures !Hit(m, now) && fetched.Threw? ==> r == (Some(FallbackRate), m)
    ensures !Hit(m, now) && fetched.Rate? ==> r == (fetched.conversionRate, Memo(fetched.conversionRate, Some(now)))
  {
    if Hit(m, now) then (m.rate, m)
    else match fetched
      case Threw => (Some(FallbackRate), m)
      case Rate(rate) => (rate, Memo(rate, Some(now)))
  }

  /** With an API key, the route and the helper keep their memos alike and answer the same rate. */
  lemma RouteAgreesWithHelper(m: Memo, now: int, key: string, fetched: Fetched)
    requires key != ""
    ensures Route(m, now, Some(key), fetched).0.rate == GetExchangeRate(m, now, fetched).0
    ensures Route(m, now, Some(key), fetched).1 == GetExchangeRate(m, now, fetched).1
  {
  }

  /** A truthy rate fetched at a non-zero time answers every call of the
      next thirty minutes from the memo, whatever the service would say. */
  lemma FetchedRateIsReused(m: Memo, now: int, key: string, rate: real, later: int, again: Fetched)
    requires !Hit(m, now) && key != "" && rate != 0.0 && now != 0
    requires now <= later < now + CacheMs
    ensures var m1 := Route(m, now, Some(key), Rate(Some(rate))).1;
      Route(m1, later, None, again) == (RateAnswer(Some(rate), true, false), m1)
  {
  }

  /** A missing or zero rate is stored but never reused: the next call asks again. */
  lemma FalsyRateRefetches(m: Memo, now: int, key: string, rate: Option<real>, later: int)
    requires !Hit(m, now) && key != "" && !RateTruthy(rate)
    ensures !Hit(Route(m, now, Some(key), Rate(rate)).1, later)
  {
  }

  /** The route and the helper start empty: the first call always asks. */
  lemma InitialMisses(now: int)
    ensures !Hit(Initial, now)
  {
  }
}

=== FILE: extract.dfy ===
/** The product-card extraction that the crawlers run inside a rendered
    brand page. The page is given as its `<a>` elements in document order;
    each carries its `href`, its `innerText` and the chain of its ancestors
    from the parent upward, each ancestor reduced to what the card queries
    can find in it. Two walks exist: the 6-level walk of the crawl route,
    which stops at the first ancestor holding an image or a price element,
    and the 8-level walk of the debug route and the backend's extraction
    script, which looks for the image and the price independently. */
module Extract {
  import opened Wrappers
  import opened Text
  import opened Seqs
  import opened Catalog
  import Cdn

  /** One ancestor of a product link. */
  datatype Level = Level(
    msscdnImg: Option<string>,  // src of the first img whose src contains "msscdn.net"
    goodsImg: Option<string>,   // src of the first img whose src contains "msscdn.net" and "goods_img"
    priceText: Option<string>)  // textContent of the first price element

  /** An `<a>` element: `innerText` is absent on elements that have none. */
  datatype Anchor = Anchor(href: string, innerText: Option<string>, ancestors: seq<Level>)

  const ProductsPath: string := "/products/"

  /** The product path starts at position `i` of `h` and a digit follows it. */
  predicate PathAt(h: string, i: int) {
    0 <= i && i + |ProductsPath| < |h| && h[i..i + |ProductsPath|] == ProductsPath && IsDigit(h[i + |ProductsPath|])
  }

  /** `/\/products\/\d+/.test(h)`: the path followed by a digit occurs somewhere in `h`. */
  predicate HasProductsPath(h: string) {
    exists i :: 0 <= i < |h| && PathAt(h, i)
  }

  /** `h.match(/\/products\/(\d+)/)?.[1]`: the digits after the leftmost
      `/products/` that is followed by a digit. */
  function ProductsMatch(h: string): (g: Option<string>)
    ensures g.Some? ==> g.value != [] && AllDigits(g.value)
    decreases |h|
  {
    if |h| == 0 then None
    else if PathAt(h, 0) then Some(LeadingDigits(h[|ProductsPath|..]))
    else ProductsMatch(h[1..])
  }

  lemma PathAtShift(h: string, i: int)
    requires 1 <= i && |h| > 0
    ensures PathAt(h, i) <==> PathAt(h[1..], i - 1)
  {
    var n := |ProductsPath|;
    if i + n < |h| {
      assert h[1..][i - 1..i - 1 + n] == h[i..i + n];
      assert h[1..][i - 1 + n] == h[i + n];
    }
  }

  /** The match succeeds exactly when the test succeeds. */
  lemma {:induction false} ProductsMatchIffTest(h: string)
    ensures ProductsMatch(h).Some? <==> HasProductsPath(h)
    decreases |h|
  {
    if |h| == 0 {
    } else if PathAt(h, 0) {
    } else {
      ProductsMatchIffTest(h[1..]);
      if HasProductsPath(h) {
        var i :| 0 <= i < |h| && PathAt(h, i);
        assert i != 0;
        PathAtShift(h, i);
      }
      if HasProductsPath(h[1..]) {
        var i :| 0 <= i < |h[1..]| && PathAt(h[1..], i);
        PathAtShift(h, i + 1);
        assert PathAt(h, i + 1);
      }
    }
  }

  /** The goods number read from a product path is the one written there. */
  lemma ProductsMatchOf(g: string, rest: string)
    requires g != [] && AllDigits(g)
    requires rest == [] || !IsDigit(rest[0])
    ensures ProductsMatch(ProductsPath + g + rest) == Some(g)
  {
    var h := ProductsPath + g + rest;
    assert h[0..|ProductsPath|] == ProductsPath;
    assert h[|ProductsPath|..] == g + rest;
    LeadingDigitsOf(g, rest);
  }

  /** The link filter: a product path in the href and a trimmed text longer than two UTF-16 code units. */
  predicate Qualifies(a: Anchor) {
    ProductsMatch(a.href).Some? && a.innerText.Some? && JsLength(Trim(a.innerText.value)) > 2
  }

  /** `nameLinks.slice(0, 12)`: the first twelve qualifying links, in page order. */
  function NameLinks(anchors: seq<Anchor>): (r: seq<Anchor>)
    ensures |r| <= 12 && Subseq(r, Filter(anchors, Qualifies))
    ensures |r| <= |Filter(anchors, Qualifies)| && r == Filter(anchors, Qualifies)[..|r|]
    ensures forall i :: 0 <= i < |r| ==> Qualifies(r[i])
    ensures |r| == if Count(anchors, Qualifies) < 12 then Count(anchors, Qualifies) else 12
  {
    FilterTake(anchors, Qualifies, 12);
    Take(Filter(anchors, Qualifies), 12)
  }

  /** `parseInt(text.replace(/[^0-9]/g, ''), 10) || 0`: the digits of the text as a number, 0 when there are none. */
  function PriceOfText(t: Option<string>): nat {
    ParseDigits(DigitsOnly(t.GetOr("")))
  }

  /** What the 6-level walk stops at: an ancestor holding an image or a price element. */
  function CardAt(l: Level): Option<Level> {
    if l.goodsImg.Some? || l.priceText.Some? then Some(l) else None
  }

  /** The card of the 6-level walk: its price and image; price 0 and no image when no card is found. */
  function Walk6(ancestors: seq<Level>): (r: (nat, Option<string>))
    ensures (forall j :: 0 <= j < |ancestors| && j < 6 ==> ancestors[j].goodsImg.None? && ancestors[j].priceText.None?)
      ==> r == (0, None)
  {
    var levels := Take(ancestors, 6);
    match First(levels, CardAt)
    case Some(card) => (PriceOfText(card.priceText), card.goodsImg)
    case None => (0, None)
  }

  /** The 6-level walk takes both its price and its image from the nearest card. */
  lemma Walk6Nearest(ancestors: seq<Level>, k: nat)
    requires k < |ancestors| && k < 6
    requires ancestors[k].goodsImg.Some? || ancestors[k].priceText.Some?
    requires forall j :: 0 <= j < k ==> ancestors[j].goodsImg.None? && ancestors[j].priceText.None?
    ensures Walk6(ancestors) == (PriceOfText(ancestors[k].priceText), ancestors[k].goodsImg)
  {
    var levels := Take(ancestors, 6);
    FirstIndexUnique(levels, CardAt, k);
  }

  /** A crawl-route record for a qualifying link (`musinsa_<goodsNo>` ids). */
  function CrawlRecord(a: Anchor, brandName: Option<string>): (item: Item)
    requires Qualifies(a)
    ensures item.goodsNo.Some? && AllDigits(item.goodsNo.value) && item.goodsNo.value != []
    ensures item.id == "musinsa_" + item.goodsNo.value
    ensures item.goodsNo == ProductsMatch(a.href) && item.productUrl == a.href
    ensures JsLength(item.name) > 2 && item.name == Trim(item.name)
  {
    var g := ProductsMatch(a.href).value;
    var w := Walk6(a.ancestors);
    TrimIdempotent(a.innerText.value);
    Item("musinsa_" + g, Trim(a.innerText.value), brandName, w.0, w.1, a.href, Some(g), None, None)
  }

  /** The crawl route's extraction: one record per link among the first 12 qualifying ones. */
  function ExtractCrawl(anchors: seq<Anchor>, brandName: Option<string>): (items: seq<Item>)
    ensures |items| == |NameLinks(anchors)|
    ensures forall k :: 0 <= k < |items| ==> items[k] == CrawlRecord(NameLinks(anchors)[k], brandName)
  {
    CrawlRecords(NameLinks(anchors), brandName)
  }

  function CrawlRecords(links: seq<Anchor>, brandName: Option<string>): (items: seq<Item>)
    requires forall k :: 0 <= k < |links| ==> Qualifies(links[k])
    ensures |items| == |links|
    ensures forall k :: 0 <= k < |items| ==> items[k] == CrawlRecord(links[k], brandName)
  {
    seq(|links|, k requires 0 <= k < |links| => CrawlRecord(links[k], brandName))
  }

  /** What the 8-level walk takes as image from an ancestor: the first msscdn image, if it is a goods image. */
  function ImgAt(l: Level): Option<string> {
    if l.msscdnImg.Some? && Contains(l.msscdnImg.value, "goods_img") then l.msscdnImg else None
  }

  /** What the 8-level walk takes as price: at least four digits, and a non-zero value (a zero leaves it unset). */
  function PriceAt(l: Level): Option<nat> {
    if l.priceText.Some? && |DigitsOnly(l.priceText.value)| >= 4 && ParseDigits(DigitsOnly(l.priceText.value)) != 0
    then Some(ParseDigits(DigitsOnly(l.priceText.value)))
    else None
  }

  /** The image and price of the 8-level walk: each from the nearest ancestor that supplies it. */
  function Walk8Image(ancestors: seq<Level>): Option<string> {
    First(Take(ancestors, 8), ImgAt)
  }

  function Walk8Price(ancestors: seq<Level>): nat {
    First(Take(ancestors, 8), PriceAt).GetOr(0)
  }

  /** The walk as the page script runs it: both slots filled level by level,
      leaving early once both are known. */
  method Walk8(ancestors: seq<Level>) returns (img: Option<string>, price: nat)
    ensures img == Walk8Image(ancestors)
    ensures price == Walk8Price(ancestors)
  {
    var levels := Take(ancestors, 8);
    img := None;
    price := 0;
    var i := 0;
    while i < |levels|
      invariant 0 <= i <= |levels|
      invariant img == First(levels[..i], ImgAt)
      invariant price == First(levels[..i], PriceAt).GetOr(0)
      invariant First(levels[..i], PriceAt).Some? ==> price != 0
    {
      img, price := Walk8Level(levels, i, img, price);
      if img.Some? && price != 0 {
        Walk8Done(levels, i + 1);
        return;
      }
      i := i + 1;
    }
    assert levels[..i] == levels;
  }

  /** One level of the walk: an empty image slot takes the level's goods
      image, an empty price slot the level's digits when there are four. */
  method Walk8Level(levels: seq<Level>, i: nat, img: Option<string>, price: nat) returns (img': Option<string>, price': nat)
    requires i < |levels|
    requires img == First(levels[..i], ImgAt)
    requires price == First(levels[..i], PriceAt).GetOr(0)
    requires First(levels[..i], PriceAt).Some? ==> price != 0
    ensures img' == First(levels[..i + 1], ImgAt)
    ensures price' == First(levels[..i + 1], PriceAt).GetOr(0)
    ensures First(levels[..i + 1], PriceAt).Some? ==> price' != 0
  {
    var card := levels[i];
    FirstStep(levels, i, ImgAt);
    FirstStep(levels, i, PriceAt);
    img', price' := img, price;
    if img.None? {
      if card.msscdnImg.Some? && Contains(card.msscdnImg.value, "goods_img") {
        img' := card.msscdnImg;
      }
    }
    if price == 0 {
      if card.priceText.Some? {
        var raw := DigitsOnly(card.priceText.value);
        if |raw| >= 4 {
          price' := ParseDigits(raw);
        }
      }
    }
  }

  lemma FirstStep<U>(s: seq<Level>, i: nat, f: Level -> Option<U>)
    requires i < |s|
    ensures First(s[..i + 1], f) == if First(s[..i], f).Some? then First(s[..i], f) else f(s[i])
  {
    assert s[..i + 1] == s[..i] + [s[i]];
    FirstAppend(s[..i], [s[i]], f);
    assert FirstIndex([s[i]], f) == 0 || FirstIndex([s[i]], f) == 1;
  }

  /** Once both slots are filled the remaining levels change nothing. */
  lemma Walk8Done(levels: seq<Level>, i: nat)
    requires i <= |levels|
    requires First(levels[..i], ImgAt).Some? && First(levels[..i], PriceAt).Some?
    ensures First(levels, ImgAt) == First(levels[..i], ImgAt)
    ensures First(levels, PriceAt) == First(levels[..i], PriceAt)
  {
    assert levels == levels[..i] + levels[i..];
    FirstAppend(levels[..i], levels[i..], ImgAt);
    FirstAppend(levels[..i], levels[i..], PriceAt);
  }

  /** A raw item of the debug route and of the backend's extraction script. */
  datatype RawItem = RawItem(name: string, priceKrw: nat, imageUrl: Option<string>, productUrl: string, goodsNo: Option<string>)

  /** The record of one qualifying link under the 8-level walk, with the CDN
      guess when no ancestor supplies an image. */
  function DebugRaw(a: Anchor): (r: RawItem)
    requires Qualifies(a)
    ensures r.goodsNo == ProductsMatch(a.href)
    ensures r.imageUrl.Some?
    ensures Walk8Image(a.ancestors).Some? ==> r.imageUrl == Walk8Image(a.ancestors)
    ensures Walk8Image(a.ancestors).None? ==> r.imageUrl == Some(Cdn.CdnUrl(r.goodsNo.value))
  {
    var g := ProductsMatch(a.href).value;
    var img := match Walk8Image(a.ancestors)
      case Some(src) => src
      case None => Cdn.UrlUnder(Cdn.Base, g);
    RawItem(Trim(a.innerText.value), Walk8Price(a.ancestors), Some(img), a.href, Some(g))
  }

  /** The debug route's item: the raw record with its `musinsa_<goodsNo>` id. */
  function DebugItem(r: RawItem, brandName: Option<string>): (item: Item)
    requires r.goodsNo.Some?
    ensures item.id == "musinsa_" + r.goodsNo.value
    ensures item.name == r.name && item.priceKrw == r.priceKrw && item.imageUrl == r.imageUrl
    ensures item.extraImages.None? && item.info.None?
  {
    Item("musinsa_" + r.goodsNo.value, r.name, brandName, r.priceKrw, r.imageUrl, r.productUrl, r.goodsNo, None, None)
  }

  /** The 8-level extraction over a page, as raw records. */
  function ExtractRaw(anchors: seq<Anchor>): (items: seq<RawItem>)
    ensures |items| == |NameLinks(anchors)|
    ensures forall k :: 0 <= k < |items| ==> items[k] == DebugRaw(NameLinks(anchors)[k])
    ensures forall k :: 0 <= k < |items| ==> items[k].goodsNo.Some? && items[k].imageUrl.Some?
  {
    RawRecords(NameLinks(anchors))
  }

  function RawRecords(links: seq<Anchor>): (items: seq<RawItem>)
    requires forall k :: 0 <= k < |links| ==> Qualifies(links[k])
    ensures |items| == |links|
    ensures forall k :: 0 <= k < |items| ==> items[k] == DebugRaw(links[k])
  {
    seq(|links|, k requires 0 <= k < |links| => DebugRaw(links[k]))
  }

  /** The debug route's extraction: the raw records with their ids. */
  function ExtractDebug(anchors: seq<Anchor>, brandName: Option<string>): (items: seq<Item>)
    ensures |items| == |ExtractRaw(anchors)|
    ensures forall k :: 0 <= k < |items| ==> items[k] == DebugItem(ExtractRaw(anchors)[k], brandName)
  {
    DebugItems(ExtractRaw(anchors), brandName)
  }

  function DebugItems(raw: seq<RawItem>, brandName: Option<string>): (items: seq<Item>)
    requires forall k :: 0 <= k < |raw| ==> raw[k].goodsNo.Some?
    ensures |items| == |raw|
    ensures forall k :: 0 <= k < |items| ==> items[k] == DebugItem(raw[k], brandName)
  {
    seq(|raw|, k requires 0 <= k < |raw| => DebugItem(raw[k], brandName))
  }

  /** Every record of the debug route has a goods number and an image: the
      link filter guarantees the goods number, which guarantees the CDN guess. */
  lemma DebugItemsComplete(anchors: seq<Anchor>, brandName: Option<string>)
    ensures forall k :: 0 <= k < |ExtractDebug(anchors, brandName)| ==>
      ExtractDebug(anchors, brandName)[k].imageUrl.Some? && ExtractDebug(anchors, brandName)[k].goodsNo.Some?
  {
  }

  /** A worked link: `/products/5621602` with no ancestors gets the guessed CDN image. */
  lemma DebugExample(a: Anchor)
    requires a.href == "/products/5621602" && a.ancestors == [] && Qualifies(a)
    ensures DebugRaw(a).imageUrl == Some(Cdn.Base + "5621/5621602/5621602_1_500.jpg")
  {
    ExampleGoods();
    assert Walk8Image(a.ancestors).None?;
    Cdn.CdnExample();
  }

  lemma ExampleGoods()
    ensures ProductsMatch("/products/5621602") == Some("5621602")
  {
    ProductsMatchOf("5621602", "");
    assert ProductsPath + "5621602" + "" == "/products/5621602";
  }
}

=== FILE: fashion_page.dfy ===
/** The state updates and derived views of the fashion page: the Japanese
    labels of idol references and style tags, the multi- and single-select
    toggles of the form, the cart, brand selection with its on-demand crawl,
    and the display name, card tags and image gallery. React's state setters
    become functions from the old state to the new one. */
module FashionPage {
  import opened Wrappers
  import opened Seqs
  import opened Catalog

  // ── Labels ────────────────────────────────────────────────────────────

  /** `IDOL_JA`. */
  const IdolJa: map<string, string> := map[
    "카리나 (에스파)" := "カリナ (aespa)",
    "지효 (트와이스)" := "ジヒョ (TWICE)",
    "아이브 멤버들" := "IVEメンバー",
    "뉴진스" := "NewJeans",
    "에스파 멤버들" := "aespaメンバー",
    "르세라핌 멤버들" := "LE SSERAFIMメンバー",
    "블랙핑크 멤버들" := "BLACKPINKメンバー",
    "트와이스 멤버들" := "TWICEメンバー",
    "BTS" := "BTS",
    "다양한 아이돌" := "様々なアイドル"]

  /** `OCCASION_JA`. */
  const OccasionJa: map<string, string> := map[
    "공항 패션" := "空港ファッション",
    "인스타그램 일상" := "インスタグラム日常",
    "공식 화보" := "公式グラビア",
    "스타일리스트 픽" := "スタイリスト選定",
    "데일리 착용" := "デイリー着用"]

  /** `STYLE_TAG_JA`. */
  const StyleTagJa: map<string, string> := map[
    "페미닌" := "フェミニン", "트렌디" := "トレンディ", "오피스룩" := "オフィスルック", "클래식" := "クラシック",
    "캐주얼" := "カジュアル", "미니멀" := "ミニマル", "베이직" := "ベーシック", "젠더리스" := "ジェンダーレス",
    "모던" := "モダン", "데일리" := "デイリー", "아방가르드" := "アバンギャルド", "아티스틱" := "アーティスティック",
    "스트릿" := "ストリート", "오버핏" := "オーバーフィット", "하이엔드" := "ハイエンド", "럭셔리" := "ラグジュアリー",
    "테일러드" := "テーラード", "빈티지" := "ヴィンテージ", "레트로" := "レトロ", "스포티" := "スポーティ",
    "기능성" := "機能性", "프렌치" := "フレンチ", "로맨틱" := "ロマンティック", "플로럴" := "フローラル",
    "하이틴" := "ハイティーン", "가성비" := "コスパ", "Y2K" := "Y2K", "컬러풀" := "カラフル", "놈코어" := "ノームコア"]

  /** `table[s] ?? s`. */
  function Label(table: map<string, string>, s: string): string {
    if s in table then table[s] else s
  }

  /** A table whose labels are never keys, except for labels that map to themselves. */
  predicate Settled(table: map<string, string>) {
    forall k :: k in table ==> table[k] !in table || table[table[k]] == table[k]
  }

  /** Looking a label up in a settled table changes nothing more. */
  lemma LabelIdempotent(table: map<string, string>, s: string)
    requires Settled(table)
    ensures Label(table, Label(table, s)) == Label(table, s)
  {
  }

  /** `translateIdolRef(ref, lang)`. */
  function TranslateIdolRef(r: IdolRef, lang: string): (t: IdolRef)
    ensures lang == "ko" ==> t == r
    ensures t.confirmed == r.confirmed
    ensures lang != "ko" && r.idol in IdolJa ==> t.idol == IdolJa[r.idol]
    ensures lang != "ko" && r.idol !in IdolJa ==> t.idol == r.idol
    ensures lang != "ko" && r.occasion in OccasionJa ==> t.occasion == OccasionJa[r.occasion]
    ensures lang != "ko" && r.occasion !in OccasionJa ==> t.occasion == r.occasion
  {
    if lang == "ko" then r
    else r.(idol := Label(IdolJa, r.idol), occasion := Label(OccasionJa, r.occasion))
  }

  lemma IdolJaSettled()
    ensures Settled(IdolJa)
  {
  }

  lemma OccasionJaSettled()
    ensures Settled(OccasionJa)
  {
  }

  /** Translating an already translated reference changes nothing. */
  lemma TranslateIdempotent(r: IdolRef, lang: string)
    ensures TranslateIdolRef(TranslateIdolRef(r, lang), lang) == TranslateIdolRef(r, lang)
  {
    IdolJaSettled();
    OccasionJaSettled();
    LabelIdempotent(IdolJa, r.idol);
    LabelIdempotent(OccasionJa, r.occasion);
  }

  // ── Form toggles ──────────────────────────────────────────────────────

  /** `toggleMulti`: a selected id is removed (every occurrence), another one appended. */
  function ToggleMulti(list: seq<string>, id: string): (r: seq<string>)
    ensures id in r <==> id !in list
    ensures forall x :: x != id ==> (x in r <==> x in list)
    ensures id !in list ==> r == list + [id]
  {
    if id in list then Filter(list, (x: string) => x != id) else list + [id]
  }

  /** Filtering keeps a sequence all of whose elements pass. */
  lemma {:induction false} FilterAllPass<T>(s: seq<T>, p: T -> bool)
    requires forall i :: 0 <= i < |s| ==> p(s[i])
    ensures Filter(s, p) == s
  {
    if |s| > 0 {
      var init := s[..|s| - 1];
      var x := s[|s| - 1];
      assert forall i :: 0 <= i < |init| ==> p(init[i]);
      FilterAllPass(init, p);
      assert p(x);
      assert Filter(s, p) == Filter(init, p) + [x];
      assert s == init + [x];
    }
  }

  /** Toggling an unselected id twice restores the selection. */
  lemma ToggleMultiTwice(list: seq<string>, id: string)
    requires id !in list
    ensures ToggleMulti(ToggleMulti(list, id), id) == list
  {
    var l := list + [id];
    assert l[..|l| - 1] == list;
    FilterAllPass(list, (x: string) => x != id);
  }

  /** A toggle keeps a repeat-free selection repeat-free. */
  lemma ToggleMultiNoDup(list: seq<string>, id: string)
    requires NoDup(list)
    ensures NoDup(ToggleMulti(list, id))
  {
    if id !in list {
      assert NoDup([id]);
      NoDupAppend(list, [id]);
    } else {
      var r := Filter(list, (x: string) => x != id);
      SubseqNoDup(r, list);
    }
  }

  /** A subsequence of a repeat-free sequence is repeat-free. */
  lemma {:induction false} SubseqNoDup<T>(a: seq<T>, b: seq<T>)
    requires Subseq(a, b) && NoDup(b)
    ensures NoDup(a)
    decreases |b|
  {
    if |a| > 0 {
      var a' := a[..|a| - 1];
      var b' := b[..|b| - 1];
      assert NoDup(b');
      if a[|a| - 1] == b[|b| - 1] {
        SubseqNoDup(a', b');
        SubseqMembers(a', b');
        assert b[|b| - 1] !in b';
        assert a == a' + [a[|a| - 1]];
        SnocNoDup(a', a[|a| - 1]);
      } else {
        SubseqNoDup(a, b');
      }
    }
  }

  lemma SnocNoDup<T>(a: seq<T>, x: T)
    requires NoDup(a) && x !in a
    ensures NoDup(a + [x])
  {
    forall i, j | 0 <= i < j < |a + [x]| ensures (a + [x])[i] != (a + [x])[j] {
      if j == |a| {
        assert (a + [x])[i] == a[i];
      }
    }
  }

  /** The single-select toggle: the selected id clears, any other id is selected. */
  function ToggleSingle(cur: Option<string>, id: string): (r: Option<string>)
    ensures r == Some(id) <==> cur != Some(id)
    ensures r.None? <==> cur == Some(id)
  {
    if cur == Some(id) then None else Some(id)
  }

  /** Toggling twice restores the selection exactly when it was empty or the same id. */
  lemma ToggleSingleTwice(cur: Option<string>, id: string)
    ensures ToggleSingle(ToggleSingle(cur, id), id) == cur <==> cur.None? || cur == Some(id)
  {
  }

  // ── Cart ──────────────────────────────────────────────────────────────

  /** The cart and the product open in the detail view. */
  datatype CartState = CartState(cart: seq<Item>, selectedProduct: Option<Item>)

  /** `addCart(product)`: appends the product and closes the detail view. */
  function AddCart(s: CartState, p: Item): (t: CartState)
    ensures t.cart == s.cart + [p] && t.selectedProduct.None?
  {
    CartState(s.cart + [p], None)
  }

  /** `removeCart(i)`: the cart without position `i` (unchanged when there is none). */
  function RemoveCart(cart: seq<Item>, i: int): (r: seq<Item>)
    ensures 0 <= i < |cart| ==> |r| == |cart| - 1
    ensures 0 <= i < |cart| ==> forall k :: 0 <= k < |r| ==> r[k] == (if k < i then cart[k] else cart[k + 1])
    ensures !(0 <= i < |cart|) ==> r == cart
  {
    if 0 <= i < |cart| then cart[..i] + cart[i + 1..] else cart
  }

  /** Removing the last added product gives the cart back. */
  lemma AddThenRemove(s: CartState, p: Item)
    ensures RemoveCart(AddCart(s, p).cart, |s.cart|) == s.cart
  {
  }

  /** `cart.reduce((s, p) => s + (p.price_krw || 0), 0)`. */
  function CartTotal(cart: seq<Item>): int {
    if |cart| == 0 then 0 else CartTotal(cart[..|cart| - 1]) + cart[|cart| - 1].priceKrw
  }

  lemma {:induction false} CartTotalAppend(a: seq<Item>, b: seq<Item>)
    ensures CartTotal(a + b) == CartTotal(a) + CartTotal(b)
    decreases |b|
  {
    if |b| == 0 {
      assert a + b == a;
    } else {
      var init := b[..|b| - 1];
      assert (a + b)[..|a + b| - 1] == a + init;
      CartTotalAppend(a, init);
    }
  }

  /** Adding a product raises the total by its price. */
  lemma AddCartTotal(s: CartState, p: Item)
    ensures CartTotal(AddCart(s, p).cart) == CartTotal(s.cart) + p.priceKrw
  {
  }

  /** Removing position `i` lowers the total by that product's price. */
  lemma RemoveCartTotal(cart: seq<Item>, i: int)
    requires 0 <= i < |cart|
    ensures CartTotal(RemoveCart(cart, i)) == CartTotal(cart) - cart[i].priceKrw
  {
    RemoveCartSplit(cart, i);
    CartTotalSplit(cart[..i], cart[i], cart[i + 1..]);
    CartTotalAppend(cart[..i], cart[i + 1..]);
  }

  lemma RemoveCartSplit(cart: seq<Item>, i: int)
    requires 0 <= i < |cart|
    ensures cart == cart[..i] + [cart[i]] + cart[i + 1..]
    ensures RemoveCart(cart, i) == cart[..i] + cart[i + 1..]
  {
    assert cart == cart[..i] + [cart[i]] + cart[i + 1..];
  }

  lemma CartTotalSplit(l: seq<Item>, x: Item, r: seq<Item>)
    ensures CartTotal(l + [x] + r) == CartTotal(l) + x.priceKrw + CartTotal(r)
  {
    CartTotalAppend(l + [x], r);
    CartTotalSnoc(l, x);
  }

  lemma CartTotalSnoc(l: seq<Item>, x: Item)
    ensures CartTotal(l + [x]) == CartTotal(l) + x.priceKrw
  {
    assert (l + [x])[..|l|] == l;
  }

  // ── Brand selection ───────────────────────────────────────────────────

  /** The crawl route's reply as the page reads it: the request failed, the
      reply has no `results`, or the results by key. */
  datatype CrawlReply = Threw | NoResults | Results(byKey: map<string, Option<seq<Item>>>)

  datatype Selection = Selection(selected: Option<Brand>, results: seq<Brand>, crawled: bool)

  /** `selectedBrand?.id`: `undefined` (`None`) when nothing is selected. */
  function SelectedId(selected: Option<Brand>): Option<string> {
    if selected.Some? then selected.value.id else None
  }

  /** `results.find(b => b.id === id)?.products?.length > 0`. */
  predicate HasProducts(results: seq<Brand>, id: Option<string>) {
    exists k :: 0 <= k < |results| && results[k].id == id
      && (forall j :: 0 <= j < k ==> results[j].id != id)
      && results[k].products.Some? && |results[k].products.value| > 0
  }

  /** `data.results?.[brand.id] ?? []`. */
  function CrawledProducts(reply: CrawlReply, id: Option<string>): seq<Item>
    requires !reply.Threw?
  {
    if reply.Results? && JsKey(id) in reply.byKey && reply.byKey[JsKey(id)].Some?
    then reply.byKey[JsKey(id)].value else []
  }

  /** Sets `products` on every brand with the given id. */
  function SetProducts(results: seq<Brand>, id: Option<string>, ps: seq<Item>): (r: seq<Brand>)
    ensures |r| == |results|
    ensures forall k :: 0 <= k < |r| ==>
      r[k] == (if results[k].id == id then results[k].(products := Some(ps)) else results[k])
  {
    seq(|results|, k requires 0 <= k < |results| =>
      if results[k].id == id then results[k].(products := Some(ps)) else results[k])
  }

  /** `handleSelectBrand(brand)`: selecting the selected brand clears the
      selection; otherwise the brand is selected and, unless the listed brand
      with its id already has products, crawled, the reply's products
      replacing those of every listed brand with that id. */
  function SelectBrand(selected: Option<Brand>, results: seq<Brand>, brand: Brand, reply: CrawlReply): (s: Selection)
    ensures SelectedId(selected) == brand.id ==> s == Selection(None, results, false)
    ensures SelectedId(selected) != brand.id ==> s.selected == Some(brand)
    ensures s.crawled <==> SelectedId(selected) != brand.id && !HasProducts(results, brand.id)
    ensures !s.crawled || reply.Threw? ==> s.results == results
  {
    if SelectedId(selected) == brand.id then Selection(None, results, false)
    else if HasProducts(results, brand.id) then Selection(Some(brand), results, false)
    else if reply.Threw? then Selection(Some(brand), results, true)
    else Selection(Some(brand), SetProducts(results, brand.id, CrawledProducts(reply, brand.id)), true)
  }

  /** A crawl changes only the `products` of the brands with the selected id. */
  lemma SelectBrandTouchesOnlyMatching(selected: Option<Brand>, results: seq<Brand>, brand: Brand, reply: CrawlReply)
    ensures var s := SelectBrand(selected, results, brand, reply);
      |s.results| == |results|
      && forall k :: 0 <= k < |results| ==>
           s.results[k].(products := results[k].products) == results[k]
           && (results[k].id != brand.id ==> s.results[k] == results[k])
  {
  }

  /** Once a crawl has brought products for a listed brand, selecting that
      brand again from an empty selection does not crawl. */
  lemma SecondSelectSkipsCrawl(results: seq<Brand>, brand: Brand, reply: CrawlReply, again: CrawlReply)
    requires brand.id.Some? && !reply.Threw?
    requires exists k :: 0 <= k < |results| && results[k].id == brand.id
    requires |CrawledProducts(reply, brand.id)| > 0
    requires !HasProducts(results, brand.id)
    ensures var s := SelectBrand(None, results, brand, reply);
      s.crawled && SelectBrand(None, s.results, brand, again) == Selection(Some(brand), s.results, false)
  {
    var s := SelectBrand(None, results, brand, reply);
    var k :| 0 <= k < |results| && results[k].id == brand.id;
    var m := FirstWithId(results, brand.id, k);
    assert s.results[m].id == brand.id;
    assert HasProducts(s.results, brand.id);
  }

  /** The first position carrying `id`, given one at `k`. */
  function FirstWithId(results: seq<Brand>, id: Option<string>, k: nat): (m: nat)
    requires k < |results| && results[k].id == id
    ensures m <= k && results[m].id == id
    ensures forall j :: 0 <= j < m ==> results[j].id != id
    decreases k
  {
    if exists j :: 0 <= j < k && results[j].id == id then
      var j :| 0 <= j < k && results[j].id == id;
      FirstWithId(results, id, j)
    else k
  }

  // ── Derived views ─────────────────────────────────────────────────────

  /** The card's brand name: in Japanese the first of `name_ja`, `name_en`,
      `name_ko` that is present, otherwise `name_ko`. */
  function DisplayName(b: Brand, lang: string): (n: Option<string>)
    ensures lang != "ja" ==> n == b.nameKo
    ensures lang == "ja" ==> (n.None? <==> b.nameJa.None? && b.nameEn.None? && b.nameKo.None?)
    ensures lang == "ja" && n.Some? ==> n == b.nameJa || n == b.nameEn || n == b.nameKo
  {
    if lang == "ja" then
      (if b.nameJa.Some? then b.nameJa else if b.nameEn.Some? then b.nameEn else b.nameKo)
    else b.nameKo
  }

  /** In Japanese the display name is the first present name of the list [ja, en, ko]. */
  lemma DisplayNameFirstPresent(b: Brand)
    ensures DisplayName(b, "ja") == First([b.nameJa, b.nameEn, b.nameKo], (o: Option<string>) => o)
  {
    var s := [b.nameJa, b.nameEn, b.nameKo];
    var f := (o: Option<string>) => o;
    assert s == [b.nameJa] + [b.nameEn, b.nameKo];
    FirstAppend([b.nameJa], [b.nameEn, b.nameKo], f);
    assert [b.nameEn, b.nameKo] == [b.nameEn] + [b.nameKo];
    FirstAppend([b.nameEn], [b.nameKo], f);
    FirstOne(b.nameJa, f);
    FirstOne(b.nameEn, f);
    FirstOne(b.nameKo, f);
  }

  lemma FirstOne<T, U>(x: T, f: T -> Option<U>)
    ensures First([x], f) == f(x)
  {
    assert f(x).Some? ==> FirstIndex([x], f) == 0;
  }

  /** The card's tags: at most the first three, labelled in Japanese when mapped. */
  function CardTags(b: Brand, lang: string): (r: Option<seq<string>>)
    ensures r.None? <==> b.styleTags.None?
    ensures r.Some? ==> |r.value| == |Take(b.styleTags.value, 3)| <= 3
    ensures r.Some? && lang != "ja" ==> r.value == Take(b.styleTags.value, 3)
    ensures r.Some? && lang == "ja" ==> forall k :: 0 <= k < |r.value| ==> r.value[k] == Label(StyleTagJa, b.styleTags.value[k])
  {
    match b.styleTags
    case None => None
    case Some(tags) =>
      var first := Take(tags, 3);
      Some(seq(|first|, k requires 0 <= k < |first| => if lang == "ja" then Label(StyleTagJa, first[k]) else first[k]))
  }

  /** The Japanese tags label the same tags as the Korean ones, position by position. */
  lemma CardTagsAgree(b: Brand)
    requires b.styleTags.Some?
    ensures |CardTags(b, "ja").value| == |CardTags(b, "ko").value|
    ensures forall k :: 0 <= k < |CardTags(b, "ko").value| ==>
      CardTags(b, "ja").value[k] == Label(StyleTagJa, CardTags(b, "ko").value[k])
  {
  }

  /** A truthy gallery entry. */
  predicate Shown(s: Option<string>) {
    s.Some? && s.value != ""
  }

  /** The product image followed by the detail's extra images, falsy entries dropped. */
  function Gallery(p: Item, extra: Option<seq<string>>): (r: seq<Option<string>>)
    ensures forall k :: 0 <= k < |r| ==> Shown(r[k])
  {
    Filter([p.imageUrl] + Lift(extra.GetOr([])), Shown)
  }

  /** The gallery keeps the page order, starts with the product image when
      it has one, and shows every non-empty extra image. */
  lemma GalleryContents(p: Item, extra: Option<seq<string>>)
    ensures Subseq(Gallery(p, extra), [p.imageUrl] + Lift(extra.GetOr([])))
    ensures Shown(p.imageUrl) ==> |Gallery(p, extra)| > 0 && Gallery(p, extra)[0] == p.imageUrl
    ensures forall k :: 0 <= k < |extra.GetOr([])| && extra.value[k] != "" ==> Some(extra.value[k]) in Gallery(p, extra)
  {
    var all := [p.imageUrl] + Lift(extra.GetOr([]));
    if Shown(p.imageUrl) {
      FilterHead(all, Shown);
    }
    GalleryExtras(p, extra);
  }

  lemma GalleryExtras(p: Item, extra: Option<seq<string>>)
    ensures forall k :: 0 <= k < |extra.GetOr([])| && extra.value[k] != "" ==> Some(extra.value[k]) in Gallery(p, extra)
  {
    var all := [p.imageUrl] + Lift(extra.GetOr([]));
    forall k | 0 <= k < |extra.GetOr([])| && extra.value[k] != ""
      ensures Some(extra.value[k]) in Gallery(p, extra)
    {
      assert all[k + 1] == Some(extra.value[k]);
      assert Some(extra.value[k]) in all;
    }
  }

  /** The extra images as possibly missing entries. */
  function Lift(xs: seq<string>): (r: seq<Option<string>>)
    ensures |r| == |xs| && forall k :: 0 <= k < |xs| ==> r[k] == Some(xs[k])
  {
    seq(|xs|, k requires 0 <= k < |xs| => Some(xs[k]))
  }

  /** A passing first element stays first. */
  lemma {:induction false} FilterHead<T>(s: seq<T>, p: T -> bool)
    requires |s| > 0 && p(s[0])
    ensures |Filter(s, p)| > 0 && Filter(s, p)[0] == s[0]
    decreases |s|
  {
    var init := s[..|s| - 1];
    var x := s[|s| - 1];
    assert Filter(s, p) == Filter(init, p) + (if p(x) then [x] else []);
    if |s| > 1 {
      assert init[0] == s[0];
      FilterHead(init, p);
    } else {
      assert init == [];
    }
  }
}

=== FILE: fashion_terms.dfy ===
/** The client's fashion vocabulary: the style, fit, colour, category and
    budget tables with their Korean, Japanese and English labels, the label
    lookup `getTerm`, and the agreement of these tables with the scorers'
    tables (`CAT_MAP`, `STYLE_TAG_MAP`, `BUDGET_MAP` and the backend's
    `BUDGET_RANGE`). */
module FashionTerms {
  import opened Wrappers
  import opened Seqs
  import JsScore
  import PyScore

  datatype Style = Style(id: string, ko: string, ja: string, jaDesc: string, en: string, tags: seq<string>)
  datatype Fit = Fit(id: string, ko: string, ja: string, en: string)
  datatype Color = Color(id: string, ko: string, ja: string, hex: string)
  datatype Category = Category(id: string, ko: string, ja: string, sub: seq<string>)
  /** A budget band; `krw_min`/`krw_max` may be absent. */
  datatype Budget = Budget(id: string, ko: string, ja: string, krwMin: Option<int>, krwMax: Option<int>)

  const Styles: seq<Style> := [
    Style("kkuankku", "꾸안꾸", "手抜き風オシャレ", "頑張ってないように見えて実はオシャレ", "Effortless chic", ["미니멀", "캐주얼", "내추럴"]),
    Style("kkukkukku", "꾸꾸꾸", "フル着飾りスタイル", "とことん着飾ったスタイル", "Fully dressed up", ["포멀", "화려", "레이어드"]),
    Style("minimal", "미니멀", "ミニマル", "シンプルで洗練されたスタイル", "Minimal", ["베이직", "모노톤", "클린"]),
    Style("street", "스트릿", "ストリート", "ストリートカルチャーに影響されたスタイル", "Street", ["오버핏", "그래픽", "스니커즈"]),
    Style("y2k", "Y2K", "Y2K", "2000年代初頭にインスパイアされたスタイル", "Y2K", ["로우라이즈", "크롭", "메탈릭"]),
    Style("oldmoney", "올드머니", "オールドマネー", "上品でクラシックな富裕層スタイル", "Old money", ["클래식", "테일러드", "럭셔리"]),
    Style("highteen", "하이틴룩", "ハイティーンルック", "青春感あふれる学生スタイル", "High teen look", ["청순", "프레피", "캐주얼"]),
    Style("normcore", "놈코어", "ノームコア", "意図的に普通を目指したスタイル", "Normcore", ["베이직", "심플", "무지"]),
    Style("gorpcore", "고프코어", "ゴープコア", "アウトドアテイストの都会的スタイル", "Gorpcore", ["아웃도어", "기능성", "레이어드"]),
    Style("preppy", "프레피", "プレッピー", "アイビーリーグ風の上品カジュアル", "Preppy", ["체크", "니트", "로퍼"]),
    Style("amekaji", "아메카지", "アメカジ", "アメリカンカジュアルスタイル", "American casual", ["데님", "체크셔츠", "워크웨어"]),
    Style("feminin", "페미닌", "フェミニン", "女性らしい優雅なスタイル", "Feminine", ["플로럴", "레이스", "파스텔"]),
    Style("chungchung", "청청패션", "デニムオンデニム", "デニム×デニムのコーデ", "Denim on denim", ["데님재킷", "데님팬츠", "캐주얼"]),
    Style("layered", "레이어드", "レイヤードスタイル", "重ね着テクニックを駆使したスタイル", "Layered", ["레이어드", "믹스매치", "볼륨감"]),
    Style("genderless", "젠더리스", "ジェンダーレス", "性別を超えたスタイル", "Genderless", ["오버핏", "유니섹스", "모던"]),
    Style("cottagecore", "코티지코어", "コテージコア", "田舎の自然を感じるロマンティックスタイル", "Cottagecore", ["플로럴", "리넨", "내추럴"]),
    Style("darkacademia", "다크아카데미아", "ダークアカデミア", "知的でダークなアカデミックスタイル", "Dark academia", ["트위드", "체크", "다크컬러"]),
    Style("dopamine", "도파민 패션", "ドーパミンファッション", "鮮やかな色でテンションを上げるスタイル", "Dopamine dressing", ["비비드", "컬러풀", "팝아트"])
  ]

  const Fits: seq<Fit> := [
    Fit("overfit", "오버핏", "オーバーフィット", "Oversized"),
    Fit("slimfit", "슬림핏", "スリムフィット", "Slim fit"),
    Fit("croptop", "크롭", "クロップ", "Crop"),
    Fit("wideleg", "와이드", "ワイドレッグ", "Wide leg"),
    Fit("flare", "플레어", "フレア", "Flare"),
    Fit("baggy", "배기", "バギー", "Baggy"),
    Fit("straight", "스트레이트", "ストレート", "Straight")
  ]

  const Colors: seq<Color> := [
    Color("black", "블랙", "ブラック", "#0a0a0a"),
    Color("white", "화이트", "ホワイト", "#f8f8f8"),
    Color("beige", "베이지", "ベージュ", "#d4c5a9"),
    Color("navy", "네이비", "ネイビー", "#1a2744"),
    Color("khaki", "카키", "カーキ", "#7a7a52"),
    Color("gray", "그레이", "グレー", "#888888"),
    Color("brown", "브라운", "ブラウン", "#6b4c2a"),
    Color("cream", "크림", "クリーム", "#fffbe6"),
    Color("camel", "카멜", "キャメル", "#c19a6b"),
    Color("lavender", "라벤더", "ラベンダー", "#c4b5e8"),
    Color("mint", "민트", "ミント", "#b2e4d4"),
    Color("pink", "핑크", "ピンク", "#f4a7b9"),
    Color("red", "레드", "レッド", "#cc2936"),
    Color("olive", "올리브", "オリーブ", "#6b7c2a"),
    Color("ivory", "아이보리", "アイボリー", "#fffff0")
  ]

  const Categories: seq<Category> := [
    Category("outer", "아우터", "アウター", ["코트", "재킷", "패딩", "무스탕", "블레이저"]),
    Category("top", "상의", "トップス", ["니트", "맨투맨", "후드", "셔츠", "블라우스", "크롭탑"]),
    Category("bottom", "하의", "ボトムス", ["와이드팬츠", "슬랙스", "데님", "스커트", "숏팬츠"]),
    Category("dress", "원피스", "ワンピース", ["미니", "미디", "맥시"]),
    Category("set", "세트업", "セットアップ", ["자켓세트", "트레이닝세트"])
  ]

  const Budgets: seq<Budget> := [
    Budget("under5", "~5만원", "〜4,000円", None, Some(50000)),
    Budget("5to15", "5~15만원", "4,000〜11,000円", Some(50000), Some(150000)),
    Budget("15to30", "15~30만원", "11,000〜22,000円", Some(150000), Some(300000)),
    Budget("over30", "30만원+", "22,000円〜", Some(300000), None)
  ]

  /** A property value of a term object: a label, a list of tags, or a number. */
  datatype Value = Str(s: string) | Strs(items: seq<string>) | Num(n: int)

  /** A term object as `getTerm` sees it: property name to value, `None` for `null`. */
  type Term = map<string, Option<Value>>

  /** `obj[key]`, with a missing property and `null` both `None`. */
  function Prop(term: Term, key: string): Option<Value> {
    if key in term then term[key] else None
  }

  /** `getTerm(term, lang)`: the property named `lang`, falling back to the Korean one. */
  function GetTerm(term: Term, lang: string): (r: Option<Value>)
    ensures Prop(term, lang).Some? ==> r == Prop(term, lang)
    ensures Prop(term, lang).None? ==> r == Prop(term, "ko")
  {
    match Prop(term, lang)
    case Some(v) => Some(v)
    case None => Prop(term, "ko")
  }

  /** `getTerm(term)`: the default language is Korean. */
  function GetTermDefault(term: Term): (r: Option<Value>)
    ensures r == Prop(term, "ko")
  {
    GetTerm(term, "ko")
  }

  /** A style entry as the object `getTerm` receives. */
  function StyleTerm(s: Style): Term {
    map["id" := Some(Str(s.id)), "ko" := Some(Str(s.ko)), "ja" := Some(Str(s.ja)),
        "ja_desc" := Some(Str(s.jaDesc)), "en" := Some(Str(s.en)), "tags" := Some(Strs(s.tags))]
  }

  /** A budget entry as the object `getTerm` receives; an absent bound is no property. */
  function BudgetTerm(b: Budget): Term {
    var labels := map["id" := Some(Str(b.id)), "ko" := Some(Str(b.ko)), "ja" := Some(Str(b.ja))];
    var withMin := if b.krwMin.Some? then labels["krw_min" := Some(Num(b.krwMin.value))] else labels;
    if b.krwMax.Some? then withMin["krw_max" := Some(Num(b.krwMax.value))] else withMin
  }

  /** Every style is labelled in each of its languages; its `tags` key gives
      the tag list, not a label; any other key falls back to the Korean label.
      Budgets have no English label, so `en` falls back to Korean. */
  lemma GetTermLabels(s: Style, b: Budget, lang: string)
    ensures GetTerm(StyleTerm(s), "ja") == Some(Str(s.ja)) && GetTerm(StyleTerm(s), "en") == Some(Str(s.en))
    ensures GetTermDefault(StyleTerm(s)) == Some(Str(s.ko))
    ensures GetTerm(StyleTerm(s), "tags") == Some(Strs(s.tags))
    ensures lang !in {"id", "ko", "ja", "ja_desc", "en", "tags"} ==> GetTerm(StyleTerm(s), lang) == Some(Str(s.ko))
    ensures GetTerm(BudgetTerm(b), "en") == Some(Str(b.ko))
  {
  }

  function StyleIds(): (ids: seq<string>)
    ensures |ids| == |Styles| && forall i :: 0 <= i < |Styles| ==> ids[i] == Styles[i].id
  {
    seq(|Styles|, i requires 0 <= i < |Styles| => Styles[i].id)
  }

  function FitIds(): (ids: seq<string>)
    ensures |ids| == |Fits| && forall i :: 0 <= i < |Fits| ==> ids[i] == Fits[i].id
  {
    seq(|Fits|, i requires 0 <= i < |Fits| => Fits[i].id)
  }

  function ColorIds(): (ids: seq<string>)
    ensures |ids| == |Colors| && forall i :: 0 <= i < |Colors| ==> ids[i] == Colors[i].id
  {
    seq(|Colors|, i requires 0 <= i < |Colors| => Colors[i].id)
  }

  function CategoryIds(): (ids: seq<string>)
    ensures |ids| == |Categories| && forall i :: 0 <= i < |Categories| ==> ids[i] == Categories[i].id
  {
    seq(|Categories|, i requires 0 <= i < |Categories| => Categories[i].id)
  }

  function BudgetIds(): (ids: seq<string>)
    ensures |ids| == |Budgets| && forall i :: 0 <= i < |Budgets| ==> ids[i] == Budgets[i].id
  {
    seq(|Budgets|, i requires 0 <= i < |Budgets| => Budgets[i].id)
  }

  /** The style ids, split in two halves so that uniqueness is checked piecewise. */
  function StyleIdsFront(): seq<string> {
    ["kkuankku", "kkukkukku", "minimal", "street", "y2k", "oldmoney", "highteen", "normcore", "gorpcore"]
  }

  function StyleIdsBack(): seq<string> {
    ["preppy", "amekaji", "feminin", "chungchung", "layered", "genderless", "cottagecore", "darkacademia", "dopamine"]
  }

  lemma StyleIdsHalves()
    ensures NoDup(StyleIdsFront()) && NoDup(StyleIdsBack())
  {
  }

  lemma StyleIdsHalvesDisjoint()
    ensures Disjoint(StyleIdsFront(), StyleIdsBack())
  {
  }

  /** Ids are unique within each table. */
  lemma StyleIdsUnique()
    ensures NoDup(StyleIds())
  {
    assert StyleIds() == StyleIdsFront() + StyleIdsBack();
    StyleIdsHalves();
    StyleIdsHalvesDisjoint();
    NoDupAppend(StyleIdsFront(), StyleIdsBack());
  }

  lemma FitIdsUnique()
    ensures NoDup(FitIds())
  {
    assert FitIds() == ["overfit", "slimfit", "croptop", "wideleg", "flare", "baggy", "straight"];
  }

  function ColorIdsFront(): seq<string> {
    ["black", "white", "beige", "navy", "khaki", "gray", "brown", "cream"]
  }

  function ColorIdsBack(): seq<string> {
    ["camel", "lavender", "mint", "pink", "red", "olive", "ivory"]
  }

  lemma ColorIdsHalves()
    ensures NoDup(ColorIdsFront()) && NoDup(ColorIdsBack()) && Disjoint(ColorIdsFront(), ColorIdsBack())
  {
  }

  lemma ColorIdsUnique()
    ensures NoDup(ColorIds())
  {
    assert ColorIds() == ColorIdsFront() + ColorIdsBack();
    ColorIdsHalves();
    NoDupAppend(ColorIdsFront(), ColorIdsBack());
  }

  lemma CategoryAndBudgetIdsUnique()
    ensures NoDup(CategoryIds()) && NoDup(BudgetIds())
  {
    assert CategoryIds() == ["outer", "top", "bottom", "dress", "set"];
    assert BudgetIds() == ["under5", "5to15", "15to30", "over30"];
  }

  /** Every style the page offers has related tags in the client scorer. */
  lemma StylesAreScored()
    ensures forall i :: 0 <= i < |Styles| ==> JsScore.StyleTagMap(Styles[i].id).Some?
  {
  }

  /** Every category the page offers maps to itself in the client scorer, and
      the scorer knows no other category. */
  lemma CategoriesMapToThemselves(id: string)
    ensures forall i :: 0 <= i < |Categories| ==> JsScore.CatMap(Categories[i].id) == Some([Categories[i].id])
    ensures JsScore.CatMap(id).Some? ==> id in CategoryIds()
  {
    assert CategoryIds() == ["outer", "top", "bottom", "dress", "set"];
  }

  /** The budget table is `BUDGET_MAP`: the same ids with the same bounds, and no other ids. */
  lemma BudgetsMatchScorer(id: string)
    ensures forall i :: 0 <= i < |Budgets| ==>
      JsScore.BudgetMap(Budgets[i].id) == Some(JsScore.Band(Budgets[i].krwMin, Budgets[i].krwMax))
    ensures JsScore.BudgetMap(id).Some? ==> id in BudgetIds()
  {
    assert BudgetIds() == ["under5", "5to15", "15to30", "over30"];
  }

  /** The bands are contiguous: open below, each upper bound the next lower
      bound, open above. */
  lemma BudgetsContiguous()
    ensures Budgets[0].krwMin.None? && Budgets[|Budgets| - 1].krwMax.None?
    ensures forall i :: 0 <= i < |Budgets| - 1 ==>
      Budgets[i].krwMax.Some? && Budgets[i].krwMax == Budgets[i + 1].krwMin
  {
  }

  /** The Korean budget labels are exactly the backend's `BUDGET_RANGE` keys,
      with the same bounds; the missing ones are 0 below and 9,999,999 above. */
  lemma BudgetLabelsMatchBackend(key: string)
    ensures forall i :: 0 <= i < |Budgets| ==>
      PyScore.BudgetRange(Budgets[i].ko) == Some((Budgets[i].krwMin.GetOr(0), Budgets[i].krwMax.GetOr(9999999)))
    ensures PyScore.BudgetRange(key).Some? ==> exists i :: 0 <= i < |Budgets| && Budgets[i].ko == key
  {
    if PyScore.BudgetRange(key).Some? {
      if key == "~5만원" { assert Budgets[0].ko == key; }
      else if key == "5~15만원" { assert Budgets[1].ko == key; }
      else if key == "15~30만원" { assert Budgets[2].ko == key; }
      else { assert Budgets[3].ko == key; }
    }
  }

  /** For a brand whose price range lies within `[0, 9999999]`, the client's
      band test of a budget and the backend's overlap test of the same budget
      (under its Korean label) agree. */
  lemma BudgetTestsAgree(i: nat, lo: int, hi: int)
    requires i < |Budgets|
    requires 0 <= lo <= 9999999 && 0 <= hi <= 9999999
    ensures JsScore.BandOk(JsScore.BudgetMap(Budgets[i].id).value, lo, hi)
      <==> (lo <= PyScore.BudgetRange(Budgets[i].ko).value.1 && hi >= PyScore.BudgetRange(Budgets[i].ko).value.0)
  {
    BudgetsMatchScorer(Budgets[i].id);
    BudgetLabelsMatchBackend(Budgets[i].ko);
  }

  /** Outside that range the two tests differ: a brand priced from 10,000,000
      meets the client's open-ended top band but not the backend's capped one. */
  lemma BudgetTestsDifferAboveCap()
    ensures JsScore.BandOk(JsScore.BudgetMap("over30").value, 10000000, 20000000)
    ensures !(10000000 <= PyScore.BudgetRange("30만원+").value.1)
  {
  }
}

=== FILE: format_price.dfy ===
/** The price formatters of the client: `formatKRW` prints a won amount
    with Korean digit grouping and the 원 sign, `formatJPY` converts to yen
    with a rate (0.11 by default), rounds up, and prints with Japanese
    digit grouping. Both locales group by thousands with commas. */
module FormatPrice {
  import opened Text
  import Exchange

  /** `Math.ceil(x)`. */
  function Ceil(x: real): (c: int)
    ensures c as real - 1.0 < x <= c as real
  {
    if x.Floor as real == x then x.Floor else x.Floor + 1
  }

  /** Three digits with leading zeros, for the groups after the first. */
  function Pad3(m: nat): (s: string)
    requires m < 1000
    ensures AllDigits(s) && |s| == 3
  {
    [DigitChar(m / 100), DigitChar(m / 10 % 10), DigitChar(m % 10)]
  }

  /** `n.toLocaleString()` for a non-negative integer: groups of three digits separated by commas. */
  function Grouped(n: nat): (s: string)
    ensures |s| > 0 && (s[0] != '0' || n == 0) && IsDigit(s[0])
    decreases n
  {
    if n < 1000 then NatToString(n) else Grouped(n / 1000) + "," + Pad3(n % 1000)
  }

  /** An integer with its sign. */
  function Localized(n: int): (s: string)
    ensures n >= 0 ==> s == Grouped(n)
    ensures n < 0 ==> s == "-" + Grouped(-n)
  {
    if n < 0 then "-" + Grouped(-n) else Grouped(n)
  }

  function Pow10(k: nat): (p: nat)
    ensures p > 0
  {
    if k == 0 then 1 else 10 * Pow10(k - 1)
  }

  lemma {:induction false} ParseDigitsAppend(x: string, y: string)
    requires AllDigits(x) && AllDigits(y)
    ensures ParseDigits(x + y) == ParseDigits(x) * Pow10(|y|) + ParseDigits(y)
    decreases |y|
  {
    if |y| == 0 {
      assert x + y == x;
    } else {
      var y' := y[..|y| - 1];
      assert (x + y)[..|x + y| - 1] == x + y';
      ParseDigitsAppend(x, y');
      var d := DigitValue(y[|y| - 1]);
      assert ParseDigits(x + y) == ParseDigits(x + y') * 10 + d;
      assert ParseDigits(y) == ParseDigits(y') * 10 + d;
      ShiftDigit(ParseDigits(x), Pow10(|y'|), ParseDigits(y'), d);
    }
  }

  /** Appending a digit to `px` shifted by `p` and followed by `py`. */
  lemma ShiftDigit(px: int, p: int, py: int, d: int)
    ensures (px * p + py) * 10 + d == px * (10 * p) + (py * 10 + d)
  {
    assert (px * p + py) * 10 == px * p * 10 + py * 10;
  }

  lemma Pad3Value(m: nat)
    requires m < 1000
    ensures ParseDigits(Pad3(m)) == m
  {
    var s := Pad3(m);
    var a, b, c := m / 100, m / 10 % 10, m % 10;
    assert s[..1] == [DigitChar(a)] && s[..1][..0] == [];
    assert ParseDigits(s[..1]) == a;
    assert s[..2] == [DigitChar(a), DigitChar(b)] && s[..2][..1] == s[..1];
    assert ParseDigits(s[..2]) == a * 10 + b;
    assert ParseDigits(s) == (a * 10 + b) * 10 + c;
    assert m / 10 == a * 10 + b;
  }

  /** Dropping the separators and reading the digits gives the number back. */
  lemma {:induction false} GroupedValue(n: nat)
    ensures ParseDigits(DigitsOnly(Grouped(n))) == n
    decreases n
  {
    if n < 1000 {
      ParsePrinted(n);
    } else {
      var head := Grouped(n / 1000);
      GroupedValue(n / 1000);
      DigitsOnlyAppend(head + ",", Pad3(n % 1000));
      DigitsOnlyAppend(head, ",");
      assert DigitsOnly(",") == "" by {
        assert ","[..0] == "";
      }
      assert DigitsOnly(head + ",") == DigitsOnly(head);
      ParseDigitsAppend(DigitsOnly(head), Pad3(n % 1000));
      Pad3Value(n % 1000);
      assert Pow10(3) == 1000;
    }
  }

  /** `formatKRW(krw)`. */
  function FormatKrw(krw: int): (s: string)
    ensures krw >= 0 ==> s == Grouped(krw) + "원"
  {
    Localized(krw) + "원"
  }

  /** `formatJPY(krw, rate)`: the yen amount rounded up, with the yen sign. */
  function FormatJpy(krw: int, rate: real): (s: string)
    ensures var y := Ceil(krw as real * rate); y >= 0 ==> s == "¥" + Grouped(y)
  {
    "¥" + Localized(Ceil(krw as real * rate))
  }

  /** The printed yen amount is the least whole yen not below the converted amount. */
  lemma FormatJpyRoundsUp(krw: nat, rate: real)
    requires rate >= 0.0
    ensures var s := FormatJpy(krw, rate);
      |s| > 1 && s[0] == '¥' &&
      (var y := ParseDigits(DigitsOnly(s[1..]));
       y as real >= krw as real * rate && (y as real) - 1.0 < krw as real * rate)
  {
    var y := Ceil(krw as real * rate);
    assert krw as real * rate >= 0.0;
    var s := FormatJpy(krw, rate);
    assert s[1..] == Grouped(y);
    GroupedValue(y);
  }

  /** The default rate is the memo's fallback rate: 10,000 won print as ¥1,100. */
  lemma FormatJpyExample()
    ensures FormatJpy(10000, Exchange.FallbackRate) == "¥1,100"
  {
    assert Ceil(10000 as real * 0.11) == 1100;
    assert Grouped(1) == "1";
    assert Pad3(100) == "100";
  }
}

=== FILE: img_proxy.dfy ===
/** The client's `/api/img-proxy?url=` route: fetch an image from the
    shopping site's hosts with the site's referer and pass it on with a
    one-day cache header. The fetch is an oracle from the URL to its
    outcome. The route's domain test is a substring test; `Proxy` uses the
    host test the allow-list evidently means and `ProxyAsWritten` keeps the
    substring test (see the README's findings). */
module ImgProxy {
  import opened Wrappers
  import opened Text
  import Seqs
  import Cdn

  /** The outcome of the upstream fetch: it threw (network, timeout, body), or it answered. */
  datatype Fetched = Threw | Answered(ok: bool, contentType: Option<string>, body: seq<bv8>)

  datatype Answer =
    | Plain(status: int, message: string)
    | Image(contentType: string, cacheControl: string, allowOrigin: string, body: seq<bv8>)

  const AllowedDomains: seq<string> := ["msscdn.net", "musinsa.com"]

  /** The route's test: one of the domains occurs anywhere in the URL. */
  predicate SubstringAllowed(url: string) {
    exists i :: 0 <= i < |AllowedDomains| && Contains(url, AllowedDomains[i])
  }

  /** The authority of an `http` or `https` URL: what follows the scheme up
      to the first `/`, `\`, `?` or `#` (the URL standard reads a backslash
      as a slash in these two schemes). */
  function Authority(url: string): (a: Option<string>)
    ensures a.Some? ==> (StartsWith(url, "https://") && StartsWith(url[8..], a.value))
                        || (StartsWith(url, "http://") && StartsWith(url[7..], a.value))
  {
    if StartsWith(url, "https://") then Some(HostPart(url[8..]))
    else if StartsWith(url, "http://") then Some(HostPart(url[7..]))
    else None
  }

  /** The host: the authority after its last `@`, which ends the user information. */
  function Host(url: string): (h: Option<string>)
    ensures h.Some? <==> Authority(url).Some?
    ensures h.Some? ==> EndsWith(Authority(url).value, h.value) && NoAt(h.value)
    ensures h.Some? && NoAt(Authority(url).value) ==> h.value == Authority(url).value
  {
    if Authority(url).Some? then Some(AfterLastAt(Authority(url).value)) else None
  }

  function AfterLastAt(a: string): (r: string)
    ensures EndsWith(a, r) && NoAt(r)
    ensures NoAt(a) ==> r == a
    ensures r != a ==> a[|a| - |r| - 1] == '@'
  {
    if |a| == 0 || a[|a| - 1] == '@' then ""
    else AfterLastAt(a[..|a| - 1]) + [a[|a| - 1]]
  }

  lemma {:induction false} AfterLastAtOf(p: string, h: string)
    requires NoAt(h)
    ensures AfterLastAt(p + "@" + h) == h
  {
    if |h| > 0 {
      var a := p + "@" + h;
      assert a[..|a| - 1] == p + "@" + h[..|h| - 1];
      AfterLastAtOf(p, h[..|h| - 1]);
      assert h == h[..|h| - 1] + [h[|h| - 1]];
    } else {
      assert p + "@" + h == p + "@";
    }
  }

  predicate NoAt(s: string) {
    forall i :: 0 <= i < |s| ==> s[i] != '@'
  }

  predicate EndsHost(c: char) {
    c == '/' || c == '\\' || c == '?' || c == '#'
  }

  function HostPart(s: string): (h: string)
    ensures StartsWith(s, h) && forall i :: 0 <= i < |h| ==> !EndsHost(h[i])
  {
    if |s| == 0 || EndsHost(s[0]) then "" else [s[0]] + HostPart(s[1..])
  }

  lemma {:induction false} HostPartOf(h: string, t: string)
    requires forall i :: 0 <= i < |h| ==> !EndsHost(h[i])
    requires |t| > 0 && EndsHost(t[0])
    ensures HostPart(h + t) == h
  {
    if |h| > 0 {
      assert (h + t)[1..] == h[1..] + t;
      HostPartOf(h[1..], t);
    } else {
      assert h + t == t;
    }
  }

  predicate EndsWith(s: string, p: string) {
    |p| <= |s| && s[|s| - |p|..] == p
  }

  /** The URL's host is an allowed domain or one of its subdomains. */
  predicate HostAllowed(url: string) {
    Host(url).Some? && AllowedHost(Host(url).value)
  }

  predicate AllowedHost(h: string) {
    exists i :: 0 <= i < |AllowedDomains| && (h == AllowedDomains[i] || EndsWith(h, "." + AllowedDomains[i]))
  }

  /** The answer for a URL the domain test has judged. */
  function Respond(url: string, allowed: bool, fetch: string -> Fetched): (r: Answer)
    ensures url == "" ==> r == Plain(400, "url 필요")
    ensures url != "" && !allowed ==> r == Plain(403, "허용되지 않은 도메인")
    ensures r.Image? ==> url != "" && allowed && fetch(url).Answered? && fetch(url).ok && r.body == fetch(url).body
    ensures r.Image? ==> r.cacheControl == "public, max-age=86400" && r.allowOrigin == "*" && r.contentType != ""
    ensures url != "" && allowed && fetch(url).Threw? ==> r == Plain(502, "이미지 로드 실패")
    ensures url != "" && allowed && fetch(url).Answered? && !fetch(url).ok ==> r == Plain(404, "이미지 없음")
    ensures url != "" && allowed && fetch(url).Answered? && fetch(url).ok ==>
              r.Image? && r.body == fetch(url).body
              && r.contentType == (if fetch(url).contentType.Some? && fetch(url).contentType.value != ""
                                   then fetch(url).contentType.value else "image/jpeg")
  {
    if url == "" then Plain(400, "url 필요")
    else if !allowed then Plain(403, "허용되지 않은 도메인")
    else match fetch(url)
      case Threw => Plain(502, "이미지 로드 실패")
      case Answered(ok, ct, body) =>
        if !ok then Plain(404, "이미지 없음")
        else
          var t := if ct.Some? && ct.value != "" then ct.value else "image/jpeg";
          Image(t, "public, max-age=86400", "*", body)
  }

  /** The route as written: the substring test decides. */
  function ProxyAsWritten(url: Option<string>, fetch: string -> Fetched): (r: Answer)
    ensures r.Image? ==> url.Some? && SubstringAllowed(url.value)
  {
    var u := url.GetOr("");
    Respond(u, SubstringAllowed(u), fetch)
  }

  /** The route with the host test: an image is only ever fetched from an allowed host. */
  function Proxy(url: Option<string>, fetch: string -> Fetched): (r: Answer)
    ensures r.Image? ==> url.Some? && HostAllowed(url.value)
    ensures url.None? || url.value == "" ==> r == Plain(400, "url 필요")
  {
    var u := url.GetOr("");
    Respond(u, HostAllowed(u), fetch)
  }

  /** The host test only narrows the route's test: every URL it lets
      through the route lets through too, and the answers then agree. */
  lemma HostTestNarrows(url: Option<string>, fetch: string -> Fetched)
    requires url.Some? && HostAllowed(url.value)
    ensures SubstringAllowed(url.value)
    ensures Proxy(url, fetch) == ProxyAsWritten(url, fetch)
  {
    var h := Host(url.value).value;
    var i :| 0 <= i < |AllowedDomains| && (h == AllowedDomains[i] || EndsWith(h, "." + AllowedDomains[i]));
    HostContains(url.value, AllowedDomains[i]);
  }

  /** A domain the host equals or ends with occurs in the URL. */
  lemma HostContains(u: string, d: string)
    requires Host(u).Some?
    requires Host(u).value == d || EndsWith(Host(u).value, "." + d)
    ensures Contains(u, d)
  {
    var pre, post := HostSplit(u);
    PieceContains(u, pre, Host(u).value, post, d);
  }

  /** A domain a piece of a string equals or ends with occurs in the string. */
  lemma PieceContains(u: string, pre: string, h: string, post: string, d: string)
    requires u == pre + h + post
    requires h == d || EndsWith(h, "." + d)
    ensures Contains(u, d)
  {
    SuffixSplit(h, d);
    var x := h[..|h| - |d|];
    assert u == pre + (x + d) + post;
    assert u == (pre + x) + d + post;
    ContainsInfix(pre + x, d, post);
  }

  lemma SuffixSplit(h: string, d: string)
    requires h == d || EndsWith(h, "." + d)
    ensures |d| <= |h| && h == h[..|h| - |d|] + d
  {
    if h != d {
      assert h[|h| - |d|..] == ("." + d)[1..];
    }
  }

  /** The host is a piece of its URL. */
  lemma HostSplit(u: string) returns (pre: string, post: string)
    requires Host(u).Some?
    ensures u == pre + Host(u).value + post
  {
    var k := if StartsWith(u, "https://") then 8 else 7;
    pre, post := PieceOf(u, k, Authority(u).value, Host(u).value);
  }

  lemma PieceOf(u: string, k: nat, a: string, h: string) returns (pre: string, post: string)
    requires k <= |u| && StartsWith(u[k..], a) && EndsWith(a, h)
    ensures u == pre + h + post
  {
    assert u[k..][..|a|] == a;
    assert a == a[..|a| - |h|] + h;
    pre, post := u[..k] + a[..|a| - |h|], u[k + |a|..];
    assert u == u[..k] + a + post;
  }

  /** A URL naming the allowed domain only in its query passes the route's
      test though its host is elsewhere, and the route fetches it. */
  lemma QueryCarriesDomain()
    ensures var u := "https://" + "evil.example" + ("/a.jpg?" + "msscdn.net" + "");
      SubstringAllowed(u) && Host(u) == Some("evil.example") && !HostAllowed(u)
      && ProxyAsWritten(Some(u), _ => Answered(true, None, [])) == Image("image/jpeg", "public, max-age=86400", "*", [])
      && Proxy(Some(u), _ => Answered(true, None, [])) == Plain(403, "허용되지 않은 도메인")
  {
    var u := "https://" + "evil.example" + ("/a.jpg?" + "msscdn.net" + "");
    DomainInPath("evil.example", "/a.jpg?", 0, "");
    HostOfHttps("evil.example", "/a.jpg?" + "msscdn.net" + "");
    ElsewhereRefused(u, _ => Answered(true, None, []));
  }

  /** A backslash ends the host as a slash does: a domain after it lies in
      the path, so the host test refuses the URL the route's test admits. */
  lemma BackslashEndsHost()
    ensures var u := "https://" + "evil.example" + ("\\." + "msscdn.net" + "/a.jpg");
      SubstringAllowed(u) && Host(u) == Some("evil.example") && !HostAllowed(u)
      && Proxy(Some(u), _ => Answered(true, None, [])) == Plain(403, "허용되지 않은 도메인")
  {
    var u := "https://" + "evil.example" + ("\\." + "msscdn.net" + "/a.jpg");
    DomainInPath("evil.example", "\\.", 0, "/a.jpg");
    HostOfHttps("evil.example", "\\." + "msscdn.net" + "/a.jpg");
    ElsewhereRefused(u, _ => Answered(true, None, []));
  }

  /** What precedes the last `@` of the authority is user information: a
      URL naming the allowed domain there has its host elsewhere. */
  lemma UserInfoNotHost()
    ensures var u := "https://" + ("a." + "msscdn.net" + "@" + "evil.example") + "/a.jpg";
      SubstringAllowed(u) && Host(u) == Some("evil.example") && !HostAllowed(u)
      && Proxy(Some(u), _ => Answered(true, None, [])) == Plain(403, "허용되지 않은 도메인")
  {
    var u := "https://" + ("a." + "msscdn.net" + "@" + "evil.example") + "/a.jpg";
    DomainInAuthority("a.", 0, "@", "evil.example", "/a.jpg");
    HostOfUserInfo("a." + "msscdn.net", "evil.example", "/a.jpg");
    ElsewhereRefused(u, _ => Answered(true, None, []));
  }

  /** An allowed domain placed after the host passes the route's test. */
  lemma DomainInPath(h: string, a: string, i: nat, b: string)
    requires i < |AllowedDomains|
    ensures SubstringAllowed("https://" + h + (a + AllowedDomains[i] + b))
  {
    var d := AllowedDomains[i];
    assert "https://" + h + (a + d + b) == ("https://" + h + a) + d + b;
    ContainsInfix("https://" + h + a, d, b);
  }

  /** An allowed domain placed inside the authority passes the route's test. */
  lemma DomainInAuthority(a: string, i: nat, b: string, c: string, rest: string)
    requires i < |AllowedDomains|
    ensures SubstringAllowed("https://" + (a + AllowedDomains[i] + b + c) + rest)
  {
    var d := AllowedDomains[i];
    assert "https://" + (a + d + b + c) + rest == ("https://" + a) + d + (b + c + rest);
    ContainsInfix("https://" + a, d, b + c + rest);
  }

  /** A URL whose host is `evil.example` is refused by the host test, whatever the fetch would give. */
  lemma ElsewhereRefused(u: string, fetch: string -> Fetched)
    requires Host(u) == Some("evil.example")
    ensures !HostAllowed(u) && Proxy(Some(u), fetch) == Plain(403, "허용되지 않은 도메인")
  {
    ElsewhereNotAllowed();
    assert u != "";
  }

  lemma ElsewhereNotAllowed()
    ensures !AllowedHost("evil.example")
  {
    var h := "evil.example";
    assert h[0] != '.' && h[1] != '.';
    assert AllowedDomains == ["msscdn.net", "musinsa.com"];
    forall i | 0 <= i < |AllowedDomains|
      ensures h != AllowedDomains[i] && !EndsWith(h, "." + AllowedDomains[i])
    {
    }
  }

  /** The guessed CDN image URLs pass the host test. */
  lemma CdnUrlsAllowed(g: string)
    requires g != []
    ensures HostAllowed(Cdn.CdnUrl(g))
  {
    CdnUrlHost(g);
    CdnHostAllowed();
  }

  lemma CdnHostAllowed()
    ensures AllowedHost(Cdn.CdnHost)
  {
    assert AllowedDomains[0] == "msscdn.net";
    assert Cdn.CdnHost == "image" + ("." + "msscdn.net");
  }

  lemma CdnUrlHost(g: string)
    requires g != []
    ensures Host(Cdn.CdnUrl(g)) == Some(Cdn.CdnHost)
  {
    var rest := "/images/goods_img/" + Seqs.Take(g, 4) + "/" + g + "/" + g + Cdn.Suffix;
    assert Cdn.CdnUrl(g) == "https://" + Cdn.CdnHost + rest;
    var h := Cdn.CdnHost;
    assert forall i :: 0 <= i < |h| ==> !EndsHost(h[i]) && h[i] != '@';
    HostOfHttps(h, rest);
  }

  lemma HostOfHttps(h: string, rest: string)
    requires forall i :: 0 <= i < |h| ==> !EndsHost(h[i]) && h[i] != '@'
    requires |rest| > 0 && EndsHost(rest[0])
    ensures Host("https://" + h + rest) == Some(h)
  {
    var u := "https://" + h + rest;
    assert u[..8] == "https://";
    assert u[8..] == h + rest;
    HostPartOf(h, rest);
  }

  lemma HostOfUserInfo(p: string, h: string, rest: string)
    requires forall i :: 0 <= i < |p| ==> !EndsHost(p[i])
    requires forall i :: 0 <= i < |h| ==> !EndsHost(h[i]) && h[i] != '@'
    requires |rest| > 0 && EndsHost(rest[0])
    ensures Host("https://" + (p + "@" + h) + rest) == Some(h)
  {
    var a := p + "@" + h;
    var u := "https://" + a + rest;
    assert u[..8] == "https://";
    assert u[8..] == a + rest;
    HostPartOf(a, rest);
    AfterLastAtOf(p, h);
  }
}

=== FILE: js_score.dfy ===
/** The client's brand scoring (`calcMatchScore`) and ranking (`rankBrands`).
    Each selected dimension adds its weight to the maximum: categories 40,
    styles 35, budget 25; the result is the score as a rounded percentage of
    that maximum, or 50 when nothing is selected. `Math.round` of a ratio is
    computed exactly on integers. */
module JsScore {
  import opened Wrappers
  import opened Text
  import opened Seqs
  import opened Catalog
  import Ranking
  import Arith

  /** `CAT_MAP`: each known category id maps to itself. */
  function CatMap(id: string): Option<seq<string>> {
    if id == "outer" then Some(["outer"])
    else if id == "top" then Some(["top"])
    else if id == "bottom" then Some(["bottom"])
    else if id == "dress" then Some(["dress"])
    else if id == "set" then Some(["set"])
    else None
  }

  /** `STYLE_TAG_MAP`: style id to the brand tags it relates to. */
  function StyleTagMap(id: string): Option<seq<string>> {
    if id == "kkuankku" then Some(["미니멀", "캐주얼", "내추럴", "베이직"])
    else if id == "kkukkukku" then Some(["포멀", "화려", "레이어드", "트렌디"])
    else if id == "minimal" then Some(["미니멀", "베이직", "모던", "크린핏", "놈코어"])
    else if id == "street" then Some(["스트릿", "오버핏", "그래픽", "젠더리스", "Y2K"])
    else if id == "y2k" then Some(["Y2K", "크롭", "페미닌", "컬러풀", "스트릿"])
    else if id == "oldmoney" then Some(["클래식", "테일러드", "럭셔리", "하이엔드", "오피스룩"])
    else if id == "highteen" then Some(["청순", "프레피", "캐주얼", "페미닌", "하이틴"])
    else if id == "normcore" then Some(["베이직", "미니멀", "데일리", "놈코어"])
    else if id == "gorpcore" then Some(["아웃도어", "기능성", "스포티"])
    else if id == "preppy" then Some(["프레피", "체크", "클래식", "테일러드"])
    else if id == "amekaji" then Some(["아메카지", "데님", "빈티지", "레트로"])
    else if id == "feminin" then Some(["페미닌", "플로럴", "크로셰", "로맨틱"])
    else if id == "chungchung" then Some(["데님", "캐주얼", "Y2K"])
    else if id == "layered" then Some(["레이어드", "믹스매치", "트렌디"])
    else if id == "genderless" then Some(["젠더리스", "유니섹스", "오버핏"])
    else if id == "cottagecore" then Some(["플로럴", "내추럴", "로맨틱"])
    else if id == "darkacademia" then Some(["트위드", "다크", "클래식"])
    else if id == "dopamine" then Some(["컬러풀", "비비드", "트렌디"])
    else None
  }

  /** A budget band of `BUDGET_MAP`; a missing bound is `None`. */
  datatype Band = Band(min: Option<int>, max: Option<int>)

  /** `BUDGET_MAP`. */
  function BudgetMap(id: string): Option<Band> {
    if id == "under5" then Some(Band(None, Some(50000)))
    else if id == "5to15" then Some(Band(Some(50000), Some(150000)))
    else if id == "15to30" then Some(Band(Some(150000), Some(300000)))
    else if id == "over30" then Some(Band(Some(300000), None))
    else None
  }

  /** The request body fields the scorer reads. */
  datatype UserInput = UserInput(categories: Option<seq<string>>, styles: Option<seq<string>>, budget: Option<string>)

  /** `Math.round(p / q)` for `p >= 0`, `q > 0`: the integer nearest to
      `p / q`, halves rounded up. */
  function Round(p: nat, q: nat): (r: nat)
    requires q > 0
    ensures 2 * q * r <= 2 * p + q < 2 * q * r + 2 * q
  {
    (2 * p + q) / (2 * q)
  }

  /** Rounding `w * h / n` for `h <= n` stays within `[0, w]`; it is `w`
      when every one hits and 0 when none does. */
  lemma RoundScaled(w: nat, h: nat, n: nat)
    requires 0 < n && h <= n
    ensures Round(w * h, n) <= w
    ensures h == n ==> Round(w * h, n) == w
    ensures h == 0 ==> Round(w * h, n) == 0
  {
    var r := Round(w * h, n);
    Arith.MulLe(w, h, n);
    if r > w {
      Arith.MulLe(2 * n, w + 1, r);
      assert false;
    }
    if h == n && r < w {
      Arith.MulLe(2 * n, r + 1, w);
      assert false;
    }
    if h == 0 && r > 0 {
      Arith.MulLe(2 * n, 1, r);
      assert false;
    }
  }

  /** `brand.price_range_krw?.min ?? 0` and `?.max ?? 9999999`. */
  function BrandMin(b: Brand): int {
    if b.priceRange.Some? then b.priceRange.value.min.GetOr(0) else 0
  }

  function BrandMax(b: Brand): int {
    if b.priceRange.Some? then b.priceRange.value.max.GetOr(9999999) else 9999999
  }

  /** A selected category hits when one of its mapped categories is among the brand's. */
  predicate CatHit(brandCats: seq<string>, cat: string) {
    var mapped := CatMap(cat).GetOr([cat]);
    exists i :: 0 <= i < |mapped| && mapped[i] in brandCats
  }

  /** A selected style hits when a related tag and a brand tag contain one another. */
  predicate StyleHit(brandTags: seq<string>, style: string) {
    var related := StyleTagMap(style).GetOr([]);
    exists i, j :: 0 <= i < |related| && 0 <= j < |brandTags| &&
      (Contains(brandTags[j], related[i]) || Contains(related[i], brandTags[j]))
  }

  /** `(!b.min || priceMax >= b.min) && (!b.max || priceMin <= b.max)`; a zero bound counts as absent. */
  predicate BandOk(band: Band, priceMin: int, priceMax: int) {
    (band.min.None? || band.min.value == 0 || priceMax >= band.min.value)
    && (band.max.None? || band.max.value == 0 || priceMin <= band.max.value)
  }

  predicate CatSelected(u: UserInput) { u.categories.Some? && |u.categories.value| > 0 }
  predicate StyleSelected(u: UserInput) { u.styles.Some? && |u.styles.value| > 0 }
  predicate BudgetSelected(u: UserInput) { u.budget.Some? && u.budget.value != "" }

  /** The category test of one selected id against the brand. */
  function CatHitIn(b: Brand): string -> bool {
    c => CatHit(b.categories.GetOr([]), c)
  }

  /** Whether an id is among the brand's categories. */
  function ListedIn(b: Brand): string -> bool {
    c => c in b.categories.GetOr([])
  }

  /** The style test of one selected id against the brand. */
  function StyleHitIn(b: Brand): string -> bool {
    s => StyleHit(b.styleTags.GetOr([]), s)
  }

  /** Points for categories: 40 times the fraction of selected categories
      the brand lists, rounded half up. */
  function CatPoints(u: UserInput, b: Brand): (p: nat)
    ensures p <= 40
    ensures !CatSelected(u) ==> p == 0
    ensures CatSelected(u) ==>
      var n := |u.categories.value|;
      var h := Count(u.categories.value, ListedIn(b));
      2 * n * p <= 80 * h + n < 2 * n * p + 2 * n
  {
    if !CatSelected(u) then 0
    else
      var cats := u.categories.value;
      var hits := Count(cats, CatHitIn(b));
      RoundScaled(40, hits, |cats|);
      CatHitsAreListed(cats, b);
      Round(40 * hits, |cats|)
  }

  /** Counting the hits of `CAT_MAP` is counting the listed categories. */
  lemma CatHitsAreListed(cats: seq<string>, b: Brand)
    ensures Count(cats, CatHitIn(b)) == Count(cats, ListedIn(b))
  {
    forall i | 0 <= i < |cats|
      ensures CatHitIn(b)(cats[i]) == ListedIn(b)(cats[i])
    {
      CatHitIsMembership(b.categories.GetOr([]), cats[i]);
    }
    CountSame(cats, CatHitIn(b), ListedIn(b));
  }

  /** Points for styles: 35 times the fraction of selected styles that hit,
      rounded half up. */
  function StylePoints(u: UserInput, b: Brand): (p: nat)
    ensures p <= 35
    ensures !StyleSelected(u) ==> p == 0
    ensures StyleSelected(u) ==>
      var n := |u.styles.value|;
      var h := Count(u.styles.value, StyleHitIn(b));
      2 * n * p <= 70 * h + n < 2 * n * p + 2 * n
  {
    if !StyleSelected(u) then 0
    else
      var styles := u.styles.value;
      var hits := Count(styles, StyleHitIn(b));
      RoundScaled(35, hits, |styles|);
      Round(35 * hits, |styles|)
  }

  /** Points for the budget: 25 when the selected band is known and overlaps the brand's range. */
  function BudgetPoints(u: UserInput, b: Brand): (p: nat)
    ensures p == 0 || p == 25
    ensures p == 25 <==> BudgetSelected(u) && BudgetMap(u.budget.value).Some?
                         && BandOk(BudgetMap(u.budget.value).value, BrandMin(b), BrandMax(b))
  {
    if BudgetSelected(u) && BudgetMap(u.budget.value).Some?
       && BandOk(BudgetMap(u.budget.value).value, BrandMin(b), BrandMax(b))
    then 25 else 0
  }

  /** The maximum reachable score for the selection. */
  function MaxScore(u: UserInput): (m: nat)
    ensures m <= 100
    ensures m == 0 <==> !CatSelected(u) && !StyleSelected(u) && !BudgetSelected(u)
  {
    (if CatSelected(u) then 40 else 0) + (if StyleSelected(u) then 35 else 0)
    + (if BudgetSelected(u) then 25 else 0)
  }

  /** `calcMatchScore(userInput, brand)`: a percentage in `[0, 100]`, 50 when nothing is selected. */
  function CalcMatchScore(u: UserInput, b: Brand): (r: nat)
    ensures r <= 100
    ensures MaxScore(u) == 0 ==> r == 50
    ensures MaxScore(u) > 0 ==> 2 * MaxScore(u) * r <= 200 * (CatPoints(u, b) + StylePoints(u, b) + BudgetPoints(u, b)) + MaxScore(u)
                                < 2 * MaxScore(u) * r + 2 * MaxScore(u)
  {
    var m := MaxScore(u);
    if m == 0 then 50
    else
      var score := CatPoints(u, b) + StylePoints(u, b) + BudgetPoints(u, b);
      assert score <= m;
      RoundScaled(100, score, m);
      Round(100 * score, m)
  }

  /** Every category id of the table maps to itself, so a category hits
      exactly when the brand lists it, whether the id is known or not. */
  lemma CatHitIsMembership(brandCats: seq<string>, cat: string)
    ensures CatHit(brandCats, cat) <==> cat in brandCats
  {
    assert CatMap(cat).GetOr([cat]) == [cat];
    if cat in brandCats {
      assert [cat][0] in brandCats;
    }
  }

  /** A style id missing from `STYLE_TAG_MAP` never hits. */
  lemma UnknownStyleNeverHits(brandTags: seq<string>, style: string)
    requires StyleTagMap(style).None?
    ensures !StyleHit(brandTags, style)
  {
  }

  /** A selected budget id that `BUDGET_MAP` does not know raises the maximum
      but earns nothing. */
  lemma UnknownBudgetEarnsNothing(u: UserInput, b: Brand)
    requires BudgetSelected(u) && BudgetMap(u.budget.value).None?
    ensures BudgetPoints(u, b) == 0 && MaxScore(u) >= 25
  {
  }

  /** When every selected category and style hits and the band overlaps, the score is 100. */
  lemma FullMatchScores100(u: UserInput, b: Brand)
    requires MaxScore(u) > 0
    requires CatSelected(u) ==> forall i :: 0 <= i < |u.categories.value| ==> CatHit(b.categories.GetOr([]), u.categories.value[i])
    requires StyleSelected(u) ==> forall i :: 0 <= i < |u.styles.value| ==> StyleHit(b.styleTags.GetOr([]), u.styles.value[i])
    requires BudgetSelected(u) ==> BudgetPoints(u, b) == 25
    ensures CalcMatchScore(u, b) == 100
  {
    if CatSelected(u) {
      var cats := u.categories.value;
      RoundScaled(40, Count(cats, CatHitIn(b)), |cats|);
    }
    if StyleSelected(u) {
      var styles := u.styles.value;
      RoundScaled(35, Count(styles, StyleHitIn(b)), |styles|);
    }
    var m := MaxScore(u);
    assert CatPoints(u, b) + StylePoints(u, b) + BudgetPoints(u, b) == m;
    RoundScaled(100, m, m);
  }

  /** When nothing selected hits, the score is 0. */
  lemma NoMatchScores0(u: UserInput, b: Brand)
    requires MaxScore(u) > 0
    requires CatSelected(u) ==> forall i :: 0 <= i < |u.categories.value| ==> !CatHit(b.categories.GetOr([]), u.categories.value[i])
    requires StyleSelected(u) ==> forall i :: 0 <= i < |u.styles.value| ==> !StyleHit(b.styleTags.GetOr([]), u.styles.value[i])
    requires BudgetPoints(u, b) == 0
    ensures CalcMatchScore(u, b) == 0
  {
    if CatSelected(u) {
      var cats := u.categories.value;
      RoundScaled(40, Count(cats, CatHitIn(b)), |cats|);
    }
    if StyleSelected(u) {
      var styles := u.styles.value;
      RoundScaled(35, Count(styles, StyleHitIn(b)), |styles|);
    }
    RoundScaled(100, 0, MaxScore(u));
  }

  /** The ranking key: the match score plus 5 for a confirmed idol reference. */
  function RankKey(u: UserInput, b: Brand): int {
    CalcMatchScore(u, b) + (if Confirmed(b) then 5 else 0)
  }

  /** `{...brand, matchScore: calcMatchScore(userInput, brand)}`. */
  function WithScore(u: UserInput, b: Brand): Brand {
    b.(matchScore := Some(CalcMatchScore(u, b)))
  }

  function RankKeys(u: UserInput, brands: seq<Brand>): (keys: seq<int>)
    ensures |keys| == |brands|
    ensures forall i :: 0 <= i < |brands| ==> keys[i] == RankKey(u, brands[i])
  {
    seq(|brands|, i requires 0 <= i < |brands| => RankKey(u, brands[i]))
  }

  /** The brands with their scores, in input order. */
  function Scored(u: UserInput, brands: seq<Brand>): (s: seq<Brand>)
    ensures |s| == |brands|
    ensures forall i :: 0 <= i < |brands| ==> s[i] == WithScore(u, brands[i])
  {
    seq(|brands|, i requires 0 <= i < |brands| => WithScore(u, brands[i]))
  }

  /** `rankBrands(userInput, brands)`: the scored brands arranged in the
      stable order of their ranking keys. */
  function RankBrands(u: UserInput, brands: seq<Brand>): (r: seq<Brand>)
    ensures |r| == |brands|
    ensures forall k :: 0 <= k < |r| ==> r[k] == WithScore(u, brands[Ranking.Order(RankKeys(u, brands))[k]])
  {
    var p := Ranking.Order(RankKeys(u, brands));
    assert Ranking.Below(p, |brands|);
    Ranking.Arrange(Scored(u, brands), p)
  }

  /** The ranking key of a ranked brand, read from its `matchScore` field. */
  function ShownKey(b: Brand): int {
    b.matchScore.GetOr(0) + (if Confirmed(b) then 5 else 0)
  }

  /** The ranked list is ordered by non-increasing `matchScore` plus boost,
      and brands with equal keys keep their input order. */
  lemma RankBrandsOrdered(u: UserInput, brands: seq<Brand>)
    ensures forall i, j :: 0 <= i < j < |RankBrands(u, brands)| ==>
      ShownKey(RankBrands(u, brands)[i]) >= ShownKey(RankBrands(u, brands)[j])
    ensures forall i, j ::
      (0 <= i < j < |RankBrands(u, brands)| && ShownKey(RankBrands(u, brands)[i]) == ShownKey(RankBrands(u, brands)[j]))
      ==> Ranking.Order(RankKeys(u, brands))[i] < Ranking.Order(RankKeys(u, brands))[j]
  {
    var keys := RankKeys(u, brands);
    var p := Ranking.Order(keys);
    var r := RankBrands(u, brands);
    assert forall k :: 0 <= k < |r| ==> ShownKey(r[k]) == keys[p[k]];
  }

  /** The ranking is a permutation of the scored brands. */
  lemma RankBrandsPermutes(u: UserInput, brands: seq<Brand>)
    ensures multiset(RankBrands(u, brands)) == multiset(Scored(u, brands))
  {
    Ranking.OrderPermutes(Scored(u, brands), RankKeys(u, brands));
  }
}

=== FILE: product_detail.dfy ===
/** The client's `/api/product-detail?goodsNo=` route: a visit to one
    product's detail page collecting up to eight product photos, the detail
    fields of its `dl` lists and `table` rows, its name and its price. The
    browser is an oracle: the page as the route reads it, or `None` when
    launching, loading or evaluating failed. */
module ProductDetail {
  import opened Wrappers
  import opened Text
  import opened Catalog
  import opened Extract
  import opened Detail

  /** What the route reads from the page: the `src` of every msscdn image,
      the `dl` lists, the cells of every table row, and the texts of the
      name and price elements when present. */
  datatype DetailPage = DetailPage(
    imgSrcs: seq<string>,
    dls: seq<Dl>,
    rows: seq<seq<Option<string>>>,
    nameText: Option<string>,
    priceText: Option<string>)

  datatype Answer =
    | MissingGoodsNo
    | DetailOk(goodsNo: string, extraImages: seq<string>, info: Info, name: Option<string>, price: nat)
    | DetailFailed

  /** The HTTP status of an answer; the failure answer is a 200 with `success: false`. */
  function Status(a: Answer): int {
    if a.MissingGoodsNo? then 400 else 200
  }

  /** The route: 400 without a goods number, the page's findings when the visit succeeds. */
  function Get(goodsNo: Option<string>, page: Option<DetailPage>): (r: Answer)
    ensures goodsNo.None? || goodsNo.value == "" <==> r == MissingGoodsNo
    ensures r.MissingGoodsNo? <==> Status(r) == 400
    ensures r.DetailOk? ==> r.goodsNo == goodsNo.value && page.Some?
    ensures goodsNo.Some? && goodsNo.value != "" && page.None? ==> r == DetailFailed
  {
    if goodsNo.None? || goodsNo.value == "" then MissingGoodsNo
    else match page
      case None => DetailFailed
      case Some(p) =>
        DetailOk(goodsNo.value, DetailImages(p.imgSrcs), DetailInfo(p.dls, p.rows),
                 if p.nameText.Some? then Some(Trim(p.nameText.value)) else None,
                 PriceOfText(p.priceText))
  }

  /** A successful visit answers with the page's photos (the first eight
      distinct msscdn product photos of the page, in page order, or all of
      them when there are fewer) and the info its lists and rows give. */
  lemma GetFindings(goodsNo: string, p: DetailPage)
    requires goodsNo != ""
    ensures var r := Get(Some(goodsNo), Some(p));
      r.DetailOk? && |r.extraImages| <= 8 && Seqs.NoDup(r.extraImages)
      && (forall x :: x in r.extraImages ==> x in p.imgSrcs && IsProductPhoto(x))
      && r.info == DetailInfo(p.dls, p.rows)
    ensures var r := Get(Some(goodsNo), Some(p));
      var d := Seqs.Dedup(Seqs.Filter(Seqs.Filter(p.imgSrcs, IsMsscdn), IsProductPhoto));
      |r.extraImages| == (if |d| < 8 then |d| else 8) && r.extraImages == d[..|r.extraImages|]
  {
    var r := Get(Some(goodsNo), Some(p));
    assert r.extraImages == DetailImages(p.imgSrcs);
    DetailImagesSpec(p.imgSrcs);
  }

  /** The answered price is the one the crawl route's 6-level walk reads
      from a card that holds the page's price element and no image. */
  lemma GetPriceLikeCard(goodsNo: string, p: DetailPage)
    requires goodsNo != ""
    ensures Get(Some(goodsNo), Some(p)).price == Walk6([Level(None, None, p.priceText)]).0
  {
    if p.priceText.Some? {
      Walk6Nearest([Level(None, None, p.priceText)], 0);
    }
  }

  /** The route keeps any non-zero price, where the 8-level card walk needs
      at least four digits: a page priced "900원" answers 900, a card priced
      so gives no price. */
  lemma ShortPriceContrast()
    ensures Get(Some("5621602"), Some(DetailPage([], [], [], None, Some("900원")))).price == 900
    ensures PriceAt(Level(None, None, Some("900원"))).None?
  {
    ShortPriceDigits();
    var r := Get(Some("5621602"), Some(DetailPage([], [], [], None, Some("900원"))));
    assert r.price == PriceOfText(Some("900원"));
  }

  /** "900원" holds the three digits of 900. */
  lemma ShortPriceDigits()
    ensures DigitsOnly("900원") == "900" && ParseDigits("900") == 900
  {
    DigitsOf900();
    ValueOf900();
  }

  lemma DigitsOf900()
    ensures DigitsOnly("900원") == "900"
  {
    assert "900원"[..3] == "900";
    assert "900원"[..2] == "90";
    assert "900원"[..1] == "9";
    assert "900원"[..0] == "";
  }

  lemma ValueOf900()
    ensures ParseDigits("900") == 900
  {
    assert "900"[..2] == "90";
    assert "90"[..1] == "9";
    assert "9"[..0] == "";
  }

  /** Where the card walk does find a price, it is the one the route reads. */
  lemma PricesAgree(t: string)
    requires PriceAt(Level(None, None, Some(t))).Some?
    ensures PriceAt(Level(None, None, Some(t))).value == PriceOfText(Some(t))
  {
  }
}

=== FILE: py_crawler.dfy ===
/** The backend crawler's post-processing and cache: the raw records of a
    brand page (the 8-level extraction shared with the debug route) are
    filtered by name, price floor and budget band, normalised, and capped;
    `search_brand_cached` keeps the results for six hours under a key made
    of the brand and the budget label. The browser is an oracle: the page's
    anchors, or `None` when the visit failed. */
module PyCrawler {
  import opened Wrappers
  import opened Text
  import opened Seqs
  import opened Catalog
  import opened Extract
  import Cdn
  import PyScore

  /** A product record as the backend emits it. */
  datatype PyRecord = PyRecord(
    goodsNo: string,
    brand: string,
    productName: string,
    priceKrw: int,
    imageUrl: string,
    productUrl: string,
    isKorean: bool,
    source: string,
    styleTags: Option<seq<string>>)

  const PriceFloor: int := 1000

  /** The raw items with their names stripped, as the loop reads them. */
  function Stripped(raw: seq<RawItem>): (r: seq<RawItem>)
    ensures |r| == |raw|
    ensures forall k :: 0 <= k < |r| ==> r[k] == raw[k].(name := Strip(raw[k].name))
  {
    seq(|raw|, k requires 0 <= k < |raw| => raw[k].(name := Strip(raw[k].name)))
  }

  /** The gate of the loop on a stripped item: a non-empty name, a price of
      at least 1000, and a price inside the band when one is given. */
  predicate Valid(item: RawItem, band: Option<(int, int)>) {
    item.name != "" && item.priceKrw >= PriceFloor
    && (band.Some? ==> band.value.0 <= item.priceKrw <= band.value.1)
  }

  /** The gate as a filter predicate. */
  function Gate(band: Option<(int, int)>): RawItem -> bool {
    x => Valid(x, band)
  }

  /** The record of a raw item that passed the gate; the CDN guess stands in for a falsy image. */
  function Normalise(item: RawItem, brandName: string): PyRecord {
    var g := item.goodsNo.GetOr("");
    var img := if item.imageUrl.Some? && item.imageUrl.value != "" then item.imageUrl.value else Cdn.CdnUrl(g);
    PyRecord(g, brandName, item.name, item.priceKrw, img, item.productUrl, true, "musinsa", None)
  }

  /** Every record names the brand and the source, keeps the item's name,
      price and link, and has the item's image when it is truthy and the CDN
      guess from the goods number (or `""`) otherwise. */
  lemma NormaliseFields(item: RawItem, brandName: string)
    ensures var r := Normalise(item, brandName);
      r.brand == brandName && r.source == "musinsa" && r.isKorean && r.styleTags.None?
      && r.productName == item.name && r.priceKrw == item.priceKrw && r.productUrl == item.productUrl
      && r.goodsNo == item.goodsNo.GetOr("")
      && (item.imageUrl.Some? && item.imageUrl.value != "" ==> r.imageUrl == item.imageUrl.value)
      && (!(item.imageUrl.Some? && item.imageUrl.value != "") ==> r.imageUrl == Cdn.CdnUrl(item.goodsNo.GetOr("")))
  {
  }

  /** The records of all raw items that pass, in page order (the loop without its cap). */
  function Kept(raw: seq<RawItem>, band: Option<(int, int)>, brandName: string): (r: seq<PyRecord>)
    ensures |r| <= |raw|
  {
    if |raw| == 0 then []
    else
      var last := raw[|raw| - 1];
      Kept(raw[..|raw| - 1], band, brandName) + (if Valid(last, band) then [Normalise(last, brandName)] else [])
  }

  /** The kept records are exactly the normalised items of the gate's filter, in order. */
  lemma {:induction false} KeptIsFilter(raw: seq<RawItem>, band: Option<(int, int)>, brandName: string)
    ensures var f := Filter(raw, Gate(band));
      |Kept(raw, band, brandName)| == |f| &&
      forall k :: 0 <= k < |f| ==> Kept(raw, band, brandName)[k] == Normalise(f[k], brandName)
  {
    if |raw| > 0 {
      KeptIsFilter(raw[..|raw| - 1], band, brandName);
    }
  }

  /** The loop's bound: it stops once `limit` records are collected, after
      the append, so a non-positive `limit` still lets one record through. */
  function Cap(limit: int): (n: nat)
    ensures n >= 1 && (limit >= 1 ==> n == limit)
  {
    if limit < 1 then 1 else limit
  }

  /** The loop of `_crawl_brand_playwright` over the stripped raw items. */
  method FilterLoop(raw: seq<RawItem>, band: Option<(int, int)>, brandName: string, limit: int)
    returns (products: seq<PyRecord>)
    ensures products == Take(Kept(raw, band, brandName), Cap(limit))
  {
    products := [];
    var i := 0;
    while i < |raw|
      invariant 0 <= i <= |raw|
      invariant products == Kept(raw[..i], band, brandName)
      invariant |products| < Cap(limit)
    {
      KeptStep(raw, band, brandName, i);
      if Valid(raw[i], band) {
        products := products + [Normalise(raw[i], brandName)];
        if |products| >= limit {
          KeptCapped(raw, band, brandName, limit, i + 1);
          return;
        }
      }
      i := i + 1;
    }
    assert raw[..i] == raw;
  }

  /** One more raw item adds its record when it passes the gate. */
  lemma KeptStep(raw: seq<RawItem>, band: Option<(int, int)>, brandName: string, i: nat)
    requires i < |raw|
    ensures Kept(raw[..i + 1], band, brandName)
         == Kept(raw[..i], band, brandName) + (if Valid(raw[i], band) then [Normalise(raw[i], brandName)] else [])
  {
    assert raw[..i + 1][..i] == raw[..i];
  }

  /** Once a prefix has yielded `Cap(limit)` records, they are the capped records of the whole list. */
  lemma KeptCapped(raw: seq<RawItem>, band: Option<(int, int)>, brandName: string, limit: int, n: nat)
    requires n <= |raw| && |Kept(raw[..n], band, brandName)| == Cap(limit)
    ensures Take(Kept(raw, band, brandName), Cap(limit)) == Kept(raw[..n], band, brandName)
  {
    KeptPrefix(raw, band, brandName, n);
  }

  /** The records of a prefix of the raw items are a prefix of the records. */
  lemma {:induction false} KeptPrefix(raw: seq<RawItem>, band: Option<(int, int)>, brandName: string, n: nat)
    requires n <= |raw|
    ensures var p := Kept(raw[..n], band, brandName); var all := Kept(raw, band, brandName);
      |p| <= |all| && all[..|p|] == p
    decreases |raw| - n
  {
    if n < |raw| {
      KeptPrefix(raw, band, brandName, n + 1);
      assert raw[..n + 1][..n] == raw[..n];
    } else {
      assert raw[..n] == raw;
    }
  }

  /** What the loop keeps: at most `Cap(limit)` records, each from an item
      that passed the gate, with the brand and source filled in. */
  lemma FilterLoopRecords(raw: seq<RawItem>, band: Option<(int, int)>, brandName: string, limit: int)
    ensures var r := Take(Kept(raw, band, brandName), Cap(limit));
      |r| <= Cap(limit) &&
      forall k :: 0 <= k < |r| ==>
        r[k].priceKrw >= PriceFloor && r[k].productName != "" && r[k].brand == brandName && r[k].source == "musinsa"
        && (band.Some? ==> band.value.0 <= r[k].priceKrw <= band.value.1)
  {
    var f := Filter(raw, Gate(band));
    KeptIsFilter(raw, band, brandName);
    var r := Take(Kept(raw, band, brandName), Cap(limit));
    forall k | 0 <= k < |r|
      ensures r[k].priceKrw >= PriceFloor && r[k].productName != "" && r[k].brand == brandName && r[k].source == "musinsa"
      ensures band.Some? ==> band.value.0 <= r[k].priceKrw <= band.value.1
    {
      assert Valid(f[k], band);
    }
  }

  /** With fewer passing items than the cap, every passing item is kept. */
  lemma FilterLoopKeepsAll(raw: seq<RawItem>, band: Option<(int, int)>, brandName: string, limit: int, x: RawItem)
    requires Count(raw, Gate(band)) <= Cap(limit)
    requires x in raw && Valid(x, band)
    ensures Normalise(x, brandName) in Take(Kept(raw, band, brandName), Cap(limit))
  {
    var f := Filter(raw, Gate(band));
    KeptIsFilter(raw, band, brandName);
    var k :| 0 <= k < |f| && f[k] == x;
    assert Take(Kept(raw, band, brandName), Cap(limit))[k] == Normalise(x, brandName);
  }

  /** An unknown budget label sets no band: only the name and the price floor filter. */
  lemma UnknownBudgetNoBand(budgetKrw: string, item: RawItem)
    requires PyScore.BudgetRange(budgetKrw).None?
    ensures Valid(item, PyScore.BudgetRange(budgetKrw)) <==> item.name != "" && item.priceKrw >= PriceFloor
  {
  }

  /** The capped records of an extracted page. */
  function PageRecords(anchors: seq<Anchor>, budgetKrw: string, brandName: string, limit: int): seq<PyRecord> {
    Take(Kept(Stripped(ExtractRaw(anchors)), PyScore.BudgetRange(budgetKrw), brandName), Cap(limit))
  }

  /** `p.setdefault("style_tags", tags)` on records that have none. */
  function WithTags(ps: seq<PyRecord>, tags: seq<string>): (r: seq<PyRecord>)
    ensures |r| == |ps|
    ensures forall k :: 0 <= k < |r| ==> r[k] == ps[k].(styleTags := Some(tags))
  {
    seq(|ps|, k requires 0 <= k < |ps| => ps[k].(styleTags := Some(tags)))
  }

  /** `search_brand(brand, budget_krw, limit)`: no page URL or a failed visit
      gives no records; otherwise the capped records, each tagged with the
      brand's first three style tags. */
  function SearchBrand(b: Brand, budgetKrw: string, limit: int, page: Option<seq<Anchor>>): (r: seq<PyRecord>)
    ensures b.musinsaUrl.None? || b.musinsaUrl.value == "" || page.None? ==> r == []
    ensures forall k :: 0 <= k < |r| ==> r[k].styleTags == Some(Take(b.styleTags.GetOr([]), 3))
  {
    if b.musinsaUrl.None? || b.musinsaUrl.value == "" || page.None? then []
    else WithTags(PageRecords(page.value, budgetKrw, b.nameKo.GetOr(""), limit), Take(b.styleTags.GetOr([]), 3))
  }

  /** `search_brand` as written: `page.set_user_agent` is not a method of
      Playwright's `Page`, so the call raises before the page is visited, the
      handler around the visit catches the error, and the search answers no
      records whatever the page holds. */
  function SearchBrandAsWritten(b: Brand, budgetKrw: string, limit: int, page: Option<seq<Anchor>>): (r: seq<PyRecord>)
    ensures r == []
  {
    SearchBrand(b, budgetKrw, limit, None)
  }

  /** A brand page loses every record the search would keep to the failing call. */
  lemma UserAgentCallLosesRecords(b: Brand, budgetKrw: string, limit: int, anchors: seq<Anchor>)
    requires b.musinsaUrl.Some? && b.musinsaUrl.value != ""
    ensures |SearchBrand(b, budgetKrw, limit, Some(anchors))| == |PageRecords(anchors, budgetKrw, b.nameKo.GetOr(""), limit)|
    ensures SearchBrandAsWritten(b, budgetKrw, limit, Some(anchors)) == []
  {
    SearchBrandVisited(b, budgetKrw, limit, anchors);
  }

  /** A visited page with a brand URL answers its records, tagged. */
  lemma SearchBrandVisited(b: Brand, budgetKrw: string, limit: int, anchors: seq<Anchor>)
    requires b.musinsaUrl.Some? && b.musinsaUrl.value != ""
    ensures SearchBrand(b, budgetKrw, limit, Some(anchors))
      == WithTags(PageRecords(anchors, budgetKrw, b.nameKo.GetOr(""), limit), Take(b.styleTags.GetOr([]), 3))
  {
  }

  /** One entry of the backend cache file; `other` marks further keys, which
      make the entry truthy on their own. */
  datatype PyEntry = PyEntry(products: Option<seq<PyRecord>>, ts: Option<int>, other: bool)

  type PyCache = map<string, PyEntry>

  const CacheTtl: int := 6 * 3600

  /** `f"{brand_id}__{budget_krw or 'all'}"`, with `brand_id` the `id` when the brand has one. */
  function CacheKey(b: Brand, budgetKrw: string): string {
    (if b.id.Some? then b.id.value else b.nameKo.GetOr("unknown")) + "__" + (if budgetKrw == "" then "all" else budgetKrw)
  }

  /** Two budget labels share a key of the same brand only when they are equal, or are `""` and `"all"`. */
  lemma CacheKeySeparatesBudgets(b: Brand, x: string, y: string)
    requires CacheKey(b, x) == CacheKey(b, y)
    ensures x == y || (x == "" && y == "all") || (x == "all" && y == "")
  {
    var p := (if b.id.Some? then b.id.value else b.nameKo.GetOr("unknown")) + "__";
    var sx := if x == "" then "all" else x;
    var sy := if y == "" then "all" else y;
    assert CacheKey(b, x) == p + sx && CacheKey(b, y) == p + sy;
    assert sx == (p + sx)[|p|..];
    assert sy == (p + sy)[|p|..];
  }

  predicate Truthy(e: PyEntry) {
    e.products.Some? || e.ts.Some? || e.other
  }

  /** `cached and time.time() - cached.get("ts", 0) < CACHE_TTL`. */
  predicate PyHit(c: PyCache, key: string, now: int) {
    key in c && Truthy(c[key]) && now - c[key].ts.GetOr(0) < CacheTtl
  }

  /** `search_brand_cached`: the records and the cache after the call.
      `checkNow` is the clock at the test, `stampNow` at the write. */
  function SearchBrandCached(file: Option<PyCache>, b: Brand, budgetKrw: string, limit: int,
                             checkNow: int, stampNow: int, page: Option<seq<Anchor>>): (r: (seq<PyRecord>, PyCache))
    ensures var c := file.GetOr(map[]); var key := CacheKey(b, budgetKrw);
      (PyHit(c, key, checkNow) ==> r == (c[key].products.GetOr([]), c)) &&
      (!PyHit(c, key, checkNow) ==>
        r.0 == SearchBrand(b, budgetKrw, limit, page) && r.1 == c[key := PyEntry(Some(r.0), Some(stampNow), true)])
  {
    var c := file.GetOr(map[]);
    var key := CacheKey(b, budgetKrw);
    if PyHit(c, key, checkNow) then (c[key].products.GetOr([]), c)
    else
      var ps := SearchBrand(b, budgetKrw, limit, page);
      (ps, c[key := PyEntry(Some(ps), Some(stampNow), true)])
  }

  /** A hit answers without the crawler: any page gives the same answer. */
  lemma HitSkipsCrawl(file: Option<PyCache>, b: Brand, budgetKrw: string, limit: int,
                      checkNow: int, stampNow: int, p1: Option<seq<Anchor>>, p2: Option<seq<Anchor>>)
    requires PyHit(file.GetOr(map[]), CacheKey(b, budgetKrw), checkNow)
    ensures SearchBrandCached(file, b, budgetKrw, limit, checkNow, stampNow, p1)
         == SearchBrandCached(file, b, budgetKrw, limit, checkNow, stampNow, p2)
  {
  }

  /** After a miss, a call within six hours of the write hits and answers the same records. */
  lemma MissThenHit(file: Option<PyCache>, b: Brand, budgetKrw: string, limit: int,
                    checkNow: int, stampNow: int, later: int, page: Option<seq<Anchor>>, again: Option<seq<Anchor>>)
    requires !PyHit(file.GetOr(map[]), CacheKey(b, budgetKrw), checkNow)
    requires stampNow <= later < stampNow + CacheTtl
    ensures var r1 := SearchBrandCached(file, b, budgetKrw, limit, checkNow, stampNow, page);
      SearchBrandCached(Some(r1.1), b, budgetKrw, limit, later, later, again) == (r1.0, r1.1)
  {
    var key := CacheKey(b, budgetKrw);
    var r1 := SearchBrandCached(file, b, budgetKrw, limit, checkNow, stampNow, page);
    WriteThenHit(file.GetOr(map[]), key, r1.0, stampNow, later);
  }

  /** A freshly written entry is a hit within six hours and holds the written records. */
  lemma WriteThenHit(c: PyCache, key: string, ps: seq<PyRecord>, stampNow: int, later: int)
    requires stampNow <= later < stampNow + CacheTtl
    ensures var c' := c[key := PyEntry(Some(ps), Some(stampNow), true)];
      PyHit(c', key, later) && c'[key].products.GetOr([]) == ps
  {
  }

  /** The condition the backend's test script checks of the cache file:
      every cached record is priced at 1000 or more and has an image. */
  predicate Healthy(c: PyCache) {
    forall key :: key in c && c[key].products.Some? ==>
      forall k :: 0 <= k < |c[key].products.value| ==>
        c[key].products.value[k].priceKrw >= PriceFloor && c[key].products.value[k].imageUrl != ""
  }

  /** Records of an extracted page pass the script's check. */
  lemma SearchBrandHealthy(b: Brand, budgetKrw: string, limit: int, page: Option<seq<Anchor>>)
    ensures forall k :: 0 <= k < |SearchBrand(b, budgetKrw, limit, page)| ==>
      SearchBrand(b, budgetKrw, limit, page)[k].priceKrw >= PriceFloor
      && SearchBrand(b, budgetKrw, limit, page)[k].imageUrl != ""
  {
    if !(b.musinsaUrl.None? || b.musinsaUrl.value == "" || page.None?) {
      var ps := PageRecords(page.value, budgetKrw, b.nameKo.GetOr(""), limit);
      var r := SearchBrand(b, budgetKrw, limit, page);
      PageRecordsHealthy(page.value, budgetKrw, b.nameKo.GetOr(""), limit);
      assert r == WithTags(ps, Take(b.styleTags.GetOr([]), 3));
      forall k | 0 <= k < |r| ensures r[k].priceKrw >= PriceFloor && r[k].imageUrl != "" {
        assert r[k].priceKrw == ps[k].priceKrw && r[k].imageUrl == ps[k].imageUrl;
      }
    }
  }

  lemma PageRecordsHealthy(anchors: seq<Anchor>, budgetKrw: string, name: string, limit: int)
    ensures forall k :: 0 <= k < |PageRecords(anchors, budgetKrw, name, limit)| ==>
      PageRecords(anchors, budgetKrw, name, limit)[k].priceKrw >= PriceFloor
      && PageRecords(anchors, budgetKrw, name, limit)[k].imageUrl != ""
  {
    var raw := Stripped(ExtractRaw(anchors));
    var band := PyScore.BudgetRange(budgetKrw);
    FilterLoopRecords(raw, band, name, limit);
    KeptIsFilter(raw, band, name);
    var f := Filter(raw, Gate(band));
    var ps := PageRecords(anchors, budgetKrw, name, limit);
    forall k | 0 <= k < |ps| ensures ps[k].imageUrl != "" {
      assert f[k] in raw;
      StrippedImagePresent(anchors, f[k]);
      NormaliseFields(f[k], name);
    }
  }

  /** Stripping names keeps the goods number and image of every raw record. */
  lemma StrippedImagePresent(anchors: seq<Anchor>, x: RawItem)
    requires x in Stripped(ExtractRaw(anchors))
    ensures x.goodsNo.Some? && x.goodsNo.value != [] && x.imageUrl.Some? && x.imageUrl.value != ""
  {
    var raw := ExtractRaw(anchors);
    var j :| 0 <= j < |raw| && Stripped(raw)[j] == x;
    RawImagePresent(anchors, raw[j]);
  }

  /** Every extracted raw record has a goods number and a non-empty image. */
  lemma RawImagePresent(anchors: seq<Anchor>, x: RawItem)
    requires x in ExtractRaw(anchors)
    ensures x.goodsNo.Some? && x.goodsNo.value != [] && x.imageUrl.Some? && x.imageUrl.value != ""
  {
    var links := NameLinks(anchors);
    var k :| 0 <= k < |ExtractRaw(anchors)| && ExtractRaw(anchors)[k] == x;
    assert Qualifies(links[k]);
    var a := links[k];
    if Walk8Image(a.ancestors).Some? {
      var levels := Take(a.ancestors, 8);
      var i := FirstIndex(levels, ImgAt);
      ContainsLength(levels[i].msscdnImg.value, "goods_img");
    }
  }

  /** The cache stays healthy across a call, so the script's check holds of every cache the backend writes. */
  lemma SearchBrandCachedHealthy(file: Option<PyCache>, b: Brand, budgetKrw: string, limit: int,
                                 checkNow: int, stampNow: int, page: Option<seq<Anchor>>)
    requires Healthy(file.GetOr(map[]))
    ensures Healthy(SearchBrandCached(file, b, budgetKrw, limit, checkNow, stampNow, page).1)
  {
    SearchBrandHealthy(b, budgetKrw, limit, page);
  }
}

=== FILE: py_score.dfy ===
/** The backend's brand scoring (`calc_match_score`) and ranking
    (`rank_brands`): 35 points for the share of selected styles one of whose
    keywords occurs inside a brand tag (truncated), 25 when the budget band
    overlaps the brand's price range, 5 for a confirmed idol reference. */
module PyScore {
  import opened Wrappers
  import opened Text
  import opened Seqs
  import opened Catalog
  import Ranking
  import Arith

  /** `_STYLE_MAP`: style label to the keywords searched for in brand tags. */
  function StyleMap(style: string): Option<seq<string>> {
    if style == "미니멀" then Some(["미니멀", "베이직", "놈코어", "모던", "크린핏"])
    else if style == "스트리트" then Some(["스트릿", "스트리트", "그래픽", "오버핏"])
    else if style == "빈티지" then Some(["빈티지", "레트로", "아메카지", "프렌치"])
    else if style == "캐주얼" then Some(["캐주얼", "데일리", "베이직", "스포티"])
    else if style == "포멀" then Some(["포멀", "오피스룩", "테일러드", "클래식"])
    else if style == "Y2K" then Some(["Y2K", "하이틴", "컬러풀", "레이어드"])
    else if style == "아메카지" then Some(["아메카지", "빈티지", "데님", "캐주얼"])
    else if style == "럭셔리 캐주얼" then Some(["럭셔리", "하이엔드", "아방가르드", "아티스틱"])
    else None
  }

  /** `BUDGET_RANGE`: budget label to the inclusive band `(lo, hi)`. */
  function BudgetRange(key: string): Option<(int, int)> {
    if key == "~5만원" then Some((0, 50000))
    else if key == "5~15만원" then Some((50000, 150000))
    else if key == "15~30만원" then Some((150000, 300000))
    else if key == "30만원+" then Some((300000, 9999999))
    else None
  }

  /** The request fields the scorer reads: `styles` and `budget_krw`. */
  datatype PyInput = PyInput(styles: Option<seq<string>>, budgetKrw: Option<string>)

  /** A style matches when one of its keywords (itself, when unknown) occurs inside a brand tag. */
  predicate StyleMatched(brandTags: seq<string>, style: string) {
    var keywords := StyleMap(style).GetOr([style]);
    exists i, j :: 0 <= i < |keywords| && 0 <= j < |brandTags| && Contains(brandTags[j], keywords[i])
  }

  /** `price_range_krw.get("min", 0)` and `.get("max", 9_999_999)`. */
  function BrandMin(b: Brand): int {
    if b.priceRange.Some? then b.priceRange.value.min.GetOr(0) else 0
  }

  function BrandMax(b: Brand): int {
    if b.priceRange.Some? then b.priceRange.value.max.GetOr(9999999) else 9999999
  }

  /** The test of one selected style against the brand's tags. */
  function Matches(b: Brand): string -> bool {
    s => StyleMatched(b.styleTags.GetOr([]), s)
  }

  /** `int(35 * matched / len(user_styles))`: 35 times the share of selected
      styles that match, truncated; 0 when no style is selected. */
  function StylePoints(u: PyInput, b: Brand): (p: nat)
    ensures p <= 35
    ensures |u.styles.GetOr([])| == 0 ==> p == 0
    ensures |u.styles.GetOr([])| > 0 ==>
      var n := |u.styles.GetOr([])|;
      var h := Count(u.styles.GetOr([]), Matches(b));
      n * p <= 35 * h < n * (p + 1)
  {
    var styles := u.styles.GetOr([]);
    if |styles| == 0 then 0
    else
      Arith.ScaledShare(35, Count(styles, Matches(b)), |styles|)
  }

  /** 25 when the label names a band and the brand's range meets it. */
  function BudgetPoints(u: PyInput, b: Brand): (p: nat)
    ensures p == 0 || p == 25
    ensures p == 25 <==> (BudgetRange(u.budgetKrw.GetOr("")).Some?
                          && BrandMin(b) <= BudgetRange(u.budgetKrw.GetOr("")).value.1
                          && BrandMax(b) >= BudgetRange(u.budgetKrw.GetOr("")).value.0)
  {
    match BudgetRange(u.budgetKrw.GetOr(""))
    case Some(band) => if BrandMin(b) <= band.1 && BrandMax(b) >= band.0 then 25 else 0
    case None => 0
  }

  /** `calc_match_score(user_input, brand)`: the three parts added up, at most 65. */
  function CalcMatchScore(u: PyInput, b: Brand): (r: nat)
    ensures r <= 65
  {
    StylePoints(u, b) + BudgetPoints(u, b) + (if Confirmed(b) then 5 else 0)
  }

  /** A style label not in the table is its own only keyword. */
  lemma UnknownStyleIsOwnKeyword(brandTags: seq<string>, style: string)
    requires StyleMap(style).None?
    ensures StyleMatched(brandTags, style) <==> exists j :: 0 <= j < |brandTags| && Contains(brandTags[j], style)
  {
    var keywords := [style];
    if exists j :: 0 <= j < |brandTags| && Contains(brandTags[j], style) {
      var j :| 0 <= j < |brandTags| && Contains(brandTags[j], style);
      assert keywords[0] == style;
    }
  }

  /** The style part is the full 35 exactly when every selected style matches. */
  lemma StylePointsFull(u: PyInput, b: Brand)
    requires |u.styles.GetOr([])| > 0
    ensures StylePoints(u, b) == 35 <==>
      forall i :: 0 <= i < |u.styles.GetOr([])| ==> StyleMatched(b.styleTags.GetOr([]), u.styles.GetOr([])[i])
  {
  }

  /** The scores of the brands, in input order. */
  function Scores(u: PyInput, brands: seq<Brand>): (keys: seq<int>)
    ensures |keys| == |brands|
    ensures forall i :: 0 <= i < |brands| ==> keys[i] == CalcMatchScore(u, brands[i])
  {
    seq(|brands|, i requires 0 <= i < |brands| => CalcMatchScore(u, brands[i]) as int)
  }

  /** `[b for _, b in sorted(scored, key=-score)]`: the brands in the stable order of their scores. */
  function RankBrands(u: PyInput, brands: seq<Brand>): (r: seq<Brand>)
    ensures |r| == |brands|
    ensures forall k :: 0 <= k < |r| ==> r[k] == brands[Ranking.Order(Scores(u, brands))[k]]
    ensures forall i, j :: 0 <= i < j < |r| ==> CalcMatchScore(u, r[i]) >= CalcMatchScore(u, r[j])
  {
    var p := Ranking.Order(Scores(u, brands));
    assert Ranking.Below(p, |brands|);
    Ranking.Arrange(brands, p)
  }

  /** The ranking is a permutation of its input, and equal scores keep input order. */
  lemma RankBrandsStable(u: PyInput, brands: seq<Brand>)
    ensures multiset(RankBrands(u, brands)) == multiset(brands)
    ensures forall i, j ::
      (0 <= i < j < |brands| && CalcMatchScore(u, RankBrands(u, brands)[i]) == CalcMatchScore(u, RankBrands(u, brands)[j]))
      ==> Ranking.Order(Scores(u, brands))[i] < Ranking.Order(Scores(u, brands))[j]
  {
    Ranking.OrderPermutes(brands, Scores(u, brands));
  }
}

=== FILE: ranking.dfy ===
/** Stable sort by a numeric key, largest key first. Both the backend's
    `scored.sort(key=lambda x: -x[0])` and the client's
    `brands.sort((a, b) => kb - ka)` are stable sorts that put larger keys
    first and keep equal keys in input order. The sort is computed on
    positions: `Order(keys)` lists the positions `0 .. |keys|-1` so that each
    position comes before every later one in the strict order `Before`
    (larger key first, then smaller position first). */
module Ranking {

  /** Position `a` goes before position `b`: larger key, or equal key and earlier. */
  predicate Before(keys: seq<int>, a: nat, b: nat) {
    a < |keys| && b < |keys| && (keys[a] > keys[b] || (keys[a] == keys[b] && a < b))
  }

  predicate SortedBy(keys: seq<int>, s: seq<nat>) {
    forall i, j :: 0 <= i < j < |s| ==> Before(keys, s[i], s[j])
  }

  /** Every position in `p` is below `n`. */
  predicate Below(p: seq<nat>, n: nat) {
    forall k :: 0 <= k < |p| ==> p[k] < n
  }

  /** Inserts position `x` in front of the first entry it goes before. */
  function Insert(keys: seq<int>, x: nat, s: seq<nat>): (r: seq<nat>)
    ensures |r| == |s| + 1
    ensures forall y :: y in r <==> y == x || y in s
  {
    if |s| == 0 then [x]
    else if Before(keys, x, s[0]) then [x] + s
    else
      assert s == [s[0]] + s[1..];
      [s[0]] + Insert(keys, x, s[1..])
  }

  /** Inserting a position below `n` among positions below `n` gives positions below `n`. */
  lemma {:induction false} InsertBelow(keys: seq<int>, x: nat, s: seq<nat>, n: nat)
    requires x < n && Below(s, n)
    ensures Below(Insert(keys, x, s), n)
  {
    if |s| > 0 && !Before(keys, x, s[0]) {
      InsertBelow(keys, x, s[1..], n);
    }
  }

  /** Inserting into a sorted list keeps it sorted. */
  lemma {:induction false} InsertSorted(keys: seq<int>, x: nat, s: seq<nat>)
    requires x < |keys| && x !in s
    requires Below(s, |keys|)
    requires SortedBy(keys, s)
    ensures SortedBy(keys, Insert(keys, x, s))
  {
    if |s| > 0 && !Before(keys, x, s[0]) {
      var rest := Insert(keys, x, s[1..]);
      InsertSorted(keys, x, s[1..]);
      assert Before(keys, s[0], x);
      forall k | 0 <= k < |rest| ensures Before(keys, s[0], rest[k]) {
        assert rest[k] in rest;
        if rest[k] != x {
          var j :| 1 <= j < |s| && s[j] == rest[k];
        }
      }
    }
  }

  /** The first `n` positions, sorted by insertion. */
  function OrderPrefix(keys: seq<int>, n: nat): (r: seq<nat>)
    requires n <= |keys|
    ensures |r| == n
  {
    if n == 0 then [] else Insert(keys, n - 1, OrderPrefix(keys, n - 1))
  }

  /** The prefix order holds exactly the positions below `n`, sorted. */
  lemma OrderPrefixSpec(keys: seq<int>, n: nat)
    requires n <= |keys|
    ensures Below(OrderPrefix(keys, n), n)
    ensures forall y: int :: y in OrderPrefix(keys, n) <==> 0 <= y < n
    ensures SortedBy(keys, OrderPrefix(keys, n))
  {
    OrderPrefixBelow(keys, n);
    OrderPrefixMembers(keys, n);
    OrderPrefixSorted(keys, n);
  }

  lemma {:induction false} OrderPrefixBelow(keys: seq<int>, n: nat)
    requires n <= |keys|
    ensures Below(OrderPrefix(keys, n), n)
  {
    if n > 0 {
      OrderPrefixBelow(keys, n - 1);
      var q := OrderPrefix(keys, n - 1);
      assert Below(q, n);
      InsertBelow(keys, n - 1, q, n);
    }
  }

  lemma {:induction false} OrderPrefixMembers(keys: seq<int>, n: nat)
    requires n <= |keys|
    ensures forall y: int :: y in OrderPrefix(keys, n) <==> 0 <= y < n
  {
    if n > 0 {
      OrderPrefixMembers(keys, n - 1);
    }
  }

  lemma {:induction false} OrderPrefixSorted(keys: seq<int>, n: nat)
    requires n <= |keys|
    ensures SortedBy(keys, OrderPrefix(keys, n))
  {
    if n > 0 {
      var q := OrderPrefix(keys, n - 1);
      OrderPrefixSorted(keys, n - 1);
      OrderPrefixBelow(keys, n - 1);
      OrderPrefixMembers(keys, n - 1);
      assert Below(q, |keys|);
      InsertSorted(keys, n - 1, q);
    }
  }

  /** All positions of `keys`, largest key first, ties in input order. Every
      position occurs exactly once. */
  function Order(keys: seq<int>): (r: seq<nat>)
    ensures |r| == |keys|
    ensures forall i :: 0 <= i < |r| ==> r[i] < |keys|
    ensures forall y: int :: y in r <==> 0 <= y < |keys|
    ensures forall i, j :: 0 <= i < j < |r| ==> r[i] != r[j]
    ensures forall i, j :: 0 <= i < j < |r| ==> keys[r[i]] >= keys[r[j]]
    ensures forall i, j :: 0 <= i < j < |r| && keys[r[i]] == keys[r[j]] ==> r[i] < r[j]
  {
    var r := OrderPrefix(keys, |keys|);
    OrderPrefixSpec(keys, |keys|);
    assert forall i, j :: 0 <= i < j < |r| ==> Before(keys, r[i], r[j]);
    r
  }

  /** The elements of `s` at the positions `p`, in that order (positions
      outside `s` contribute nothing). */
  function Arrange<T>(s: seq<T>, p: seq<nat>): (r: seq<T>)
    ensures Below(p, |s|) ==> |r| == |p| && forall k :: 0 <= k < |p| ==> r[k] == s[p[k]]
  {
    if |p| == 0 then []
    else
      assert Below(p, |s|) ==> Below(p[1..], |s|);
      (if p[0] < |s| then [s[p[0]]] else []) + Arrange(s, p[1..])
  }

  lemma ArrangeCons<T>(s: seq<T>, y: nat, p: seq<nat>)
    ensures Arrange(s, [y] + p) == Arrange(s, [y]) + Arrange(s, p)
  {
    assert ([y] + p)[1..] == p;
    assert [y][1..] == [];
  }

  /** Inserting a position adds exactly its element to the arrangement. */
  lemma {:induction false} ArrangeInsert<T>(s: seq<T>, keys: seq<int>, x: nat, q: seq<nat>)
    requires x < |s|
    ensures multiset(Arrange(s, Insert(keys, x, q))) == multiset(Arrange(s, q)) + multiset{s[x]}
    decreases |q|
  {
    if |q| == 0 {
    } else if Before(keys, x, q[0]) {
      ArrangeCons(s, x, q);
      assert Arrange(s, [x]) == [s[x]];
    } else {
      ArrangeInsert(s, keys, x, q[1..]);
      ArrangeInsertLater(s, keys, x, q);
    }
  }

  lemma ArrangeInsertLater<T>(s: seq<T>, keys: seq<int>, x: nat, q: seq<nat>)
    requires x < |s|
    requires |q| > 0 && !Before(keys, x, q[0])
    requires multiset(Arrange(s, Insert(keys, x, q[1..]))) == multiset(Arrange(s, q[1..])) + multiset{s[x]}
    ensures multiset(Arrange(s, Insert(keys, x, q))) == multiset(Arrange(s, q)) + multiset{s[x]}
  {
    var q' := q[1..];
    var r' := Insert(keys, x, q');
    var e := Arrange(s, [q[0]]);
    assert Arrange(s, Insert(keys, x, q)) == e + Arrange(s, r') by {
      assert Insert(keys, x, q) == [q[0]] + r';
      ArrangeCons(s, q[0], r');
    }
    assert Arrange(s, q) == e + Arrange(s, q') by {
      assert q == [q[0]] + q';
      ArrangeCons(s, q[0], q');
    }
    MultisetSwap(Arrange(s, [q[0]]), Arrange(s, q'), Arrange(s, r'), s[x]);
  }

  /** Multiset algebra: a common front part does not disturb one added element. */
  lemma MultisetSwap<T>(e: seq<T>, a: seq<T>, b: seq<T>, x: T)
    requires multiset(b) == multiset(a) + multiset{x}
    ensures multiset(e + b) == multiset(e + a) + multiset{x}
  {
    assert multiset(e + b) == multiset(e) + multiset(b);
    assert multiset(e + a) == multiset(e) + multiset(a);
  }

  lemma {:induction false} ArrangePrefix<T>(s: seq<T>, keys: seq<int>, n: nat)
    requires |keys| == |s| && n <= |s|
    ensures multiset(Arrange(s, OrderPrefix(keys, n))) == multiset(s[..n])
  {
    if n > 0 {
      ArrangePrefix(s, keys, n - 1);
      ArrangePrefixStep(s, keys, n);
    }
  }

  lemma ArrangePrefixStep<T>(s: seq<T>, keys: seq<int>, n: nat)
    requires |keys| == |s| && 0 < n <= |s|
    requires multiset(Arrange(s, OrderPrefix(keys, n - 1))) == multiset(s[..n - 1])
    ensures multiset(Arrange(s, OrderPrefix(keys, n))) == multiset(s[..n])
  {
    ArrangeInsert(s, keys, n - 1, OrderPrefix(keys, n - 1));
    MultisetSnoc(s, n);
  }

  lemma MultisetSnoc<T>(s: seq<T>, n: nat)
    requires 0 < n <= |s|
    ensures multiset(s[..n]) == multiset(s[..n - 1]) + multiset{s[n - 1]}
  {
    assert s[..n] == s[..n - 1] + [s[n - 1]];
  }

  /** Arranging a sequence in the sorted order is a permutation of it. */
  lemma OrderPermutes<T>(s: seq<T>, keys: seq<int>)
    requires |keys| == |s|
    ensures multiset(Arrange(s, Order(keys))) == multiset(s)
  {
    ArrangePrefix(s, keys, |s|);
    assert s[..|s|] == s;
  }

  /** The sorted order is the only arrangement of all positions that is
      sorted by `Before`: the ranking is fully determined by the keys. */
  lemma {:induction false} SortedUnique(keys: seq<int>, a: seq<nat>, b: seq<nat>)
    requires SortedBy(keys, a) && SortedBy(keys, b)
    requires forall y :: y in a <==> y in b
    ensures a == b
    decreases |a|
  {
    SameMembersEmpty(a, b);
    if |a| > 0 {
      assert a[0] in a && b[0] in b;
      assert a[0] == b[0];
      assert a == [a[0]] + a[1..] && b == [b[0]] + b[1..];
      forall y ensures y in a[1..] <==> y in b[1..] {
        if y in a[1..] {
          var k :| 0 <= k < |a[1..]| && a[1..][k] == y;
          assert a[k + 1] == y;
          assert Before(keys, a[0], y);
          assert y in a;
          assert y in b;
        }
        if y in b[1..] {
          var k :| 0 <= k < |b[1..]| && b[1..][k] == y;
          assert b[k + 1] == y;
          assert Before(keys, b[0], y);
          assert y in b;
          assert y in a;
        }
      }
      SortedUnique(keys, a[1..], b[1..]);
    }
  }

  lemma SameMembersEmpty(a: seq<nat>, b: seq<nat>)
    requires forall y :: y in a <==> y in b
    ensures |a| == 0 <==> |b| == 0
  {
    if |a| > 0 {
      assert a[0] in a;
    }
    if |b| > 0 {
      assert b[0] in b;
    }
  }
}

=== FILE: recommend_route.dfy ===
/** The client's `/api/recommend` route: rank the catalogue's brands for the
    request with the client scorer, keep the first ten, and attach to each
    the products cached under its `id`. */
module RecommendRoute {
  import opened Wrappers
  import opened Seqs
  import opened Catalog
  import opened JsScore
  import Ranking

  datatype Answer = Recommended(results: seq<Brand>) | ServerError

  /** `cache[brand.id]?.products ?? []`. */
  function CachedProducts(cache: Cache, id: Option<string>): (ps: seq<Item>)
    ensures JsKey(id) !in cache ==> ps == []
    ensures JsKey(id) in cache && cache[JsKey(id)].products.Some? ==> ps == cache[JsKey(id)].products.value
  {
    if JsKey(id) in cache then cache[JsKey(id)].products.GetOr([]) else []
  }

  /** `POST` with the parsed body (`None` when it is not JSON), the brand
      catalogue's `brands` field (`None` when the file is unreadable or the
      field absent) and the cache file (`None` when unreadable). */
  function Post(body: Option<UserInput>, brands: Option<seq<Brand>>, file: Option<Cache>): (r: Answer)
    ensures body.None? || brands.None? <==> r == ServerError
    ensures r.Recommended? ==> |r.results| == if |brands.value| < 10 then |brands.value| else 10
  {
    if body.None? || brands.None? then ServerError
    else
      var top := Take(RankBrands(body.value, brands.value), 10);
      var cache := LoadCache(file);
      Recommended(seq(|top|, k requires 0 <= k < |top| => top[k].(products := Some(CachedProducts(cache, top[k].id)))))
  }

  /** The answer is the head of the ranking, each brand with its score and cached products. */
  lemma PostIsTopOfRanking(u: UserInput, brands: seq<Brand>, file: Option<Cache>, k: nat)
    requires k < |Post(Some(u), Some(brands), file).results|
    ensures var r := Post(Some(u), Some(brands), file).results[k];
      var ranked := RankBrands(u, brands)[k];
      r.(products := ranked.products) == ranked && r.matchScore == Some(CalcMatchScore(u, brands[Ranking.Order(RankKeys(u, brands))[k]]))
      && r.products == Some(CachedProducts(LoadCache(file), ranked.id))
  {
  }

  /** No brand left out of the ten ranks above a brand that is kept. */
  lemma PostKeepsBest(u: UserInput, brands: seq<Brand>, file: Option<Cache>, k: nat, j: nat)
    requires k < |Post(Some(u), Some(brands), file).results|
    requires 10 <= j < |brands|
    ensures ShownKey(RankBrands(u, brands)[j]) <= ShownKey(Post(Some(u), Some(brands), file).results[k])
  {
    RankBrandsOrdered(u, brands);
    var r := Post(Some(u), Some(brands), file).results[k];
    assert ShownKey(r) == ShownKey(RankBrands(u, brands)[k]);
  }
}

=== FILE: seqs.dfy ===
/** Sequence helpers: `slice(0, n)`, first-occurrence de-duplication
    (`filter((x, i, arr) => arr.indexOf(x) === i)`) and the subsequence order. */
module Seqs {
  import opened Wrappers

  /** `s.slice(0, n)` / Python `s[:n]` for `n >= 0`; a non-positive `n` gives `[]`. */
  function Take<T>(s: seq<T>, n: int): (r: seq<T>)
    ensures |r| <= |s| && (n >= 0 ==> |r| <= n)
    ensures n >= |s| ==> r == s
    ensures 0 <= n <= |s| ==> |r| == n
    ensures forall i :: 0 <= i < |r| ==> r[i] == s[i]
  {
    if n <= 0 then [] else if n < |s| then s[..n] else s
  }

  predicate NoDup<T(==)>(s: seq<T>) {
    forall i, j :: 0 <= i < j < |s| ==> s[i] != s[j]
  }

  /** `s.indexOf(x)`: the position of the first occurrence of `x`. */
  function IndexOf<T(==)>(s: seq<T>, x: T): (i: nat)
    requires x in s
    ensures i < |s| && s[i] == x && x !in s[..i]
  {
    if s[0] == x then 0 else 1 + IndexOf(s[1..], x)
  }

  lemma IndexOfPrefix<T>(s: seq<T>, n: nat, x: T)
    requires n <= |s| && x in s[..n]
    ensures IndexOf(s, x) == IndexOf(s[..n], x)
  {
    var i := IndexOf(s[..n], x);
    assert s[..n][..i] == s[..i];
  }

  /** `a` is obtained from `b` by deleting elements (order kept). */
  predicate Subseq<T(==)>(a: seq<T>, b: seq<T>)
    decreases |b|
  {
    if |a| == 0 then true
    else if |b| == 0 then false
    else if a[|a| - 1] == b[|b| - 1] then Subseq(a[..|a| - 1], b[..|b| - 1])
    else Subseq(a, b[..|b| - 1])
  }

  lemma {:induction false} SubseqRefl<T>(a: seq<T>)
    ensures Subseq(a, a)
  {
    if |a| > 0 {
      SubseqRefl(a[..|a| - 1]);
    }
  }

  lemma {:induction false} SubseqEmpty<T>(b: seq<T>)
    ensures Subseq([], b)
  {
  }

  /** Extending the longer sequence keeps the relation. */
  lemma {:induction false} SubseqExtend<T>(a: seq<T>, b: seq<T>, x: T)
    requires Subseq(a, b)
    ensures Subseq(a, b + [x])
    decreases |b|, 1
  {
    if |a| > 0 && a[|a| - 1] == x {
      assert (b + [x])[..|b|] == b;
      SubseqDrop(a, b);
    } else {
      assert (b + [x])[..|b|] == b;
    }
  }

  /** Dropping the last element of the shorter sequence keeps the relation. */
  lemma {:induction false} SubseqDrop<T>(a: seq<T>, b: seq<T>)
    requires |a| > 0 && Subseq(a, b)
    ensures Subseq(a[..|a| - 1], b)
    decreases |b|, 0
  {
    if a[|a| - 1] == b[|b| - 1] {
      SubseqExtend(a[..|a| - 1], b[..|b| - 1], b[|b| - 1]);
      assert b[..|b| - 1] + [b[|b| - 1]] == b;
    } else {
      SubseqDrop(a, b[..|b| - 1]);
      SubseqExtend(a[..|a| - 1], b[..|b| - 1], b[|b| - 1]);
      assert b[..|b| - 1] + [b[|b| - 1]] == b;
    }
  }

  /** Appending the same element to both sides keeps the relation. */
  lemma SubseqSnoc<T>(a: seq<T>, b: seq<T>, x: T)
    requires Subseq(a, b)
    ensures Subseq(a + [x], b + [x])
  {
    assert (a + [x])[..|a|] == a;
    assert (b + [x])[..|b|] == b;
  }

  /** Every element of a subsequence occurs in the longer sequence. */
  lemma {:induction false} SubseqMembers<T>(a: seq<T>, b: seq<T>)
    requires Subseq(a, b)
    ensures forall x :: x in a ==> x in b
    decreases |b|
  {
    if |a| > 0 {
      if a[|a| - 1] == b[|b| - 1] {
        SubseqMembers(a[..|a| - 1], b[..|b| - 1]);
        assert a == a[..|a| - 1] + [a[|a| - 1]];
        assert b == b[..|b| - 1] + [b[|b| - 1]];
      } else {
        SubseqMembers(a, b[..|b| - 1]);
        assert b == b[..|b| - 1] + [b[|b| - 1]];
      }
    }
  }

  /** A prefix is a subsequence. */
  lemma {:induction false} PrefixSubseq<T>(b: seq<T>, n: nat)
    requires n <= |b|
    ensures Subseq(b[..n], b)
    decreases |b|
  {
    if n == |b| {
      assert b[..n] == b;
      SubseqRefl(b);
    } else {
      PrefixSubseq(b[..|b| - 1], n);
      assert b[..|b| - 1][..n] == b[..n];
      SubseqExtend(b[..n], b[..|b| - 1], b[|b| - 1]);
      assert b[..|b| - 1] + [b[|b| - 1]] == b;
    }
  }

  /** `Take` keeps a prefix, so a subsequence. */
  lemma TakeSubseq<T>(s: seq<T>, n: int)
    ensures Subseq(Take(s, n), s)
  {
    var r := Take(s, n);
    assert r == s[..|r|];
    PrefixSubseq(s, |r|);
  }

  /** `s.filter(p).slice(0, n)`: the first `n` elements satisfying `p`, in order. */
  lemma FilterTake<T>(s: seq<T>, p: T -> bool, n: nat)
    ensures var r := Take(Filter(s, p), n);
      |r| == (if Count(s, p) < n then Count(s, p) else n)
      && r == Filter(s, p)[..|r|]
      && Subseq(r, Filter(s, p))
      && forall i :: 0 <= i < |r| ==> p(r[i])
  {
    TakeSubseq(Filter(s, p), n);
  }

  lemma {:induction false} SubseqTrans<T>(a: seq<T>, b: seq<T>, c: seq<T>)
    requires Subseq(a, b) && Subseq(b, c)
    ensures Subseq(a, c)
    decreases |c|
  {
    if |a| == 0 {
    } else if |b| == 0 {
    } else if b[|b| - 1] == c[|c| - 1] {
      var b' := b[..|b| - 1];
      var c' := c[..|c| - 1];
      if a[|a| - 1] == b[|b| - 1] {
        SubseqTrans(a[..|a| - 1], b', c');
      } else {
        SubseqTrans(a, b', c');
        SubseqExtend(a, c', c[|c| - 1]);
        assert c' + [c[|c| - 1]] == c;
      }
    } else {
      SubseqTrans(a, b, c[..|c| - 1]);
      SubseqExtend(a, c[..|c| - 1], c[|c| - 1]);
      assert c[..|c| - 1] + [c[|c| - 1]] == c;
    }
  }

  /** First-occurrence de-duplication: position `k` is kept exactly when
      `s[k]` has not occurred before it, i.e. `s.indexOf(s[k]) === k`.
      The result has no repeats and holds every element of `s`. */
  function Dedup<T(==)>(s: seq<T>): (r: seq<T>)
    ensures NoDup(r)
    ensures forall i :: 0 <= i < |r| ==> r[i] in s
    ensures forall i :: 0 <= i < |s| ==> s[i] in r
  {
    if |s| == 0 then []
    else if s[|s| - 1] in s[..|s| - 1] then Dedup(s[..|s| - 1])
    else Dedup(s[..|s| - 1]) + [s[|s| - 1]]
  }

  /** De-duplication keeps the relative order of the elements it keeps. */
  lemma {:induction false} DedupSubseq<T>(s: seq<T>)
    ensures Subseq(Dedup(s), s)
  {
    if |s| > 0 {
      var init := s[..|s| - 1];
      var x := s[|s| - 1];
      DedupSubseq(init);
      assert init + [x] == s;
      if x in init {
        SubseqExtend(Dedup(init), init, x);
      } else {
        SubseqSnoc(Dedup(init), init, x);
      }
    }
  }

  /** De-duplication lists the kept elements in the order of their first
      occurrence in `s`. */
  lemma {:induction false} DedupFirstOrder<T>(s: seq<T>)
    ensures forall i, j :: 0 <= i < j < |Dedup(s)| ==> IndexOf(s, Dedup(s)[i]) < IndexOf(s, Dedup(s)[j])
  {
    if |s| > 0 {
      var init := s[..|s| - 1];
      var x := s[|s| - 1];
      var p := Dedup(init);
      DedupFirstOrder(init);
      forall i | 0 <= i < |p|
        ensures IndexOf(s, p[i]) == IndexOf(init, p[i]) < |s| - 1
      {
        IndexOfPrefix(s, |s| - 1, p[i]);
      }
      if x !in init {
        var r := p + [x];
        assert IndexOf(s, x) == |s| - 1;
        forall i, j | 0 <= i < j < |r|
          ensures IndexOf(s, r[i]) < IndexOf(s, r[j])
        {
          if j < |p| {
            assert r[i] == p[i] && r[j] == p[j];
          } else {
            assert r[i] == p[i] && r[j] == x;
          }
        }
      }
    }
  }

  /** `s.filter(p).length`: how many elements satisfy `p`. All of them
      exactly when the count is `|s|`, none exactly when it is 0. */
  function Count<T>(s: seq<T>, p: T -> bool): (n: nat)
    ensures n <= |s|
    ensures n == |s| <==> forall i :: 0 <= i < |s| ==> p(s[i])
    ensures n == 0 <==> forall i :: 0 <= i < |s| ==> !p(s[i])
  {
    if |s| == 0 then 0
    else
      var init := s[..|s| - 1];
      var n := Count(init, p) + (if p(s[|s| - 1]) then 1 else 0);
      assert forall i :: 0 <= i < |init| ==> init[i] == s[i];
      n
  }

  /** Tests that agree on every element count the same. */
  lemma {:induction false} CountSame<T>(s: seq<T>, p: T -> bool, q: T -> bool)
    requires forall i :: 0 <= i < |s| ==> p(s[i]) == q(s[i])
    ensures Count(s, p) == Count(s, q)
  {
    if |s| > 0 {
      CountSame(s[..|s| - 1], p, q);
    }
  }

  /** No element of `a` occurs in `b`. */
  predicate Disjoint<T(==)>(a: seq<T>, b: seq<T>) {
    forall i, j :: 0 <= i < |a| && 0 <= j < |b| ==> a[i] != b[j]
  }

  /** Two repeat-free, disjoint sequences concatenate to a repeat-free one. */
  lemma NoDupAppend<T>(a: seq<T>, b: seq<T>)
    requires NoDup(a) && NoDup(b) && Disjoint(a, b)
    ensures NoDup(a + b)
  {
    forall i, j | 0 <= i < j < |a + b| ensures (a + b)[i] != (a + b)[j] {
      if j < |a| {
      } else if i < |a| {
        assert (a + b)[j] == b[j - |a|];
      } else {
        assert (a + b)[i] == b[i - |a|] && (a + b)[j] == b[j - |a|];
      }
    }
  }

  /** `s.filter(p)`: the elements satisfying `p`, in order. Every element of
      `s` satisfying `p` is kept, and only those. */
  function Filter<T(==)>(s: seq<T>, p: T -> bool): (r: seq<T>)
    ensures |r| == Count(s, p)
    ensures forall i :: 0 <= i < |r| ==> p(r[i]) && r[i] in s
    ensures forall x :: x in s && p(x) ==> x in r
    ensures Subseq(r, s)
  {
    if |s| == 0 then []
    else
      var init := s[..|s| - 1];
      var x := s[|s| - 1];
      var q := Filter(init, p);
      assert s == init + [x];
      if p(x) then
        SubseqSnoc(q, init, x);
        q + [x]
      else
        SubseqExtend(q, init, x);
        q
  }

  /** The position of the first element on which `f` gives a value, or `|s|`. */
  function FirstIndex<T, U>(s: seq<T>, f: T -> Option<U>): (k: nat)
    ensures k <= |s|
    ensures forall j :: 0 <= j < k ==> f(s[j]).None?
    ensures k < |s| ==> f(s[k]).Some?
  {
    if |s| == 0 then 0
    else if f(s[0]).Some? then 0
    else
      var k := FirstIndex(s[1..], f);
      assert forall j :: 1 <= j < k + 1 ==> s[j] == s[1..][j - 1];
      k + 1
  }

  /** The value `f` gives on the first element where it gives one: the scan
      that stops at the first hit. */
  function First<T, U>(s: seq<T>, f: T -> Option<U>): (r: Option<U>)
    ensures r.None? <==> forall j :: 0 <= j < |s| ==> f(s[j]).None?
  {
    var k := FirstIndex(s, f);
    if k < |s| then f(s[k]) else None
  }

  /** Scanning a concatenation: the first part decides unless it has no hit. */
  lemma {:induction false} FirstAppend<T, U>(s: seq<T>, t: seq<T>, f: T -> Option<U>)
    ensures First(s + t, f) == if First(s, f).Some? then First(s, f) else First(t, f)
  {
    var k := FirstIndex(s, f);
    var kt := FirstIndex(t, f);
    var ks := FirstIndex(s + t, f);
    if k < |s| {
      assert (s + t)[k] == s[k];
      assert forall j :: 0 <= j < k ==> (s + t)[j] == s[j];
      FirstIndexUnique(s + t, f, k);
    } else {
      assert forall j :: 0 <= j < |s| ==> (s + t)[j] == s[j];
      assert forall j :: 0 <= j < kt ==> (s + t)[|s| + j] == t[j];
      if kt < |t| {
        assert (s + t)[|s| + kt] == t[kt];
        FirstIndexUnique(s + t, f, |s| + kt);
      } else {
        assert forall j :: 0 <= j < |s + t| ==> f((s + t)[j]).None? by {
          forall j | 0 <= j < |s + t| ensures f((s + t)[j]).None? {
            if j >= |s| { assert (s + t)[j] == t[j - |s|]; }
          }
        }
      }
    }
  }

  /** The first hit is the only position with a hit and none before it. */
  lemma FirstIndexUnique<T, U>(s: seq<T>, f: T -> Option<U>, k: nat)
    requires k < |s| && f(s[k]).Some?
    requires forall j :: 0 <= j < k ==> f(s[j]).None?
    ensures FirstIndex(s, f) == k
  {
  }

  /** `s.filter((x, i, arr) => arr.indexOf(x) === i).slice(0, n)`. */
  function CapDedup<T(==)>(s: seq<T>, n: nat): seq<T> {
    Take(Dedup(s), n)
  }

  /** The capped de-duplication holds at most `n` elements, each once, each
      from `s`, in the order of their first occurrence in `s`: it is the
      first `n` distinct elements of `s` (all of them when there are fewer).
      An element of `s` is left out only when the list is full and every
      kept element occurs first before it. */
  lemma CapDedupSpec<T>(s: seq<T>, n: nat)
    ensures |CapDedup(s, n)| <= n && NoDup(CapDedup(s, n))
    ensures |CapDedup(s, n)| == if |Dedup(s)| < n then |Dedup(s)| else n
    ensures CapDedup(s, n) == Dedup(s)[..|CapDedup(s, n)|]
    ensures Subseq(CapDedup(s, n), s)
    ensures forall x :: x in CapDedup(s, n) ==> x in s
    ensures |Dedup(s)| <= n ==> forall x :: x in s ==> x in CapDedup(s, n)
    ensures forall i, j :: 0 <= i < j < |CapDedup(s, n)| ==>
      IndexOf(s, CapDedup(s, n)[i]) < IndexOf(s, CapDedup(s, n)[j])
    ensures forall x :: x in s && x !in CapDedup(s, n) ==> DroppedAfterKept(s, CapDedup(s, n), n, x)
  {
    var d := Dedup(s);
    var r := CapDedup(s, n);
    assert r == d[..|r|];
    PrefixSubseq(d, |r|);
    DedupSubseq(s);
    SubseqTrans(r, d, s);
    DedupFirstOrder(s);
    forall x | x in s && x !in r
      ensures DroppedAfterKept(s, r, n, x)
    {
      CapDedupDropped(s, n, x);
    }
  }

  /** `x` was left out of the capped list `r` because `r` is full and every
      element of `r` first occurs in `s` before `x` does. */
  predicate DroppedAfterKept<T(==)>(s: seq<T>, r: seq<T>, n: nat, x: T) {
    x in s && |r| == n && forall i :: 0 <= i < |r| ==> r[i] in s && IndexOf(s, r[i]) < IndexOf(s, x)
  }

  lemma CapDedupDropped<T>(s: seq<T>, n: nat, x: T)
    requires x in s && x !in CapDedup(s, n)
    ensures DroppedAfterKept(s, CapDedup(s, n), n, x)
  {
    var d := Dedup(s);
    var r := CapDedup(s, n);
    assert r == d[..|r|];
    var k := IndexOf(s, x);
    assert s[k] == x;
    var p :| 0 <= p < |d| && d[p] == x;
    assert p >= |r|;
    DedupFirstOrder(s);
    forall i | 0 <= i < |r| ensures IndexOf(s, r[i]) < IndexOf(s, x) {
      assert r[i] == d[i];
    }
  }
}

=== FILE: text.dfy ===
/** String helpers shared by the crawler variants: substring tests, trimming,
    the digits-only price parse and its inverse, ASCII lower-casing. */
module Text {

  predicate IsDigit(c: char) {
    '0' <= c <= '9'
  }

  predicate AllDigits(s: string) {
    forall i :: 0 <= i < |s| ==> IsDigit(s[i])
  }

  /** `s.startsWith(p)` / `p` is a prefix of `s`. */
  predicate StartsWith(s: string, p: string) {
    |p| <= |s| && s[..|p|] == p
  }

  /** `s.includes(p)` / Python `p in s`: `p` occurs somewhere in `s`. */
  predicate Contains(s: string, p: string)
    decreases |s|
  {
    StartsWith(s, p) || (|s| > 0 && Contains(s[1..], p))
  }

  lemma {:induction false} ContainsInfix(a: string, p: string, b: string)
    ensures Contains(a + p + b, p)
  {
    if |a| == 0 {
      assert (a + p + b)[..|p|] == p;
    } else {
      assert (a + p + b)[1..] == a[1..] + p + b;
      ContainsInfix(a[1..], p, b);
    }
  }

  lemma ContainsEmpty(s: string)
    ensures Contains(s, "")
  {
  }

  /** An occurrence of `p` lies inside `s`, so `s` is at least as long. */
  lemma {:induction false} ContainsLength(s: string, p: string)
    requires Contains(s, p)
    ensures |p| <= |s|
  {
    if !StartsWith(s, p) {
      ContainsLength(s[1..], p);
    }
  }

  /** The whitespace JavaScript's `trim()` removes: the WhiteSpace and
      LineTerminator characters of ECMAScript (section 12.2 and 12.3 of
      ECMA-262), that is ASCII tab, line feed, vertical tab, form feed,
      carriage return and space, the space separators, the line and
      paragraph separators and the byte-order mark. */
  predicate IsSpace(c: char) {
    c == '\t' || c == '\n' || c == '\U{B}' || c == '\U{C}' || c == '\r' || c == ' '
    || c == '\U{A0}' || c == '\U{1680}' || ('\U{2000}' <= c <= '\U{200A}')
    || c == '\U{2028}' || c == '\U{2029}' || c == '\U{202F}' || c == '\U{205F}'
    || c == '\U{3000}' || c == '\U{FEFF}'
  }

  /** The whitespace Python's `str.strip()` removes (`str.isspace`): the
      same as JavaScript's except that the information separators U+001C to
      U+001F and the next-line character U+0085 are whitespace and the
      byte-order mark is not. */
  predicate IsPySpace(c: char) {
    (IsSpace(c) && c != '\U{FEFF}') || ('\U{1C}' <= c <= '\U{1F}') || c == '\U{85}'
  }

  predicate AllIn(s: string, sp: char -> bool) {
    forall i :: 0 <= i < |s| ==> sp(s[i])
  }

  predicate AllSpace(s: string) {
    AllIn(s, IsSpace)
  }

  function TrimStart(s: string, sp: char -> bool): (r: string)
    ensures |r| <= |s|
    ensures r == [] || !sp(r[0])
    ensures r == s[|s| - |r|..]
    ensures AllIn(s[..|s| - |r|], sp)
  {
    if |s| > 0 && sp(s[0]) then TrimStart(s[1..], sp) else s
  }

  function TrimEnd(s: string, sp: char -> bool): (r: string)
    ensures |r| <= |s|
    ensures r == [] || !sp(r[|r| - 1])
    ensures r == s[..|r|]
    ensures AllIn(s[|r|..], sp)
  {
    if |s| > 0 && sp(s[|s| - 1]) then TrimEnd(s[..|s| - 1], sp) else s
  }

  /** Both ends of `s` stripped of the characters `sp` calls whitespace. The
      result is empty exactly when `s` is all whitespace, and otherwise
      starts and ends with a non-space character. */
  function TrimBy(s: string, sp: char -> bool): (r: string)
    ensures |r| <= |s|
    ensures r == [] <==> AllIn(s, sp)
    ensures r == [] || (!sp(r[0]) && !sp(r[|r| - 1]))
  {
    var t := TrimStart(s, sp);
    var r := TrimEnd(t, sp);
    assert r == [] ==> AllIn(s, sp) by {
      if r == [] {
        assert s == s[..|s| - |t|] + t;
        assert t == t[..0] + t[0..];
      }
    }
    r
  }

  lemma TrimByIdempotent(s: string, sp: char -> bool)
    ensures TrimBy(TrimBy(s, sp), sp) == TrimBy(s, sp)
  {
    var r := TrimBy(s, sp);
    if r != [] {
      assert TrimStart(r, sp) == r;
      assert TrimEnd(r, sp) == r;
    }
  }

  /** JavaScript's `s.trim()`. */
  function Trim(s: string): (r: string)
    ensures |r| <= |s|
    ensures r == [] <==> AllSpace(s)
    ensures r == [] || (!IsSpace(r[0]) && !IsSpace(r[|r| - 1]))
  {
    TrimBy(s, IsSpace)
  }

  lemma TrimIdempotent(s: string)
    ensures Trim(Trim(s)) == Trim(s)
  {
    TrimByIdempotent(s, IsSpace);
  }

  /** Python's `s.strip()`. */
  function Strip(s: string): (r: string)
    ensures |r| <= |s|
    ensures r == [] <==> AllIn(s, IsPySpace)
    ensures r == [] || (!IsPySpace(r[0]) && !IsPySpace(r[|r| - 1]))
  {
    TrimBy(s, IsPySpace)
  }

  /** The two whitespace sets differ: an information separator survives
      `trim()` but not `strip()`, and a byte-order mark the other way round. */
  lemma TrimAndStripDiffer()
    ensures Trim("\U{1C}") == "\U{1C}" && Strip("\U{1C}") == ""
    ensures Trim("\U{FEFF}") == "" && Strip("\U{FEFF}") == "\U{FEFF}"
  {
    SeparatorKind();
    TrimByKeeps('\U{1C}', IsSpace);
    TrimByDrops('\U{1C}', IsPySpace);
    TrimByKeeps('\U{FEFF}', IsPySpace);
    TrimByDrops('\U{FEFF}', IsSpace);
  }

  lemma SeparatorKind()
    ensures !IsSpace('\U{1C}') && IsPySpace('\U{1C}')
    ensures IsSpace('\U{FEFF}') && !IsPySpace('\U{FEFF}')
  {
  }

  /** A single non-space character is its own trimming. */
  lemma TrimByKeeps(c: char, sp: char -> bool)
    requires !sp(c)
    ensures TrimBy([c], sp) == [c]
  {
    assert TrimStart([c], sp) == [c];
  }

  /** A single space character trims to nothing. */
  lemma TrimByDrops(c: char, sp: char -> bool)
    requires sp(c)
    ensures TrimBy([c], sp) == []
  {
    assert AllIn([c], sp);
  }

  /** JavaScript's `s.length`: the number of UTF-16 code units, two for
      each character beyond U+FFFF. */
  function JsLength(s: string): nat {
    if |s| == 0 then 0
    else JsLength(s[..|s| - 1]) + (if s[|s| - 1] > '\U{FFFF}' then 2 else 1)
  }

  /** The JavaScript length lies between the number of characters and twice it. */
  lemma {:induction false} JsLengthBounds(s: string)
    ensures |s| <= JsLength(s) <= 2 * |s|
  {
    if |s| > 0 {
      JsLengthBounds(s[..|s| - 1]);
    }
  }

  /** A two-character string with an emoji has JavaScript length 3. */
  lemma AstralCountsTwice()
    ensures |"a\U{1F600}"| == 2 && JsLength("a\U{1F600}") == 3
  {
    assert "a\U{1F600}"[..1] == "a";
  }

  /** `text.replace(/[^0-9]/g, '')`: the ASCII digits of `s`, in order. */
  function DigitsOnly(s: string): (r: string)
    ensures AllDigits(r)
    ensures |r| <= |s|
    ensures AllDigits(s) ==> r == s
  {
    if |s| == 0 then ""
    else DigitsOnly(s[..|s| - 1]) + (if IsDigit(s[|s| - 1]) then [s[|s| - 1]] else [])
  }

  /** Removing non-digits distributes over concatenation. */
  lemma {:induction false} DigitsOnlyAppend(a: string, b: string)
    ensures DigitsOnly(a + b) == DigitsOnly(a) + DigitsOnly(b)
    decreases |b|
  {
    if |b| == 0 {
      assert a + b == a;
    } else {
      assert (a + b)[..|a + b| - 1] == a + b[..|b| - 1];
      DigitsOnlyAppend(a, b[..|b| - 1]);
    }
  }

  function DigitValue(c: char): (d: nat)
    requires IsDigit(c)
    ensures d < 10
  {
    (c as int) - ('0' as int)
  }

  function DigitChar(d: nat): (c: char)
    requires d < 10
    ensures IsDigit(c) && DigitValue(c) == d
  {
    (('0' as int) + d) as char
  }

  /** The value of a decimal numeral; the empty numeral is 0. */
  function ParseDigits(s: string): nat
    requires AllDigits(s)
  {
    if |s| == 0 then 0 else ParseDigits(s[..|s| - 1]) * 10 + DigitValue(s[|s| - 1])
  }

  /** Python `str(n)` / JavaScript `${n}` for a non-negative integer. */
  function NatToString(n: nat): (s: string)
    ensures AllDigits(s) && |s| > 0
    ensures |s| == 1 || s[0] != '0'
  {
    if n < 10 then [DigitChar(n)] else NatToString(n / 10) + [DigitChar(n % 10)]
  }

  /** Printing a number and parsing it back gives the number. */
  lemma {:induction false} ParsePrinted(n: nat)
    ensures ParseDigits(NatToString(n)) == n
  {
    var s := NatToString(n);
    if n >= 10 {
      assert s[..|s| - 1] == NatToString(n / 10);
      ParsePrinted(n / 10);
    }
  }

  /** Parsing a canonical numeral (no leading zero) and printing it gives the numeral back. */
  lemma {:induction false} PrintParsed(s: string)
    requires AllDigits(s) && |s| > 0 && (|s| == 1 || s[0] != '0')
    ensures NatToString(ParseDigits(s)) == s
    decreases |s|
  {
    var init := s[..|s| - 1];
    var d := DigitValue(s[|s| - 1]);
    if |s| == 1 {
      assert ParseDigits(s) == d;
      assert [DigitChar(d)] == s;
    } else {
      assert init[0] == s[0];
      PrintParsed(init);
      LeadingNonZero(init);
      var n := ParseDigits(s);
      assert n == ParseDigits(init) * 10 + d;
      assert n / 10 == ParseDigits(init) && n % 10 == d;
      assert DigitChar(d) == s[|s| - 1];
      assert s == init + [s[|s| - 1]];
    }
  }

  /** A numeral of two or more digits with no leading zero has a positive value. */
  lemma {:induction false} LeadingNonZero(s: string)
    requires AllDigits(s) && |s| > 0 && s[0] != '0'
    ensures ParseDigits(s) > 0
    decreases |s|
  {
    if |s| > 1 {
      assert s[..|s| - 1][0] == s[0];
      LeadingNonZero(s[..|s| - 1]);
    }
  }

  /** The longest run of digits at the start of `s` (what `\d+` consumes). */
  function LeadingDigits(s: string): (r: string)
    ensures AllDigits(r)
    ensures StartsWith(s, r)
    ensures |r| == |s| || !IsDigit(s[|r|])
  {
    if |s| > 0 && IsDigit(s[0]) then [s[0]] + LeadingDigits(s[1..]) else ""
  }

  lemma {:induction false} LeadingDigitsOf(g: string, rest: string)
    requires AllDigits(g)
    requires rest == [] || !IsDigit(rest[0])
    ensures LeadingDigits(g + rest) == g
    decreases |g|
  {
    if |g| == 0 {
      assert g + rest == rest;
    } else {
      assert (g + rest)[1..] == g[1..] + rest;
      LeadingDigitsOf(g[1..], rest);
    }
  }

  /** ASCII upper case to lower case, other characters unchanged. */
  function LowerChar(c: char): char {
    if 'A' <= c <= 'Z' then ((c as int) + 32) as char else c
  }

  function Lower(s: string): (r: string)
    ensures |r| == |s|
    ensures forall i :: 0 <= i < |s| ==> r[i] == LowerChar(s[i])
  {
    if |s| == 0 then "" else [LowerChar(s[0])] + Lower(s[1..])
  }

  /** A case-insensitive test `/w1|w2|…/i.test(text)` for lower-case words `ws`. */
  predicate MatchesAnyCI(text: string, ws: seq<string>) {
    exists i :: 0 <= i < |ws| && Contains(Lower(text), ws[i])
  }

  /** Python `s.replace(a, b)` for a single character `a`: every occurrence replaced. */
  function ReplaceChar(s: string, a: char, b: string): (r: string)
    ensures a !in b ==> a !in r
    ensures a !in s ==> r == s
  {
    if |s| == 0 then ""
    else (if s[0] == a then b else [s[0]]) + ReplaceChar(s[1..], a, b)
  }
}

=== FILE: wrappers.dfy ===
/** Optional values and results, used for JSON fields that may be absent
    (`undefined`/`null`/a missing dict key) and for error returns. */
module Wrappers {

  datatype Option<+T> = None | Some(value: T) {

    /** The value if present, else `default` (JavaScript `??`, Python `.get(k, default)`). */
    function GetOr(default: T): T {
      match this
      case Some(v) => v
      case None => default
    }
  }

  datatype Result<+R, +E> = Success(value: R) | Failure(error: E)
}
